=== FILE: README.md ===
# sbpd: Squeezebox control daemon, modelled in Dafny

sbpd runs on a Raspberry Pi and turns push buttons and rotary encoders wired
to GPIO pins into JSON-RPC commands for a Logitech Media Server (Squeezebox
server). This project models the core of that daemon as pure Dafny functions
and proves what each part promises:

- **The GPIO registry and interrupt routines** (`Gpio`). These are the fixed
  arrays of 17 buttons and 8 encoders, `setupbutton` / `setupencoder`, and
  the interrupt routines `updateButtons` and `updateEncoders`, including the
  quadrature table that turns pin transitions into +1 / -1 steps.
- **The control layer** (`Control`). This binds a button to one of six command
  fragments (PLAY, VOL+, VOL-, PREV, NEXT, POWR) and an encoder to the volume
  template. The button callback marks a press. `handle_buttons` and
  `handle_encoders` decide what goes to the server. Whether a send succeeded
  is a parameter.
- **Server discovery** (`Inet`, `TcpTable`, `DiscoveryProtocol`, `Discovery`):
  - the address search over the Linux TCP table for a connection to port
    3483 (`get_serverIPv4`);
  - the 23-byte UDP discovery request;
  - `read_discovery`'s walk over the tag-length-value records of the
    server's reply;
  - `poll_discovery`, which schedules the search every 31 polls and fills
    the host and port into the server record.
- **Start-up** (`Options`). This covers `parse_opt` (the argp callback for the
  options and the positional `b,pin,CMD[,edge]` / `e,pin1,pin2,CMD[,edge]`
  device specs), `loglevel`, and the MAC step of `main`.
- **`Scenarios`** ties the layers together: a VOL+ button from its
  command-line spec to the fragment sent, a steady encoder turn to "+n", and the discovery from the
  TCP table to a complete server record.

The target is the 32-bit ARM Raspberry Pi:

- `long` and `ssize_t` are 32 bits wide and `char` is unsigned;
- `strtoul` / `strtol` saturate at the 32-bit limits;
- the `sbpd_config_parameters_t` bit set (host 0x1, port 0x2, user 0x4,
  password 0x8, MAC 0x1000) is modelled as a set of flags.

Values that never get near their width (encoder counts, pins) are unbounded
integers.

The files are `wrappers.dfy`, `cstring.dfy`, `sbpd_defs.dfy`, `gpio.dfy`,
`control.dfy`, `inet.dfy`, `tcp_table.dfy`, `discovery_protocol.dfy`,
`discovery.dfy`, `options.dfy` and `scenarios.dfy`. They form one program and
are verified together.

Where the code and its documentation disagree, the model follows the code:

- The port discovery is documented as running whenever the port is not
  configured. In the code the discovery request is sent only by the address
  search, and that search is skipped when the host is configured. With a
  configured host and no configured port, `read_discovery` reads from a
  socket that was never opened, so the port is never discovered
  (`Discovery.HostConfiguredPortNeverFound`).
- The search runs every 31 polls, not every 30 (3 s / 100 ms), because
  `!search_timer--` spends one poll on the zero (`Discovery.SearchSchedule`).

## Model

| member | source | states |
|---|---|---|
| CString.Tokens | sbpd/sbpd.c:277-307 | successive strtok calls give the maximal non-empty delimiter-free runs; a C string gives C-string tokens |
| CString.TokensOfJoin | sbpd/sbpd.c:277-307 | tokenising a delimiter-joined list of non-empty, delimiter-free tokens gives the list back |
| CString.TokensOfJoinedFields | sbpd/sbpd.c:277-307 | tokenising any delimiter-joined list of delimiter-free fields, empty ones included, gives exactly the non-empty fields in order: a run of delimiters counts as one |
| CString.WordMatches | sbpd/sbpd.h:64 | comparing STRTOU32 words of a C string and a 4-character code is comparing the string's first four characters with the code; a shorter string never matches |
| CString.StrToUL | sbpd/discovery.c:292 | strtoul with a 32-bit unsigned long stays within ULONG_MAX and gives 0 when no digits follow |
| CString.StrToL | sbpd/sbpd.c:285 | strtol with a 32-bit long saturates within LONG_MIN..LONG_MAX and gives 0 without digits |
| CString.StrToULOfDecimal | sbpd/sbpd.c:233 | strtoul reads back every value %d prints that fits |
| CString.StrToLOfDecimal | sbpd/sbpd.c:302 | strtol reads back every value %d prints that fits |
| Gpio.SetupSlot | squeezerotate.c:339-360 | with the corrected guard a registration succeeds exactly when the pool has a free slot; it takes the next slot, changes nothing else, and an edge other than falling or rising becomes both |
| Gpio.SetupButton | squeezerotate.c:339-360 | the next button slot gets the pin and callback with value false, only while fewer than 17 are registered; a full pool is unchanged |
| Gpio.SetupEncoder | squeezerotate.c:393-419 | the next encoder slot gets both pins and the callback with value 0 and code 0, only while fewer than 8 are registered |
| Gpio.SetupAllFillsInOrder | squeezerotate.c:393-419 | in a run of registrations the i-th succeeds exactly when count + i is below the capacity, and takes slot count + i |
| Gpio.SetupSlotAsWritten | squeezerotate.c:341-350 | the guard as written refuses only above the capacity, so a call on a full pool gets slot index count |
| Gpio.SetupGuardsAgree | squeezerotate.c:341-350 | the guard as written and the corrected guard register the same slot on every pool that is not full; on a full pool the corrected guard refuses and the guard as written hands out the index one past the array |
| Gpio.ButtonGuardOverruns | squeezerotate.c:341-345 | on any full button pool setupbutton as written passes its guard and indexes buttons[17] of the 17-slot array, where the corrected guard refuses |
| Gpio.EncoderGuardOverruns | squeezerotate.c:395-399 | on any full encoder pool setupencoder as written passes its guard and indexes encoders[8] of the 8-slot array, where the corrected guard refuses |
| Gpio.NotificationsExact | squeezerotate.c:334-335 | exactly the slots with a callback are notified, each once, in slot order, with that slot's change |
| Gpio.ButtonChange | squeezerotate.c:327-330 | the change reported is the new level minus the stored level (+1, -1 or 0) |
| Gpio.UpdateButtons | squeezerotate.c:320-337 | every registered button stores its sample; every button with a callback is notified once, even with change 0, in slot order |
| Gpio.ButtonChangesTelescope | squeezerotate.c:320-337 | over any run of interrupts a button's reported changes add up to its final level minus its initial level |
| Gpio.Increment | squeezerotate.c:377-383 | the transition table gives +1 for one step forward on the quadrature cycle 11-01-00-10, -1 for one step back, and 0 otherwise |
| Gpio.IncrementTable | squeezerotate.c:382-383 | the table in full: +1 for 1101, 0100, 0010, 1011; -1 for 1110, 0111, 0001, 1000; 0 for the other eight codes |
| Gpio.IncrementAntisymmetric | squeezerotate.c:382-383 | reversing a transition negates its increment |
| Gpio.StepEncoder | squeezerotate.c:374-387 | one encoder step adds the Gray-code step from the previous to the new code and stores the new code |
| Gpio.StepIncrement | squeezerotate.c:377-385 | the amount one step adds to the encoder value is the increment the transition table gives for the old and new codes |
| Gpio.UpdateEncoders | squeezerotate.c:369-391 | every registered encoder takes one step on its sampled pins; each callback receives exactly the change of its own value |
| Gpio.SteadyTurnCounts | squeezerotate.c:369-391 | a run that moves one phase per sample adds one per sample clockwise and subtracts one counter-clockwise |
| Gpio.ClockwiseCycleAddsFour | squeezerotate.c:382 | a full clockwise detent cycle 11, 01, 00, 10, 11 adds 4 |
| Gpio.CounterClockwiseCycleSubtractsFour | squeezerotate.c:383 | the reverse cycle subtracts 4 |
| Control.FragmentForCodeIsTable | sbpd/control.c:83-96 | for commands of up to four characters the STRTOU32 if-chain selects exactly the fragment of the six-entry command table, and nothing for other commands |
| Control.SetupButtonCtrl | sbpd/control.c:74-111 | 0 exactly for a table command while fewer than 17 buttons exist: a new idle control bound to the next GPIO slot with the command's fragment, that slot registered with the press callback and no other slot changed; otherwise -1 and nothing changes |
| Control.SetupEncoderCtrl | sbpd/control.c:151-176 | 0 while fewer than 8 encoders exist: a control with baseline 0 and the volume template, bound to the next GPIO slot, that slot registered and no other slot changed; otherwise -1 and nothing changes |
| Control.EncoderCommandIgnored | sbpd/control.c:152-163 | the command given for an encoder makes no difference |
| Control.SetupButtonCtrlAsWritten | sbpd/control.c:74-111 | as written, 0 exactly for a table command, and then control index numberofbuttons is written with no capacity check, after setupbutton's own guard as written; -1 writes nothing |
| Control.SetupEncoderCtrlAsWritten | sbpd/control.c:151-176 | as written, every call returns 0 and writes control index numberofencoders, after setupencoder's own guard as written |
| Control.ButtonCtrlAgrees | sbpd/control.c:74-111 | the code as written and the corrected setup return the same status except for a table command with 17 controls already defined, and on success write the same control and GPIO indices |
| Control.EncoderCtrlAgrees | sbpd/control.c:151-176 | the code as written and the corrected setup return the same status except with 8 controls already defined, and on success write the same indices |
| Control.ButtonCtrlOverruns | sbpd/control.c:99-104 | on any device with 17 button controls, a table command is accepted as written and writes button_ctrls[17] and buttons[17], past their 17 entries; the corrected setup returns -1 |
| Control.EncoderCtrlOverruns | sbpd/control.c:164-169 | on any device with 8 encoder controls, another encoder spec is accepted as written and writes encoder_ctrls[8] and encoders[8], past their 8 entries; the corrected setup returns -1 |
| Control.PressButton | sbpd/control.c:50-57 | the first control bound to the button becomes waiting, whatever the change; an unknown button changes nothing |
| Control.DeliverMarks | sbpd/control.c:50-57 | delivering an interrupt's notifications marks exactly the notified controls waiting and leaves the rest |
| Control.DeliverToAll | sbpd/control.c:50-57 | every configured button has the press callback, so one interrupt marks every button control waiting and changes nothing else in it |
| Control.ButtonInterrupt | sbpd/control.c:50-57 | after any button interrupt every configured button control is waiting, not only the one that moved, and no control is ever reset |
| Control.WaitingFragmentsExact | sbpd/control.c:118-126 | one fragment per waiting control, and a fragment appears exactly when some waiting control carries it |
| Control.HandleButtons | sbpd/control.c:118-126 | the fragments sent are those of the waiting controls, in index order |
| Control.VolumeFragmentRoundTrip | sbpd/control.c:212-215 | every volume fragment states its delta: sign and magnitude read back exactly |
| Control.VolumeFragmentFits | sbpd/control.c:212-215 | for any 32-bit delta the fragment has at most 32 characters, so the 50-byte snprintf never truncates |
| Control.PollEncoder | sbpd/control.c:198-221 | a fragment is sent exactly when the delta from the baseline is nonzero and at most 100, and it states that delta; the baseline moves to the value only after a successful send |
| Control.MovedDeltas | sbpd/control.c:202-206 | the movements owed a fragment, in index order, are nonzero and at most 100 |
| Control.MovedDeltasCount | sbpd/control.c:202-206 | one movement is owed per control whose encoder moved by a nonzero amount of at most 100 |
| Control.MovedDeltasMembers | sbpd/control.c:202-206 | a movement is owed exactly when some moved control moved by it |
| Control.PollEncoders | sbpd/control.c:198-221 | each control is polled on its own value; the fragments sent are, in index order, the volume fragments of the owed movements, whatever the send outcomes |
| Control.MovedEncodersCount | sbpd/control.c:198-206 | one movement is owed per control whose GPIO encoder slot moved within the cap |
| Control.HandleEncoders | sbpd/control.c:183-223 | only the encoder controls change, each as its own poll says; the fragments sent are, in index order, the volume fragments of the movements of the encoders that moved within the cap, one per such encoder |
| Control.QuietAfterSuccess | sbpd/control.c:217-219 | after a successful send, a poll without further rotation sends nothing |
| Control.RetryFromBaseline | sbpd/control.c:217-219 | after a failed send the next poll sends the delta accumulated since the old baseline |
| Control.StuckAboveCap | sbpd/control.c:203-205 | while the encoder stays more than 100 ahead of the baseline nothing is sent and the baseline never moves |
| Inet.ToOctets | sbpd/discovery.c:117-126 | the octets of an address, least significant first, rebuild the address |
| Inet.FromOctetsInjective | sbpd/discovery.c:117-126 | distinct octets give distinct addresses |
| Inet.NtoaRoundTrip | sbpd/discovery.c:75-76 | inet_addr reads back every address inet_ntoa prints |
| Inet.ParseDottedCanonical | sbpd/discovery.c:75-76 | every string inet_addr accepts here is exactly what inet_ntoa prints for its result |
| Inet.NtoaFits | sbpd/discovery.c:120-124 | the dotted form has at most 15 characters, so it fits the 16-byte buffer with its NUL |
| TcpTable.ClassifyRow | sbpd/discovery.c:147-183 | a row without a third field or without two ':' parts stops the scan; any other row is a server row exactly when its upper-cased remote port starts with 0D9B, and a server row's IP is the hexadecimal strtoul of the first part |
| TcpTable.PortWordMatches | sbpd/discovery.c:163-173 | the STRTOU32 comparison of the upper-cased port is a comparison of its first four characters |
| TcpTable.ScanRows | sbpd/discovery.c:145-186 | the scan reports a change exactly when the address it returns differs from the one it started with |
| TcpTable.GetServerIPv4 | sbpd/discovery.c:135-144 | an unreadable or empty table gives no change and the address unchanged; otherwise the header line is skipped and the rows after it decide |
| TcpTable.ServerRowFound | sbpd/discovery.c:141-176 | a server row for a new address right after the header is reported as a change to that address, whatever follows |
| TcpTable.FirstDecisiveDecides | sbpd/discovery.c:151-183 | the first row that is not skipped decides the scan, whatever follows |
| TcpTable.AllSkippedFindsNothing | sbpd/discovery.c:184-186 | a table of skipped rows finds nothing |
| TcpTable.ChangeHasWitness | sbpd/discovery.c:173-180 | a changed address always comes from the first decisive row, which is a server row with that address |
| DiscoveryProtocol.RequestLayout | sbpd/discovery.c:219-222 | the request is 23 bytes: 'e', the IPAD, NAME, JSON and UUID records with empty values, and two zero bytes |
| DiscoveryProtocol.StrNCpy | sbpd/discovery.c:272 | strncpy copies up to the first NUL or n bytes, pads with NULs to n, and leaves the bytes after n |
| DiscoveryProtocol.StrNCpyPrefix | sbpd/discovery.c:284 | only the first n source bytes matter to strncpy |
| DiscoveryProtocol.Walk | sbpd/discovery.c:266-287 | the record walk keeps a 6-byte port buffer; it stops with None when a value copy would read past the datagram |
| DiscoveryProtocol.CopyInsideMeans | sbpd/discovery.c:284 | a strncpy of n bytes stays inside the received bytes exactly when n fits in them or a NUL byte comes first |
| DiscoveryProtocol.WalkStep | sbpd/discovery.c:266-276 | one loop iteration over a record that lies inside the datagram goes on after the record with that record's copy made |
| DiscoveryProtocol.WalkAtEnd | sbpd/discovery.c:266 | when the signed guard stops the loop at a record, that record is a last one with an empty value and changes nothing |
| DiscoveryProtocol.WalkOfRecords | sbpd/discovery.c:266-287 | on a datagram laid out as a list of records the walk ends with exactly those records applied to the port buffer, in order |
| DiscoveryProtocol.ReadDiscovery | sbpd/discovery.c:240-251 | no datagram, or one that does not start with 'E', reads as 0 |
| DiscoveryProtocol.WalkOfEncoded | sbpd/discovery.c:266-287 | walking an encoded record list applies exactly its records to the port buffer, in order |
| DiscoveryProtocol.ReadEncodedReply | sbpd/discovery.c:254-292 | an encoded reply reads as the number at the start of the port buffer its JSON records leave |
| DiscoveryProtocol.OverlayWithoutJson | sbpd/discovery.c:283-285 | records other than JSON leave the port buffer alone |
| DiscoveryProtocol.OverlayAppend | sbpd/discovery.c:280-287 | the records of two lists apply one list after the other |
| DiscoveryProtocol.InitialPortReads | sbpd/discovery.c:259-260 | the untouched port buffer reads as 9000 |
| DiscoveryProtocol.DefaultPort | sbpd/discovery.c:259-292 | a reply without a JSON record yields the default port 9000 |
| DiscoveryProtocol.JsonDigitsOverlay | sbpd/discovery.c:284 | a JSON value of at most five digits is copied over the start of "9000", and the rest of the buffer is kept |
| DiscoveryProtocol.PortBufferReads | sbpd/discovery.c:292 | the buffer that copy leaves reads as the port when it has four or five digits, and as the port scaled by the zeros of "9000" it did not cover when it is shorter |
| DiscoveryProtocol.SingleJsonPort | sbpd/discovery.c:230-293 | a reply whose only JSON record carries p reads as p for four- and five-digit ports; "81" reads as 8100 |
| DiscoveryProtocol.ShortReplyOverreads | sbpd/discovery.c:266 | a 1- to 4-byte reply passes the unsigned guard at position 1, although the record's length byte lies past the data |
| DiscoveryProtocol.ShortReplyStops | sbpd/discovery.c:280 | with the signed guard a reply of at most five bytes ends the walk before any record and leaves the port buffer as it was |
| DiscoveryProtocol.GuardsAgreeFrom5 | sbpd/discovery.c:280 | from five bytes on, the guard as written and the signed guard agree |
| Discovery.NextTimer | sbpd/discovery.c:72-73 | a zero timer is reloaded with 3 s / 100 ms = 30; any other timer goes down by exactly one |
| Discovery.WriteServerString | sbpd/discovery.c:117-126 | the host becomes the dotted form of the address: under 16 characters and read back by inet_addr as that address; nothing else changes |
| Discovery.HostSearch | sbpd/discovery.c:71-95 | a configured host skips the search. Otherwise the timer follows NextTimer. A request goes out exactly when neither host nor port is configured, the timer was 0 and the table shows a new address. A new address found by a due search sets the host bit, clears the port bit and is kept as the found address; the host string is rewritten to it only when the port is configured. Without such an address the flags, the server record, the found address and the socket are unchanged |
| Discovery.Delivered | sbpd/discovery.c:240-245 | a datagram reaches read_discovery only through an open socket |
| Discovery.PortSearch | sbpd/discovery.c:99-111 | a configured or found port ends the search. The port bit is set exactly when read_discovery gives a nonzero port; then the port is stored and, for an unconfigured host, the host is the found address. When no port is read the server record is unchanged. The socket only closes, and while the port is still searched it closes on every 'E' reply read, one whose port reads 0 included |
| Discovery.Poll | sbpd/discovery.c:64-112 | configured host and port are never overwritten; user and password never change; the timer runs only while the host is searched for; the host bit is never taken back; a request is sent exactly under HostSearch's conditions |
| Discovery.PollKeepsOthers | sbpd/discovery.c:83-108 | the flags besides host and port come out of a poll as they went in |
| Discovery.InitialInv | sbpd/discovery.c:53-57 | the starting state satisfies the discovery invariant |
| Discovery.PollPreservesInv | sbpd/discovery.c:64-112 | every poll keeps the invariant. A socket exists only after a search found an address; a discovered port is nonzero; a managed host is a dotted address; once the port is found, the host is the address it came from |
| Discovery.HostConfiguredPortNeverFound | sbpd/discovery.c:71-111 | with the host configured and the port not, no poll sends a request or finds the port, and the server record never changes |
| Discovery.KnownAddressIsHost | sbpd/discovery.c:74-76 | under the invariant, the search compares against exactly the address the host string names |
| Discovery.SearchSchedule | sbpd/discovery.c:72-73 | starting from 0, the address is searched for exactly in polls 0, 31, 62, and so on |
| Discovery.TimerShift | sbpd/discovery.c:72-73 | the timer after k polls is the next timer after k - 1 polls |
| Options.InitialOptions | sbpd/sbpd.c:31-46 | main starts with nothing configured, stream logging at LOG_NOTICE, syslog at LOG_ALERT and no controls |
| Options.ParseSpec | sbpd/sbpd.c:276-313 | a first token longer than one character is rejected; "e" gives an encoder spec and "b" a button spec; an encoder's command is its fourth token and is absent without one; a button's command is its third token; missing numeric fields read as 0 |
| Options.ButtonSpecRoundTrip | sbpd/sbpd.c:298-310 | every button spec written as b,pin,CMD,edge reads back as written |
| Options.EncoderSpecRoundTrip | sbpd/sbpd.c:281-297 | every encoder spec written as e,pin1,pin2,CMD,edge reads back as written, command included |
| Options.ShortEncoderSpec | sbpd/sbpd.c:281-297 | the short form e,pin1,pin2 reads as those pins with no command and edge 0 |
| Options.ThreeTokenButton | sbpd/sbpd.c:298-308 | a three-token button spec takes its pin from the second token and its command from the third, with edge 0 |
| Options.EmptyFieldSkipped | sbpd/sbpd.c:299-304 | strtok skips the empty field of b,17,,1 |
| Options.EmptyFieldShifts | sbpd/sbpd.c:298-308 | so b,17,,1 asks for command "1" on pin 17 with edge 0 |
| Options.ShiftedCommandRejected | sbpd/control.c:97-98 | and no button is set up for that command |
| Options.ParseArgument | sbpd/sbpd.c:276-316 | a positional argument changes only the controls; only a first token of more than one character is refused; an unknown one-character kind changes nothing; a button spec gives the controls setup_button_ctrl leaves and an encoder spec those setup_encoder_ctrl leaves, whatever status the setup returns |
| Options.ButtonArgumentSetsUp | sbpd/sbpd.c:298-310 | a button spec b,pin,CMD,edge for a command without commas is accepted and sets up exactly that button |
| Options.ParseOpt | sbpd/sbpd.c:194-323 | status 0, or ARGP_ERR_UNKNOWN exactly for an unhandled key or a bad device kind (and then nothing changes). -v and -s set the stream level and change nothing else; -d and the end of the arguments change nothing. Each option with an argument stores it and marks its flag. Only positional arguments touch the controls, and a positional argument has exactly the effect of the spec parser with its setup_button_ctrl or setup_encoder_ctrl call |
| Options.KillOptionRejected | sbpd/sbpd.c:319-320 | the declared kill option is refused as unknown |
| Options.ParseAll | sbpd/sbpd.c:139 | over option keys, positional arguments and the end key, argp stops at the first refused call; the controls stay valid |
| Options.ParseOptConsistent | sbpd/sbpd.c:218-245 | each option keeps the configured flags in step with the stored values |
| Options.ParseAllConsistent | sbpd/sbpd.c:218-245 | after any command line, a flag is set exactly when its value was given |
| Options.LogLevel | sbpd/sbpd.c:409-411 | loglevel is the larger of the stream and syslog levels |
| Options.LastLevelKey | sbpd/sbpd.c:203-209 | the last -v or -s on a command line, if any |
| Options.LevelFollowsLastKey | sbpd/sbpd.c:203-209 | the last of -v and -s decides the stream level, and syslog's level never changes |
| Options.ParseAllSnoc | sbpd/sbpd.c:139 | parsing one more call continues from where the shorter line ended |
| Options.VerboseUnlessSilenced | sbpd/discovery.c:261 | with the default syslog level, read_discovery copies name and UUID unless -s came last |
| Options.StartupMac | sbpd/sbpd.c:144-149 | a configured MAC is kept. Otherwise the one found is used and exactly the MAC bit is added to the discovered flags; without one main gives up |
| Scenarios.VolumeUpButton | sbpd/control.c:74-126 | the positional argument b,PIN,VOL+,3 is accepted and sets up one button that sends nothing before an interrupt; after one, every poll sends the volume-up fragment |
| Scenarios.EncoderTurn | sbpd/control.c:183-223 | a fresh encoder turned n steps clockwise, with 0 < n <= 100, sends "+n" once; after a successful send the next poll is quiet |
| Scenarios.Reply9010Reads | sbpd/discovery.c:230-293 | a reply with JSON record "9010" reads as port 9010 |
| Scenarios.FirstPoll | sbpd/discovery.c:71-95 | with nothing configured, the first poll finds the server in the table, marks the host found and sends the request there |
| Scenarios.SecondPoll | sbpd/discovery.c:99-111 | a later poll takes a reply naming a nonzero port, completes the server record with the found address and closes the socket |
| Scenarios.FullDiscovery | sbpd/discovery.c:64-112 | two polls take an unconfigured daemon to host and port discovered, with the found address and port 9010 |

## Left out

- I/O is not modelled. The contents of `/proc/net/tcp`, the datagram waiting on the socket, the pin levels at each interrupt, the result of `send_command` and the address `find_mac` reports are all parameters.
- `sendto`, `socket`, `close`, `setsockopt`, wiringPi's `pinMode`, `pullUpDnControl` and `wiringPiISR` are not modelled. The model records only the socket's life cycle (none, open, closed) and the edge a registration asks for.
- Concurrency is not modelled. Interrupts run on wiringPi's thread; the model treats each interrupt and each poll as one atomic step.
- Logging output (`_mylog`, syslog) is not modelled. Only `loglevel` is kept, because `read_discovery` depends on it.
- `send_command`, servercomm.c, curl and the JSON-RPC request around the fragment are not part of this model; neither are `find_mac` / `get_mac`, the signal handling, daemonizing and the main loop's sleeping.
- Encoder values and deltas are unbounded integers. The source's `long` counter and the `(int)` cast of the delta are not modelled, because they wrap only after two billion steps.
- Control.Abs: `abs(INT_MIN)` is undefined in C; the model prints the magnitude of any delta.
- Inet.ParseDotted: inet_addr is modelled for canonical dotted-decimal strings only, the only form the discovery writes. A host given with -A is never parsed, because the search that parses it does not run when the host is configured.
- DiscoveryProtocol.Readable: replies whose value copies would read past the received data are excluded, as are replies that leave the port buffer without a NUL (a JSON value of six or more bytes). On those `read_discovery` reads bytes `recvfrom` did not write: stale contents of its 1600-byte buffer, or memory past that buffer or past the 6-byte port buffer. The model cannot know their values.
- Options.SpecReadable: a positional argument with no token at all, or a button spec without a command, is excluded. `parse_opt` passes NULL to `strlen` there.
- Options.ParseAll: argp's special keys other than ARGP_KEY_ARG and ARGP_KEY_END (ARGP_KEY_NO_ARGS, ARGP_KEY_INIT, ARGP_KEY_SUCCESS, ARGP_KEY_ERROR, ARGP_KEY_ARGS, ARGP_KEY_FINI) are not among the calls. `parse_opt` answers them ARGP_ERR_UNKNOWN, which argp ignores for those keys, so they change nothing; modelling argp's own key handling would add nothing to `parse_opt`.
- The `-d` option is accepted and does nothing, as in `parse_opt`. The `-k` option is declared but refused.
- The chatter filter in `handle_encoders` is commented out in the source and is not modelled.

## Findings

| source | as written | input that shows it | evidently intended | confidence | as-written member | corrected member |
|---|---|---|---|---|---|---|
| squeezerotate.c:341-345 | `numberofbuttons > max_buttons` lets a call on a full pool through | an 18th `setupbutton` writes `buttons[17]` | reject when `numberofbuttons >= max_buttons` | high, not executed | Gpio.ButtonGuardOverruns | Gpio.SetupButton |
| squeezerotate.c:395-399 | `numberofencoders > max_encoders` lets a call on a full pool through | a 9th `setupencoder` writes `encoders[8]` | reject when `numberofencoders >= max_encoders` | high, not executed | Gpio.EncoderGuardOverruns | Gpio.SetupEncoder |
| sbpd/control.c:99-104 | `setup_button_ctrl` writes `button_ctrls[numberofbuttons]` with no capacity check | an 18th valid button spec writes `button_ctrls[17]` | refuse with -1 when 17 controls exist | high, not executed | Control.ButtonCtrlOverruns | Control.SetupButtonCtrl |
| sbpd/control.c:164-169 | `setup_encoder_ctrl` writes `encoder_ctrls[numberofencoders]` with no capacity check | a 9th encoder spec writes `encoder_ctrls[8]` | refuse with -1 when 8 controls exist | high, not executed | Control.EncoderCtrlOverruns | Control.SetupEncoderCtrl |
| sbpd/discovery.c:266 | `pos < (size - 5)` with unsigned `pos` and signed `size` converts a negative difference to a huge unsigned value | a 1- to 4-byte datagram starting with 'E' enters the loop and reads past the received data | the signed test `pos + 5 < size` | high, not executed | DiscoveryProtocol.ShortReplyOverreads | DiscoveryProtocol.ShortReplyStops |

=== FILE: control.dfy ===
/** The control mapping of sbpd/control.c: configured buttons and encoders
    bound to JSON command fragments, the button callback that flags a press,
    and the two polling handlers that decide what is sent. Sending is an
    oracle: the handlers receive whether each send_command call succeeded. */
module Control {
  import opened Wrappers
  import opened CString
  import Gpio

  // ---------------------------------------------------------------------------
  // Command fragments
  // ---------------------------------------------------------------------------

  const FragmentPause := "[\"pause\"]"
  const FragmentVolumeUp := "[\"button\",\"volume_up\"]"
  const FragmentVolumeDown := "[\"button\",\"voldown\"]"
  const FragmentPrev := "[\"button\",\"rew\"]"
  const FragmentNext := "[\"button\",\"fwd\"]"
  const FragmentPower := "[\"button\",\"power\"]"

  /** The encoder template ["mixer","volume","%s%d"], split around its sign
      and magnitude conversions. */
  const VolumeHead := "[\"mixer\",\"volume\",\""
  const VolumeTail := "\"]"
  const VolumeTemplate := VolumeHead + "%s%d" + VolumeTail

  /** The button commands and the fragment each one sends. */
  const CommandTable: map<string, string> := map[
    "PLAY" := FragmentPause,
    "VOL+" := FragmentVolumeUp,
    "VOL-" := FragmentVolumeDown,
    "PREV" := FragmentPrev,
    "NEXT" := FragmentNext,
    "POWR" := FragmentPower]

  /** The if-chain of setup_button_ctrl, comparing STRTOU32 words. */
  function FragmentForCode(cmd: string): Option<string> {
    var w := Word(cmd);
    if w == "PLAY" then Some(FragmentPause)
    else if w == "VOL+" then Some(FragmentVolumeUp)
    else if w == "VOL-" then Some(FragmentVolumeDown)
    else if w == "PREV" then Some(FragmentPrev)
    else if w == "NEXT" then Some(FragmentNext)
    else if w == "POWR" then Some(FragmentPower)
    else None
  }

  lemma WordIsCode(cmd: string, code: string)
    requires IsCString(cmd) && |cmd| <= 4 && IsCString(code) && |code| == 4
    ensures Word(cmd) == code <==> cmd == code
  {
    WordMatches(cmd, code);
    if |cmd| >= 4 {
      assert cmd == cmd[..4];
    }
  }

  /** For commands of at most four characters the word comparisons select
      exactly the table entry of the command. */
  lemma FragmentForCodeIsTable(cmd: string)
    requires IsCString(cmd) && |cmd| <= 4
    ensures FragmentForCode(cmd) == if cmd in CommandTable then Some(CommandTable[cmd]) else None
  {
    WordIsCode(cmd, "PLAY");
    WordIsCode(cmd, "VOL+");
    WordIsCode(cmd, "VOL-");
    WordIsCode(cmd, "PREV");
    WordIsCode(cmd, "NEXT");
    WordIsCode(cmd, "POWR");
  }

  // ---------------------------------------------------------------------------
  // Controls and the device they live in
  // ---------------------------------------------------------------------------

  /** The callbacks control.c registers with the GPIO layer. */
  const ButtonPressCallback: Gpio.CallbackId := 1
  const EncoderRotateCallback: Gpio.CallbackId := 2

  /** struct button_ctrl; a NULL gpio_button is None, otherwise the slot. */
  datatype ButtonCtrl = ButtonCtrl(button: Option<nat>, waiting: bool, fragment: string)

  /** struct encoder_ctrl. */
  datatype EncoderCtrl = EncoderCtrl(encoder: Option<nat>, lastValue: int, fragment: string)

  /** The GPIO pools together with the control arrays of control.c. */
  datatype Device = Device(
    buttons: Gpio.Pool<Gpio.Button>,
    encoders: Gpio.Pool<Gpio.Encoder>,
    buttonCtrls: seq<ButtonCtrl>,
    encoderCtrls: seq<EncoderCtrl>)

  /** Every control i owns GPIO slot i, registered with control.c's callback;
      every encoder control uses the volume template. */
  predicate Valid(d: Device) {
    && Gpio.ValidPool(d.buttons, Gpio.MaxButtons)
    && Gpio.ValidPool(d.encoders, Gpio.MaxEncoders)
    && |d.buttonCtrls| == d.buttons.count
    && |d.encoderCtrls| == d.encoders.count
    && (forall i :: 0 <= i < |d.buttonCtrls| ==>
          d.buttonCtrls[i].button == Some(i) && d.buttons.slots[i].callback == Some(ButtonPressCallback))
    && (forall i :: 0 <= i < |d.encoderCtrls| ==>
          && d.encoderCtrls[i].encoder == Some(i)
          && d.encoderCtrls[i].fragment == VolumeTemplate
          && d.encoders.slots[i].callback == Some(EncoderRotateCallback))
  }

  function InitialDevice(): (d: Device)
    ensures Valid(d)
  {
    Device(Gpio.EmptyButtons(), Gpio.EmptyEncoders(), [], [])
  }

  datatype Setup = Setup(dev: Device, status: int)

  /** setup_button_ctrl, with a capacity check added before the control array
      is written: 0 and a new idle control for a known command of at most four
      characters while there is room, otherwise -1 and nothing changes. */
  function SetupButtonCtrl(d: Device, cmd: string, pin: int, edge: int): (r: Setup)
    requires Valid(d) && IsCString(cmd)
    ensures Valid(r.dev)
    ensures r.status == 0 || r.status == -1
    ensures r.status == 0 <==> cmd in CommandTable && |d.buttonCtrls| < Gpio.MaxButtons
    ensures r.status == -1 ==> r.dev == d
    ensures r.status == 0 ==>
      && r.dev.buttonCtrls == d.buttonCtrls + [ButtonCtrl(Some(|d.buttonCtrls|), false, CommandTable[cmd])]
      && r.dev.buttons.count == d.buttons.count + 1
      && r.dev.buttons.slots[|d.buttonCtrls|] == Gpio.Button(pin, false, Some(ButtonPressCallback))
      && (forall j :: 0 <= j < Gpio.MaxButtons && j != |d.buttonCtrls| ==> r.dev.buttons.slots[j] == d.buttons.slots[j])
      && r.dev.encoders == d.encoders && r.dev.encoderCtrls == d.encoderCtrls
  {
    if |cmd| > 4 then Setup(d, -1)
    else
      FragmentForCodeIsTable(cmd);
      match FragmentForCode(cmd)
      case None => Setup(d, -1)
      case Some(fragment) =>
        if |d.buttonCtrls| >= Gpio.MaxButtons then Setup(d, -1)
        else
          var s := Gpio.SetupButton(d.buttons, pin, Some(ButtonPressCallback), edge);
          var handle := if s.reg.Registered? then Some(s.reg.slot) else None;
          Setup(d.(buttons := s.pool, buttonCtrls := d.buttonCtrls + [ButtonCtrl(handle, false, fragment)]), 0)
  }

  /** setup_encoder_ctrl, with a capacity check added before the control array
      is written. The command is ignored; the control always uses the volume
      template and starts from baseline 0. */
  function SetupEncoderCtrl(d: Device, cmd: Option<string>, pinA: int, pinB: int, edge: int): (r: Setup)
    requires Valid(d)
    ensures Valid(r.dev)
    ensures r.status == 0 || r.status == -1
    ensures r.status == 0 <==> |d.encoderCtrls| < Gpio.MaxEncoders
    ensures r.status == -1 ==> r.dev == d
    ensures r.status == 0 ==>
      && r.dev.encoderCtrls == d.encoderCtrls + [EncoderCtrl(Some(|d.encoderCtrls|), 0, VolumeTemplate)]
      && r.dev.encoders.count == d.encoders.count + 1
      && r.dev.encoders.slots[|d.encoderCtrls|] == Gpio.Encoder(pinA, pinB, 0, 0, Some(EncoderRotateCallback))
      && (forall j :: 0 <= j < Gpio.MaxEncoders && j != |d.encoderCtrls| ==> r.dev.encoders.slots[j] == d.encoders.slots[j])
      && r.dev.buttons == d.buttons && r.dev.buttonCtrls == d.buttonCtrls
  {
    if |d.encoderCtrls| >= Gpio.MaxEncoders then Setup(d, -1)
    else
      var s := Gpio.SetupEncoder(d.encoders, pinA, pinB, Some(EncoderRotateCallback), edge);
      var handle := if s.reg.Registered? then Some(s.reg.slot) else None;
      Setup(d.(encoders := s.pool, encoderCtrls := d.encoderCtrls + [EncoderCtrl(handle, 0, VolumeTemplate)]), 0)
  }

  /** Which command string an encoder spec carries makes no difference. */
  lemma EncoderCommandIgnored(d: Device, cmd: Option<string>, other: Option<string>, pinA: int, pinB: int, edge: int)
    requires Valid(d)
    ensures SetupEncoderCtrl(d, cmd, pinA, pinB, edge) == SetupEncoderCtrl(d, other, pinA, pinB, edge)
  {
  }

  /** The indices setup_button_ctrl / setup_encoder_ctrl write AS WRITTEN:
      the status returned, the GPIO slot the setup call indexes (None when its
      own guard refuses) and the control index written (None when the call
      returns -1 before writing). */
  datatype SetupAsWritten = SetupAsWritten(status: int, gpioSlot: Option<nat>, ctrlIndex: Option<nat>)

  /** setup_button_ctrl as written: a known command always writes control
      index numberofbuttons, with no capacity check, after setupbutton's own
      guard as written. */
  function SetupButtonCtrlAsWritten(d: Device, cmd: string, pin: int, edge: int): (r: SetupAsWritten)
    requires Valid(d) && IsCString(cmd)
    ensures r.status == 0 || r.status == -1
    ensures r.status == 0 <==> cmd in CommandTable
    ensures r.status == -1 ==> r.gpioSlot == None && r.ctrlIndex == None
    ensures r.status == 0 ==> r.ctrlIndex == Some(|d.buttonCtrls|) && r.gpioSlot == Gpio.SetupSlotAsWritten(d.buttons.count, Gpio.MaxButtons)
  {
    if |cmd| > 4 then SetupAsWritten(-1, None, None)
    else
      FragmentForCodeIsTable(cmd);
      match FragmentForCode(cmd)
      case None => SetupAsWritten(-1, None, None)
      case Some(_) => SetupAsWritten(0, Gpio.SetupSlotAsWritten(d.buttons.count, Gpio.MaxButtons), Some(|d.buttonCtrls|))
  }

  /** setup_encoder_ctrl as written: every call writes control index
      numberofencoders and returns 0. */
  function SetupEncoderCtrlAsWritten(d: Device, cmd: Option<string>, pinA: int, pinB: int, edge: int): (r: SetupAsWritten)
    requires Valid(d)
    ensures r.status == 0
    ensures r.ctrlIndex == Some(|d.encoderCtrls|) && r.gpioSlot == Gpio.SetupSlotAsWritten(d.encoders.count, Gpio.MaxEncoders)
  {
    SetupAsWritten(0, Gpio.SetupSlotAsWritten(d.encoders.count, Gpio.MaxEncoders), Some(|d.encoderCtrls|))
  }

  /** Below capacity the corrected setup_button_ctrl does what the code as
      written does: same status, and on success the control and GPIO slot it
      fills are the indices the code as written writes. They differ exactly
      for a known command with 17 controls already defined. */
  lemma ButtonCtrlAgrees(d: Device, cmd: string, pin: int, edge: int)
    requires Valid(d) && IsCString(cmd)
    ensures SetupButtonCtrlAsWritten(d, cmd, pin, edge).status == SetupButtonCtrl(d, cmd, pin, edge).status
      <==> !(cmd in CommandTable && |d.buttonCtrls| == Gpio.MaxButtons)
    ensures SetupButtonCtrl(d, cmd, pin, edge).status == 0 ==>
      && SetupButtonCtrlAsWritten(d, cmd, pin, edge).ctrlIndex == Some(|SetupButtonCtrl(d, cmd, pin, edge).dev.buttonCtrls| - 1)
      && SetupButtonCtrlAsWritten(d, cmd, pin, edge).gpioSlot == Some(SetupButtonCtrl(d, cmd, pin, edge).dev.buttons.count - 1)
  {
  }

  /** Below capacity the corrected setup_encoder_ctrl does what the code as
      written does; they differ exactly when 8 controls are already defined. */
  lemma EncoderCtrlAgrees(d: Device, cmd: Option<string>, pinA: int, pinB: int, edge: int)
    requires Valid(d)
    ensures SetupEncoderCtrlAsWritten(d, cmd, pinA, pinB, edge).status == SetupEncoderCtrl(d, cmd, pinA, pinB, edge).status
      <==> |d.encoderCtrls| != Gpio.MaxEncoders
    ensures SetupEncoderCtrl(d, cmd, pinA, pinB, edge).status == 0 ==>
      && SetupEncoderCtrlAsWritten(d, cmd, pinA, pinB, edge).ctrlIndex == Some(|SetupEncoderCtrl(d, cmd, pinA, pinB, edge).dev.encoderCtrls| - 1)
      && SetupEncoderCtrlAsWritten(d, cmd, pinA, pinB, edge).gpioSlot == Some(SetupEncoderCtrl(d, cmd, pinA, pinB, edge).dev.encoders.count - 1)
  {
  }

  /** With 17 button controls defined, another valid button spec is accepted
      as written and writes button_ctrls[17] and buttons[17], both one past
      their 17 entries; the corrected setup refuses it. */
  lemma ButtonCtrlOverruns(d: Device, cmd: string, pin: int, edge: int)
    requires Valid(d) && IsCString(cmd) && cmd in CommandTable && |d.buttonCtrls| == Gpio.MaxButtons
    ensures SetupButtonCtrlAsWritten(d, cmd, pin, edge).status == 0
    ensures SetupButtonCtrlAsWritten(d, cmd, pin, edge).ctrlIndex == Some(Gpio.MaxButtons)
    ensures SetupButtonCtrlAsWritten(d, cmd, pin, edge).gpioSlot == Some(|d.buttons.slots|)
    ensures SetupButtonCtrl(d, cmd, pin, edge).status == -1
  {
  }

  /** With 8 encoder controls defined, another encoder spec is accepted as
      written and writes encoder_ctrls[8] and encoders[8], both one past their
      8 entries; the corrected setup refuses it. */
  lemma EncoderCtrlOverruns(d: Device, cmd: Option<string>, pinA: int, pinB: int, edge: int)
    requires Valid(d) && |d.encoderCtrls| == Gpio.MaxEncoders
    ensures SetupEncoderCtrlAsWritten(d, cmd, pinA, pinB, edge).status == 0
    ensures SetupEncoderCtrlAsWritten(d, cmd, pinA, pinB, edge).ctrlIndex == Some(Gpio.MaxEncoders)
    ensures SetupEncoderCtrlAsWritten(d, cmd, pinA, pinB, edge).gpioSlot == Some(|d.encoders.slots|)
    ensures SetupEncoderCtrl(d, cmd, pinA, pinB, edge).status == -1
  {
  }

  // ---------------------------------------------------------------------------
  // Buttons
  // ---------------------------------------------------------------------------

  /** No control before index i is bound to the slot. */
  predicate FirstBoundTo(ctrls: seq<ButtonCtrl>, i: nat, slot: nat)
    requires i < |ctrls|
  {
    ctrls[i].button == Some(slot) && forall j :: 0 <= j < i ==> ctrls[j].button != Some(slot)
  }

  /** button_press_cb: the first control bound to the button becomes waiting,
      whatever the change (0 included); an unknown button changes nothing. */
  function PressButton(ctrls: seq<ButtonCtrl>, slot: nat, change: int): (r: seq<ButtonCtrl>)
    ensures |r| == |ctrls|
    ensures forall i :: 0 <= i < |ctrls| ==>
      r[i] == ctrls[i].(waiting := ctrls[i].waiting || FirstBoundTo(ctrls, i, slot))
    ensures (forall i :: 0 <= i < |ctrls| ==> ctrls[i].button != Some(slot)) ==> r == ctrls
    decreases |ctrls|
  {
    if |ctrls| == 0 then []
    else if ctrls[0].button == Some(slot) then [ctrls[0].(waiting := true)] + ctrls[1..]
    else
      var rest := PressButton(ctrls[1..], slot, change);
      assert forall i :: 1 <= i < |ctrls| ==> FirstBoundTo(ctrls, i, slot) == FirstBoundTo(ctrls[1..], i - 1, slot);
      [ctrls[0]] + rest
  }

  /** Delivering the callbacks of one button interrupt to button_press_cb. */
  function Deliver(ctrls: seq<ButtonCtrl>, fired: seq<Gpio.Notification>): seq<ButtonCtrl>
    decreases |fired|
  {
    if |fired| == 0 then ctrls
    else Deliver(PressButton(ctrls, fired[0].slot, fired[0].change), fired[1..])
  }

  /** Some notification of the interrupt names slot i. */
  predicate Names(fired: seq<Gpio.Notification>, i: nat) {
    exists k :: 0 <= k < |fired| && fired[k].slot == i
  }

  /** With control i bound to slot i, delivery marks exactly the notified
      controls as waiting and leaves everything else as it was. */
  lemma {:induction false} DeliverMarks(ctrls: seq<ButtonCtrl>, fired: seq<Gpio.Notification>)
    requires forall i :: 0 <= i < |ctrls| ==> ctrls[i].button == Some(i)
    ensures |Deliver(ctrls, fired)| == |ctrls|
    ensures forall i :: 0 <= i < |ctrls| ==>
      Deliver(ctrls, fired)[i] == ctrls[i].(waiting := ctrls[i].waiting || Names(fired, i))
    decreases |fired|
  {
    if |fired| > 0 {
      var pressed := PressButton(ctrls, fired[0].slot, fired[0].change);
      assert forall i :: 0 <= i < |ctrls| ==> (FirstBoundTo(ctrls, i, fired[0].slot) <==> fired[0].slot == i);
      DeliverMarks(pressed, fired[1..]);
      forall i | 0 <= i < |ctrls|
        ensures Names(fired, i) <==> fired[0].slot == i || Names(fired[1..], i)
      {
        if exists k :: 0 <= k < |fired[1..]| && fired[1..][k].slot == i {
          var k :| 0 <= k < |fired[1..]| && fired[1..][k].slot == i;
          assert fired[k + 1].slot == i;
        }
        if exists k :: 0 <= k < |fired| && fired[k].slot == i {
          var k :| 0 <= k < |fired| && fired[k].slot == i;
          if k > 0 { assert fired[1..][k - 1].slot == i; }
        }
      }
    }
  }

  /** A button interrupt: the GPIO layer re-samples every button and calls
      button_press_cb once per button. Since that callback ignores the change,
      every configured button ends up waiting, not only the one whose level
      moved. */
  function ButtonInterrupt(d: Device, samples: seq<bool>): (r: Device)
    requires Valid(d) && |samples| == d.buttons.count
    ensures Valid(r)
    ensures r.encoders == d.encoders && r.encoderCtrls == d.encoderCtrls
    ensures r.buttons.count == d.buttons.count
    ensures forall i :: 0 <= i < d.buttons.count ==> r.buttons.slots[i] == d.buttons.slots[i].(value := samples[i])
    ensures |r.buttonCtrls| == |d.buttonCtrls|
    ensures forall i :: 0 <= i < |d.buttonCtrls| ==> r.buttonCtrls[i] == d.buttonCtrls[i].(waiting := true)
  {
    var u := Gpio.UpdateButtons(d.buttons, samples);
    DeliverToAll(d, samples);
    InterruptKeepsValid(d, samples);
    d.(buttons := u.pool, buttonCtrls := Deliver(d.buttonCtrls, u.fired))
  }

  /** The device after a button interrupt is still well formed. */
  lemma InterruptKeepsValid(d: Device, samples: seq<bool>)
    requires Valid(d) && |samples| == d.buttons.count
    ensures var u := Gpio.UpdateButtons(d.buttons, samples);
      Valid(d.(buttons := u.pool, buttonCtrls := Deliver(d.buttonCtrls, u.fired)))
  {
    DeliverToAll(d, samples);
  }

  /** Every configured button has a callback, so an interrupt notifies every
      control and delivery marks each of them waiting. */
  lemma DeliverToAll(d: Device, samples: seq<bool>)
    requires Valid(d) && |samples| == d.buttons.count
    ensures var ctrls := Deliver(d.buttonCtrls, Gpio.UpdateButtons(d.buttons, samples).fired);
      && |ctrls| == |d.buttonCtrls|
      && forall i :: 0 <= i < |d.buttonCtrls| ==> ctrls[i] == d.buttonCtrls[i].(waiting := true)
  {
    var u := Gpio.UpdateButtons(d.buttons, samples);
    DeliverMarks(d.buttonCtrls, u.fired);
    assert forall i :: 0 <= i < |d.buttonCtrls| ==> d.buttons.slots[i].callback.Some?;
  }

  /** The fragments of the waiting controls, in index order. */
  function WaitingFragments(ctrls: seq<ButtonCtrl>): seq<string>
    decreases |ctrls|
  {
    if |ctrls| == 0 then []
    else
      var last := ctrls[|ctrls| - 1];
      WaitingFragments(ctrls[..|ctrls| - 1]) + (if last.waiting then [last.fragment] else [])
  }

  /** A fragment is sent exactly when some waiting control carries it, and
      one is sent per waiting control. */
  lemma {:induction false} WaitingFragmentsExact(ctrls: seq<ButtonCtrl>)
    ensures |WaitingFragments(ctrls)| == |set i | 0 <= i < |ctrls| && ctrls[i].waiting|
    ensures forall f :: f in WaitingFragments(ctrls) <==> exists i :: 0 <= i < |ctrls| && ctrls[i].waiting && ctrls[i].fragment == f
    decreases |ctrls|
  {
    if |ctrls| > 0 {
      var n := |ctrls| - 1;
      var init := ctrls[..n];
      WaitingFragmentsExact(init);
      var before := set i | 0 <= i < |init| && init[i].waiting;
      var now := set i | 0 <= i < |ctrls| && ctrls[i].waiting;
      assert now == before + (if ctrls[n].waiting then {n} else {});
      forall f ensures f in WaitingFragments(ctrls) <==> exists i :: 0 <= i < |ctrls| && ctrls[i].waiting && ctrls[i].fragment == f
      {
        if exists i :: 0 <= i < |ctrls| && ctrls[i].waiting && ctrls[i].fragment == f {
          var i :| 0 <= i < |ctrls| && ctrls[i].waiting && ctrls[i].fragment == f;
          if i < n { assert init[i] == ctrls[i]; }
        }
        if f in WaitingFragments(init) {
          var i :| 0 <= i < |init| && init[i].waiting && init[i].fragment == f;
          assert ctrls[i] == init[i];
        }
      }
    }
  }

  /** handle_buttons: sends the fragment of every waiting control, in index
      order, and leaves the controls as they are, so a later poll sends the
      same fragments again. */
  method HandleButtons(ctrls: seq<ButtonCtrl>) returns (sent: seq<string>)
    ensures sent == WaitingFragments(ctrls)
  {
    sent := [];
    var i := 0;
    while i < |ctrls|
      invariant 0 <= i <= |ctrls|
      invariant sent == WaitingFragments(ctrls[..i])
    {
      assert ctrls[..i + 1][..i] == ctrls[..i];
      if ctrls[i].waiting {
        sent := sent + [ctrls[i].fragment];
      }
      i := i + 1;
    }
    assert ctrls[..|ctrls|] == ctrls;
  }

  // ---------------------------------------------------------------------------
  // Encoders
  // ---------------------------------------------------------------------------

  /** A larger positive delta is taken for an overflow and ignored. */
  const DeltaCap: int := 100

  function Abs(x: int): nat { if x < 0 then -x else x }

  /** The volume fragment for a nonzero delta: "+N" or "-N" with N = |delta|. */
  function VolumeFragment(delta: int): string
    requires delta != 0
  {
    VolumeHead + (if delta > 0 then "+" else "-") + Decimal(Abs(delta)) + VolumeTail
  }

  /** Reads a volume fragment back into its delta. */
  function ParseVolumeFragment(s: string): Option<int> {
    var h := |VolumeHead|;
    var t := |VolumeTail|;
    if |s| >= h + 2 + t && s[..h] == VolumeHead && s[|s| - t..] == VolumeTail then
      var body := s[h..|s| - t];
      var digits := body[1..];
      if (body[0] == '+' || body[0] == '-') && AllDigits(digits, 10) && digits[0] != '0' then
        var m := DigitsValue(digits, 10);
        Some(if body[0] == '+' then m else -(m as int))
      else None
    else None
  }

  /** Every volume fragment states its delta, sign and magnitude included. */
  lemma VolumeFragmentRoundTrip(delta: int)
    requires delta != 0
    ensures ParseVolumeFragment(VolumeFragment(delta)) == Some(delta)
  {
    var sign := if delta > 0 then "+" else "-";
    var digits := Decimal(Abs(delta));
    var s := VolumeFragment(delta);
    assert s == VolumeHead + (sign + digits) + VolumeTail;
    assert s[..|VolumeHead|] == VolumeHead;
    assert s[|s| - |VolumeTail|..] == VolumeTail;
    assert s[|VolumeHead|..|s| - |VolumeTail|] == sign + digits;
    assert (sign + digits)[1..] == digits;
    DecimalValue(Abs(delta));
  }

  /** For any delta of a 32-bit int the fragment, at most 32 characters,
      fits handle_encoders' 50-byte buffer with its NUL, so snprintf never
      truncates it. */
  lemma VolumeFragmentFits(delta: int)
    requires delta != 0 && -0x8000_0000 <= delta <= 0x7FFF_FFFF
    ensures |VolumeFragment(delta)| <= 32 < 50
  {
    assert Pow10(10) == 10_000_000_000 by {
      assert Pow10(2) == 100 && Pow10(4) == 10000 && Pow10(6) == 1000000 && Pow10(8) == 100000000;
    }
    DecimalLength(Abs(delta), 10, Pow10(10));
  }

  datatype EncoderPoll = EncoderPoll(ctrl: EncoderCtrl, sent: Option<string>)

  /** The encoder has moved away from the control's baseline, and not by more
      than the cap. */
  predicate Moved(c: EncoderCtrl, value: int) {
    value != c.lastValue && value - c.lastValue <= DeltaCap
  }

  /** How far the encoder is from the control's baseline. */
  function Movement(c: EncoderCtrl, value: int): int {
    value - c.lastValue
  }

  /** The movements owed a volume fragment, in index order: one per control
      whose encoder moved, each nonzero and within the cap. */
  function MovedDeltas(ctrls: seq<EncoderCtrl>, values: seq<int>): (ds: seq<int>)
    requires |values| == |ctrls|
    ensures forall k :: 0 <= k < |ds| ==> ds[k] != 0 && ds[k] <= DeltaCap
    decreases |ctrls|
  {
    if |ctrls| == 0 then []
    else
      var n := |ctrls| - 1;
      MovedDeltas(ctrls[..n], values[..n]) + (if Moved(ctrls[n], values[n]) then [Movement(ctrls[n], values[n])] else [])
  }

  /** One movement is owed per moved control. */
  lemma {:induction false} MovedDeltasCount(ctrls: seq<EncoderCtrl>, values: seq<int>)
    requires |values| == |ctrls|
    ensures |MovedDeltas(ctrls, values)| == |set i | 0 <= i < |ctrls| && Moved(ctrls[i], values[i])|
    decreases |ctrls|
  {
    if |ctrls| > 0 {
      var n := |ctrls| - 1;
      var init, vinit := ctrls[..n], values[..n];
      MovedDeltasCount(init, vinit);
      var before := set i | 0 <= i < |init| && Moved(init[i], vinit[i]);
      var now := set i | 0 <= i < |ctrls| && Moved(ctrls[i], values[i]);
      assert now == before + (if Moved(ctrls[n], values[n]) then {n} else {});
    }
  }

  /** A movement is owed exactly when some moved control moved by it. */
  lemma {:induction false} MovedDeltasMembers(ctrls: seq<EncoderCtrl>, values: seq<int>)
    requires |values| == |ctrls|
    ensures forall x :: x in MovedDeltas(ctrls, values) <==>
      exists i :: 0 <= i < |ctrls| && Moved(ctrls[i], values[i]) && Movement(ctrls[i], values[i]) == x
    decreases |ctrls|
  {
    if |ctrls| > 0 {
      var n := |ctrls| - 1;
      var init, vinit := ctrls[..n], values[..n];
      MovedDeltasMembers(init, vinit);
      var last := if Moved(ctrls[n], values[n]) then [Movement(ctrls[n], values[n])] else [];
      assert MovedDeltas(ctrls, values) == MovedDeltas(init, vinit) + last;
      forall x | x in MovedDeltas(ctrls, values)
        ensures exists i :: 0 <= i < |ctrls| && Moved(ctrls[i], values[i]) && Movement(ctrls[i], values[i]) == x
      {
        if x in MovedDeltas(init, vinit) {
          var i :| 0 <= i < |init| && Moved(init[i], vinit[i]) && Movement(init[i], vinit[i]) == x;
          assert ctrls[i] == init[i] && values[i] == vinit[i];
        } else {
          assert x in last;
        }
      }
      forall i | 0 <= i < |ctrls| && Moved(ctrls[i], values[i])
        ensures Movement(ctrls[i], values[i]) in MovedDeltas(ctrls, values)
      {
        if i < n {
          assert init[i] == ctrls[i] && vinit[i] == values[i];
        }
      }
    }
  }

  /** One encoder's part of handle_encoders, given the encoder's current value
      and whether the send would succeed. */
  function PollEncoder(c: EncoderCtrl, value: int, sendOk: bool): (r: EncoderPoll)
    ensures r.ctrl.encoder == c.encoder && r.ctrl.fragment == c.fragment
    ensures r.sent.Some? <==> Moved(c, value)
    ensures r.sent.Some? ==> r.sent.value == VolumeFragment(value - c.lastValue)
    ensures r.sent.Some? ==> ParseVolumeFragment(r.sent.value) == Some(value - c.lastValue)
    ensures r.ctrl.lastValue == if r.sent.Some? && sendOk then value else c.lastValue
  {
    var delta := value - c.lastValue;
    var delta := if delta > DeltaCap then 0 else delta;
    if delta != 0 then
      VolumeFragmentRoundTrip(delta);
      EncoderPoll(if sendOk then c.(lastValue := value) else c, Some(VolumeFragment(delta)))
    else EncoderPoll(c, None)
  }

  /** handle_encoders over the controls, given each encoder's value and send
      outcome: every control is polled, and the fragments sent are those owed
      to the moved controls, in index order, whatever the send outcomes. */
  function PollEncoders(ctrls: seq<EncoderCtrl>, values: seq<int>, sendOk: seq<bool>): (r: (seq<EncoderCtrl>, seq<string>))
    requires |values| == |ctrls| && |sendOk| == |ctrls|
    ensures |r.0| == |ctrls|
    ensures forall i :: 0 <= i < |ctrls| ==> r.0[i] == PollEncoder(ctrls[i], values[i], sendOk[i]).ctrl
    ensures |r.1| == |MovedDeltas(ctrls, values)|
    ensures forall k :: 0 <= k < |r.1| ==> r.1[k] == VolumeFragment(MovedDeltas(ctrls, values)[k])
    decreases |ctrls|
  {
    if |ctrls| == 0 then ([], [])
    else
      var n := |ctrls| - 1;
      var rest := PollEncoders(ctrls[..n], values[..n], sendOk[..n]);
      var p := PollEncoder(ctrls[n], values[n], sendOk[n]);
      assert forall i :: 0 <= i < n ==>
        PollEncoder(ctrls[i], values[i], sendOk[i]) == PollEncoder(ctrls[..n][i], values[..n][i], sendOk[..n][i]);
      (rest.0 + [p.ctrl], rest.1 + (if p.sent.Some? then [p.sent.value] else []))
  }

  /** The value of every encoder slot that has a control. */
  function EncoderValues(d: Device): (v: seq<int>)
    requires Valid(d)
    ensures |v| == |d.encoderCtrls|
    ensures forall i :: 0 <= i < |d.encoderCtrls| ==> v[i] == d.encoders.slots[i].value
  {
    seq(|d.encoderCtrls|, i requires 0 <= i < |d.encoderCtrls| => d.encoders.slots[i].value)
  }

  datatype EncoderHandling = EncoderHandling(dev: Device, sent: seq<string>)

  /** handle_encoders: every encoder control compares its encoder's value
      with its baseline and moves the baseline only when the send succeeded. */
  function HandleEncoders(d: Device, sendOk: seq<bool>): (r: EncoderHandling)
    requires Valid(d) && |sendOk| == |d.encoderCtrls|
    ensures Valid(r.dev)
    ensures r.dev.buttons == d.buttons && r.dev.encoders == d.encoders && r.dev.buttonCtrls == d.buttonCtrls
    ensures |r.dev.encoderCtrls| == |d.encoderCtrls|
    ensures forall i :: 0 <= i < |d.encoderCtrls| ==>
      r.dev.encoderCtrls[i] == PollEncoder(d.encoderCtrls[i], d.encoders.slots[i].value, sendOk[i]).ctrl
    // one fragment, in index order, for each encoder that moved within the cap
    ensures |r.sent| == |MovedDeltas(d.encoderCtrls, EncoderValues(d))|
    ensures forall k :: 0 <= k < |r.sent| ==> r.sent[k] == VolumeFragment(MovedDeltas(d.encoderCtrls, EncoderValues(d))[k])
    ensures |r.sent| == |set i | 0 <= i < |d.encoderCtrls| && Moved(d.encoderCtrls[i], d.encoders.slots[i].value)|
  {
    var p := PollEncoders(d.encoderCtrls, EncoderValues(d), sendOk);
    MovedEncodersCount(d);
    EncoderHandling(d.(encoderCtrls := p.0), p.1)
  }

  /** One movement is owed per control whose encoder slot moved. */
  lemma MovedEncodersCount(d: Device)
    requires Valid(d)
    ensures |MovedDeltas(d.encoderCtrls, EncoderValues(d))| == |set i | 0 <= i < |d.encoderCtrls| && Moved(d.encoderCtrls[i], d.encoders.slots[i].value)|
  {
    var values := EncoderValues(d);
    MovedDeltasCount(d.encoderCtrls, values);
    assert (set i | 0 <= i < |d.encoderCtrls| && Moved(d.encoderCtrls[i], values[i]))
      == (set i | 0 <= i < |d.encoderCtrls| && Moved(d.encoderCtrls[i], d.encoders.slots[i].value));
  }

  /** After a successful send, a poll without further rotation sends nothing. */
  lemma QuietAfterSuccess(c: EncoderCtrl, value: int, sendOk: bool)
    requires PollEncoder(c, value, true).sent.Some?
    ensures PollEncoder(PollEncoder(c, value, true).ctrl, value, sendOk).sent.None?
  {
  }

  /** A failed send leaves the baseline, so the next poll sends the delta
      accumulated since the original baseline. */
  lemma RetryFromBaseline(c: EncoderCtrl, value: int, later: int, sendOk: bool)
    requires PollEncoder(c, value, false).sent.Some?
    requires later != c.lastValue && later - c.lastValue <= DeltaCap
    ensures ParseVolumeFragment(PollEncoder(PollEncoder(c, value, false).ctrl, later, sendOk).sent.value) == Some(later - c.lastValue)
  {
  }

  /** The polls of one encoder whose values run through `values`. */
  function PollRun(c: EncoderCtrl, values: seq<int>, sendOk: seq<bool>): (r: (EncoderCtrl, seq<string>))
    requires |sendOk| == |values|
    decreases |values|
  {
    if |values| == 0 then (c, [])
    else
      var p := PollEncoder(c, values[0], sendOk[0]);
      var rest := PollRun(p.ctrl, values[1..], sendOk[1..]);
      (rest.0, (if p.sent.Some? then [p.sent.value] else []) + rest.1)
  }

  /** Once the encoder is more than 100 ahead of the baseline the control is
      stuck: as long as it stays that far ahead nothing is sent and the
      baseline never moves, whatever the send outcomes. Negative deltas of
      any size are sent. */
  lemma {:induction false} StuckAboveCap(c: EncoderCtrl, values: seq<int>, sendOk: seq<bool>)
    requires |sendOk| == |values|
    requires forall k :: 0 <= k < |values| ==> values[k] - c.lastValue > DeltaCap
    ensures PollRun(c, values, sendOk) == (c, [])
    decreases |values|
  {
    if |values| > 0 {
      var p := PollEncoder(c, values[0], sendOk[0]);
      assert p == EncoderPoll(c, None);
      assert forall k :: 0 <= k < |values[1..]| ==> values[1..][k] == values[k + 1];
      StuckAboveCap(c, values[1..], sendOk[1..]);
      var rest := PollRun(c, values[1..], sendOk[1..]);
      assert [] + rest.1 == rest.1;
      assert PollRun(c, values, sendOk) == PollRun(c, values[1..], sendOk[1..]);
    }
  }
}

=== FILE: cstring.dfy ===
/** The C library routines the daemon leans on, stated over Dafny strings:
    strtok with one delimiter, toupper, strtoul/strtol, printf's %d and the
    STRTOU32 word comparison of sbpd.h. The target is the 32-bit Raspberry Pi,
    where long and unsigned long are 32 bits wide. A C string is the sequence
    of characters before its terminating NUL, so it never contains '\0'. */
module CString {

  const ULongMax: nat := 0xFFFF_FFFF
  const LongMax: int := 0x7FFF_FFFF
  const LongMin: int := -0x8000_0000

  predicate IsCString(s: string) {
    forall i :: 0 <= i < |s| ==> s[i] != '\0'
  }

  // ---------------------------------------------------------------------------
  // Character classes
  // ---------------------------------------------------------------------------

  predicate IsDigit(c: char) { '0' <= c <= '9' }

  predicate IsHexDigit(c: char) { IsDigit(c) || 'a' <= c <= 'f' || 'A' <= c <= 'F' }

  /** isspace in the C locale: blank, \t, \n, \v, \f and \r. */
  predicate IsSpace(c: char) { c == ' ' || 9 <= c as int <= 13 }

  predicate IsBaseDigit(c: char, base: nat) {
    if base == 16 then IsHexDigit(c) else IsDigit(c)
  }

  predicate AllDigits(s: string, base: nat) {
    forall i :: 0 <= i < |s| ==> IsBaseDigit(s[i], base)
  }

  function DigitValue(c: char): (v: nat)
    requires IsHexDigit(c)
    ensures v < 16
    ensures IsDigit(c) ==> v < 10
  {
    if IsDigit(c) then c as int - '0' as int
    else if 'a' <= c <= 'f' then c as int - 'a' as int + 10
    else c as int - 'A' as int + 10
  }

  function DigitChar(d: nat): (c: char)
    requires d < 10
    ensures IsDigit(c) && DigitValue(c) == d
  {
    ('0' as int + d) as char
  }

  /** toupper in the C locale: only 'a'..'z' change. */
  function ToUpper(c: char): char {
    if 'a' <= c <= 'z' then (c as int - 32) as char else c
  }

  function Upper(s: string): (u: string)
    ensures |u| == |s|
    ensures forall i :: 0 <= i < |s| ==> u[i] == ToUpper(s[i])
  {
    seq(|s|, i requires 0 <= i < |s| => ToUpper(s[i]))
  }

  // ---------------------------------------------------------------------------
  // STRTOU32: a 4-character string read as one 32-bit word
  // ---------------------------------------------------------------------------

  /** The four bytes STRTOU32 reads from a C string, the terminating NUL
      included; the string is taken as padded with NULs. */
  function Word(s: string): seq<char> {
    (s + "\0\0\0\0")[..4]
  }

  /** Comparing the words of a C string and of a 4-character code is the same
      as comparing the string's first four characters with the code; a
      shorter string never matches because its NUL meets a code character. */
  lemma WordMatches(s: string, code: string)
    requires IsCString(s) && IsCString(code) && |code| == 4
    ensures Word(s) == code <==> |s| >= 4 && s[..4] == code
  {
    if |s| < 4 {
      assert Word(s)[|s|] == '\0';
      assert code[|s|] != '\0';
    } else {
      assert Word(s) == s[..4];
    }
  }

  // ---------------------------------------------------------------------------
  // strtok with a single delimiter
  // ---------------------------------------------------------------------------

  /** Length of the run of non-delimiter characters at the start of s. */
  function FieldLength(s: string, d: char): (n: nat)
    ensures n <= |s|
    ensures forall i :: 0 <= i < n ==> s[i] != d
    ensures n == |s| || s[n] == d
  {
    if |s| == 0 || s[0] == d then 0 else 1 + FieldLength(s[1..], d)
  }

  /** What successive strtok calls with the delimiter d return, in order:
      the maximal non-empty runs of characters other than d. Consecutive
      delimiters therefore never produce an empty token. */
  function Tokens(s: string, d: char): (ts: seq<string>)
    ensures forall k :: 0 <= k < |ts| ==> |ts[k]| > 0 && d !in ts[k]
    ensures IsCString(s) ==> forall k :: 0 <= k < |ts| ==> IsCString(ts[k])
    decreases |s|
  {
    if |s| == 0 then []
    else if s[0] == d then Tokens(s[1..], d)
    else
      var n := FieldLength(s, d);
      [s[..n]] + Tokens(s[n..], d)
  }

  /** The tokens joined back together with one delimiter between neighbours. */
  function Join(ts: seq<string>, d: char): string {
    if |ts| == 0 then ""
    else if |ts| == 1 then ts[0]
    else ts[0] + [d] + Join(ts[1..], d)
  }

  predicate ProperTokens(ts: seq<string>, d: char) {
    forall k :: 0 <= k < |ts| ==> |ts[k]| > 0 && d !in ts[k]
  }

  lemma {:induction false} FieldLengthOfToken(t: string, rest: string, d: char)
    requires d !in t
    requires rest == [] || rest[0] == d
    ensures FieldLength(t + rest, d) == |t|
    decreases |t|
  {
    if |t| > 0 {
      assert t[0] in t;
      assert (t + rest)[1..] == t[1..] + rest;
      FieldLengthOfToken(t[1..], rest, d);
    } else {
      assert t + rest == rest;
    }
  }

  /** Tokenising a delimiter-joined list of proper tokens gives the list back. */
  lemma {:induction false} TokensOfJoin(ts: seq<string>, d: char)
    requires ProperTokens(ts, d)
    ensures Tokens(Join(ts, d), d) == ts
    decreases |ts|
  {
    if |ts| == 0 {
    } else if |ts| == 1 {
      var t := ts[0];
      FieldLengthOfToken(t, "", d);
      assert t + "" == t;
      assert t[0] != d by { assert t[0] in t; }
      assert t[|t|..] == [];
    } else {
      var t := ts[0];
      var rest := [d] + Join(ts[1..], d);
      var s := Join(ts, d);
      assert s == t + rest;
      FieldLengthOfToken(t, rest, d);
      assert t[0] != d by { assert t[0] in t; }
      assert s[0] == t[0];
      assert s[..|t|] == t;
      assert s[|t|..] == rest;
      assert rest[1..] == Join(ts[1..], d);
      TokensOfJoin(ts[1..], d);
    }
  }

  /** Joining C strings with a delimiter other than NUL gives a C string. */
  lemma {:induction false} JoinIsCString(ts: seq<string>, d: char)
    requires d != '\0'
    requires forall k :: 0 <= k < |ts| ==> IsCString(ts[k])
    ensures IsCString(Join(ts, d))
    decreases |ts|
  {
    if |ts| > 1 {
      JoinIsCString(ts[1..], d);
      var s := ts[0] + [d] + Join(ts[1..], d);
      forall i | 0 <= i < |s| ensures s[i] != '\0' {
        if i < |ts[0]| {
          assert s[i] == ts[0][i];
        } else if i > |ts[0]| {
          assert s[i] == Join(ts[1..], d)[i - |ts[0]| - 1];
        }
      }
    }
  }

  lemma DecimalIsCString(n: nat)
    ensures IsCString(Decimal(n))
  {
    var s := Decimal(n);
    forall i | 0 <= i < |s| ensures s[i] != '\0' {
      assert IsDigit(s[i]);
    }
  }

  /** The non-empty fields of fs, in order. */
  function NonEmpty(fs: seq<string>): (ts: seq<string>)
    ensures |ts| <= |fs|
    ensures forall k :: 0 <= k < |ts| ==> |ts[k]| > 0 && ts[k] in fs
  {
    if |fs| == 0 then []
    else (if |fs[0]| > 0 then [fs[0]] else []) + NonEmpty(fs[1..])
  }

  /** A leading delimiter is skipped. */
  lemma TokensAfterDelimiter(s: string, d: char)
    ensures Tokens([d] + s, d) == Tokens(s, d)
  {
    assert ([d] + s)[1..] == s;
  }

  /** A non-empty field ended by a delimiter or the end of the string is one token. */
  lemma TokensOfField(t: string, rest: string, d: char)
    requires |t| > 0 && d !in t
    requires rest == [] || rest[0] == d
    ensures Tokens(t + rest, d) == [t] + Tokens(rest, d)
  {
    FieldLengthOfToken(t, rest, d);
    assert t[0] != d by { assert t[0] in t; }
    assert (t + rest)[0] == t[0];
    assert (t + rest)[..|t|] == t;
    assert (t + rest)[|t|..] == rest;
  }

  /** Tokenising any delimiter-joined list of fields without the delimiter,
      empty ones included, gives the non-empty fields in order: strtok
      treats a run of delimiters as one. */
  lemma {:induction false} TokensOfJoinedFields(fs: seq<string>, d: char)
    requires forall k :: 0 <= k < |fs| ==> d !in fs[k]
    ensures Tokens(Join(fs, d), d) == NonEmpty(fs)
    decreases |fs|
  {
    if |fs| == 1 {
      if |fs[0]| > 0 {
        TokensOfField(fs[0], "", d);
        assert fs[0] + "" == fs[0];
      }
      assert NonEmpty(fs) == (if |fs[0]| > 0 then [fs[0]] else []) + NonEmpty([]);
    } else if |fs| > 1 {
      var rest := [d] + Join(fs[1..], d);
      assert Join(fs, d) == fs[0] + rest;
      TokensOfJoinedFields(fs[1..], d);
      TokensAfterDelimiter(Join(fs[1..], d), d);
      if |fs[0]| > 0 {
        TokensOfField(fs[0], rest, d);
      } else {
        assert fs[0] + rest == rest;
      }
    }
  }

  // ---------------------------------------------------------------------------
  // Decimal formatting (printf %d of a non-negative value)
  // ---------------------------------------------------------------------------

  function Decimal(n: nat): (s: string)
    ensures 1 <= |s|
    ensures AllDigits(s, 10)
    ensures s[0] == '0' ==> n == 0
    ensures n < 10 <==> |s| == 1
  {
    if n < 10 then [DigitChar(n)] else Decimal(n / 10) + [DigitChar(n % 10)]
  }

  /** The value of a string of digits in the given base, most significant first. */
  function DigitsValue(s: string, base: nat): nat
    requires base == 10 || base == 16
    requires AllDigits(s, base)
  {
    if |s| == 0 then 0
    else DigitsValue(s[..|s| - 1], base) * base + DigitValue(s[|s| - 1])
  }

  lemma {:induction false} DecimalValue(n: nat)
    ensures DigitsValue(Decimal(n), 10) == n
  {
    if n >= 10 {
      DecimalValue(n / 10);
      var s := Decimal(n);
      assert s[..|s| - 1] == Decimal(n / 10);
    }
  }

  /** Numbers below 10^k print with at most k digits. */
  lemma {:induction false} DecimalLength(n: nat, k: nat, bound: nat)
    requires k >= 1 && bound == Pow10(k) && n < bound
    ensures |Decimal(n)| <= k
    decreases k
  {
    if n >= 10 {
      assert Pow10(1) == 10;
      DecimalLength(n / 10, k - 1, Pow10(k - 1));
    }
  }

  function Pow10(k: nat): (p: nat)
    ensures p >= 1
  {
    if k == 0 then 1 else 10 * Pow10(k - 1)
  }

  // ---------------------------------------------------------------------------
  // strtoul / strtol
  // ---------------------------------------------------------------------------

  /** Length of the leading run of base digits. */
  function LeadingDigits(s: string, base: nat): (n: nat)
    ensures n <= |s|
    ensures AllDigits(s[..n], base)
    ensures n == |s| || !IsBaseDigit(s[n], base)
  {
    if |s| == 0 || !IsBaseDigit(s[0], base) then 0
    else
      var m := LeadingDigits(s[1..], base);
      assert s[..m + 1] == [s[0]] + s[1..][..m];
      1 + m
  }

  function LeadingSpace(s: string): (n: nat)
    ensures n <= |s|
    ensures forall i :: 0 <= i < n ==> IsSpace(s[i])
    ensures n == |s| || !IsSpace(s[n])
  {
    if |s| == 0 || !IsSpace(s[0]) then 0 else 1 + LeadingSpace(s[1..])
  }

  /** The part of a string strtoul and strtol read: optional white space, an
      optional sign, for base 16 an optional 0x prefix, then digits. */
  datatype Numeral = Numeral(negative: bool, digits: string)

  function ReadNumeral(s: string, base: nat): (r: Numeral)
    requires base == 10 || base == 16
    ensures AllDigits(r.digits, base)
  {
    var t := s[LeadingSpace(s)..];
    var signed := |t| > 0 && (t[0] == '+' || t[0] == '-');
    var u := if signed then t[1..] else t;
    var v := if base == 16 && |u| >= 3 && u[0] == '0' && (u[1] == 'x' || u[1] == 'X') && IsHexDigit(u[2])
             then u[2..] else u;
    Numeral(signed && t[0] == '-', v[..LeadingDigits(v, base)])
  }

  /** strtoul with a 32-bit unsigned long: an out-of-range magnitude gives
      ULONG_MAX, a minus sign negates modulo 2^32, no digits give 0. */
  function StrToUL(s: string, base: nat): (r: nat)
    requires base == 10 || base == 16
    ensures r <= ULongMax
    ensures ReadNumeral(s, base).digits == [] ==> r == 0
  {
    var num := ReadNumeral(s, base);
    var m := DigitsValue(num.digits, base);
    if num.digits == [] then 0
    else if m > ULongMax then ULongMax
    else if num.negative && m > 0 then ULongMax + 1 - m
    else m
  }

  /** strtol with a 32-bit long: the value saturates at LONG_MIN/LONG_MAX. */
  function StrToL(s: string): (r: int)
    ensures LongMin <= r <= LongMax
    ensures ReadNumeral(s, 10).digits == [] ==> r == 0
  {
    var num := ReadNumeral(s, 10);
    var m := DigitsValue(num.digits, 10);
    if num.negative then (if -(m as int) < LongMin then LongMin else -(m as int))
    else if m > LongMax then LongMax else m
  }

  lemma {:induction false} LeadingDigitsOfDigits(s: string, base: nat)
    requires AllDigits(s, base)
    ensures LeadingDigits(s, base) == |s|
    decreases |s|
  {
    if |s| > 0 {
      LeadingDigitsOfDigits(s[1..], base);
    }
  }

  lemma ReadNumeralOfDecimal(n: nat)
    ensures ReadNumeral(Decimal(n), 10) == Numeral(false, Decimal(n))
  {
    var s := Decimal(n);
    assert IsDigit(s[0]);
    assert LeadingSpace(s) == 0;
    assert s[0..] == s;
    LeadingDigitsOfDigits(s, 10);
    assert s[..|s|] == s;
  }

  /** k '0' characters. */
  function ZeroDigits(k: nat): (z: string)
    ensures |z| == k && forall i :: 0 <= i < k ==> z[i] == '0'
  {
    seq(k, i => '0')
  }

  /** Appending k zero digits multiplies the value by 10^k. */
  lemma {:induction false} DigitsThenZeros(s: string, k: nat)
    requires AllDigits(s, 10)
    ensures AllDigits(s + ZeroDigits(k), 10)
    ensures DigitsValue(s + ZeroDigits(k), 10) == DigitsValue(s, 10) * Pow10(k)
    decreases k
  {
    if k == 0 {
      assert s + ZeroDigits(0) == s;
    } else {
      DigitsThenZeros(s, k - 1);
      var t := s + ZeroDigits(k);
      assert t[..|t| - 1] == s + ZeroDigits(k - 1);
    }
  }

  /** strtoul reads a plain run of digits as its value, when that fits. */
  lemma StrToULOfDigits(s: string)
    requires |s| >= 1 && AllDigits(s, 10) && DigitsValue(s, 10) <= ULongMax
    ensures StrToUL(s, 10) == DigitsValue(s, 10)
  {
    assert IsDigit(s[0]);
    assert LeadingSpace(s) == 0;
    assert s[0..] == s;
    LeadingDigitsOfDigits(s, 10);
    assert s[..|s|] == s;
  }

  /** strtoul reads back what %d printed, for every value that fits. */
  lemma StrToULOfDecimal(n: nat)
    requires n <= ULongMax
    ensures StrToUL(Decimal(n), 10) == n
  {
    ReadNumeralOfDecimal(n);
    DecimalValue(n);
  }

  /** strtol reads back what %d printed, for every value that fits. */
  lemma StrToLOfDecimal(n: nat)
    requires n <= LongMax
    ensures StrToL(Decimal(n)) == n
  {
    ReadNumeralOfDecimal(n);
    DecimalValue(n);
  }
}

=== FILE: discovery.dfy ===
/** poll_discovery of sbpd/discovery.c: on every pass of the main loop, look
    for the server's address in the TCP table (every three seconds, unless
    the address was configured) and, when the control port is neither
    configured nor found yet, read a pending discovery reply.

    The outside world a poll sees is a parameter: the lines of the TCP table
    (None when it cannot be opened) and the datagram waiting on the discovery
    socket, if any. */
module Discovery {
  import opened Wrappers
  import opened CString
  import opened SbpdDefs
  import opened Inet
  import opened TcpTable
  import opened DiscoveryProtocol

  /** IP_SEARCH_TIMEOUT * SCD_SECOND / SCD_SLEEP_TIMEOUT: three seconds of
      100 ms polls. */
  const SearchInterval: UInt32 := 3 * Second / SleepTimeout

  /** The discovery socket: none before the first request, open after
      send_discovery, closed once read_discovery has taken a reply. */
  datatype Socket = NoSocket | Open(address: UInt32) | Closed

  /** The static variables of discovery.c. */
  datatype State = State(searchTimer: UInt32, foundAddr: UInt32, socket: Socket)

  const InitialState := State(0, 0, NoSocket)

  /** The outcome of one poll; sent is the address a discovery request went
      to during it. */
  datatype PollResult = PollResult(discovered: Params, server: Server, state: State, sent: Option<UInt32>)

  /** search_timer-- on an unsigned counter, followed by the reset to 30
      when it was zero. */
  function NextTimer(t: UInt32): (n: UInt32)
    ensures t == 0 ==> n == SearchInterval
    ensures t > 0 ==> n == t - 1
  {
    if t == 0 then SearchInterval else t - 1
  }

  /** The address the search compares the table against: inet_addr of the
      current host string, or 0 when there is none. */
  function KnownAddress(server: Server): UInt32 {
    if server.host.Some? then InetAddr(server.host.value) else 0
  }

  /** _write_server_string: the dotted form of the address becomes the host. */
  function WriteServerString(server: Server, addr: UInt32): (r: Server)
    ensures r.host.Some? && |r.host.value| < 16
    ensures ParseDotted(r.host.value) == Some(addr)
    ensures r == server.(host := r.host)
  {
    NtoaFits(addr);
    NtoaRoundTrip(addr);
    server.(host := Some(Ntoa(addr)))
  }

  /** The address search, the first half of poll_discovery. */
  function HostSearch(config: Params, discovered: Params, server: Server, st: State, table: Option<seq<string>>): (r: PollResult)
    ensures Has(config, CfgHost) ==> r == PollResult(discovered, server, st, None)
    ensures !Has(config, CfgHost) ==> r.state.searchTimer == NextTimer(st.searchTimer)
    ensures r.sent.Some? <==>
      && !Has(config, CfgHost) && !Has(config, CfgPort) && st.searchTimer == 0
      && GetServerIPv4(table, KnownAddress(server)).changed
    ensures r.sent.Some? ==> r.state.socket == Open(r.sent.value) && r.state.foundAddr == r.sent.value
    ensures r.server.port == server.port && r.server.user == server.user && r.server.password == server.password
    // a new address marks the host found and the port to be searched for again
    ensures r.discovered == discovered || r.discovered == discovered + {CfgHost} - {CfgPort}
    // exactly when a due search finds a new address: the bits change, the
    // address is kept, and the host is written only when the port is configured
    ensures var scan := GetServerIPv4(table, KnownAddress(server));
      if !Has(config, CfgHost) && st.searchTimer == 0 && scan.changed then
        && r.discovered == discovered + {CfgHost} - {CfgPort}
        && r.state.foundAddr == scan.ip
        && (Has(config, CfgPort) ==> r.server == server.(host := Some(Ntoa(scan.ip))) && r.state.socket == st.socket)
        && (!Has(config, CfgPort) ==> r.server == server)
      else
        r.discovered == discovered && r.server == server && r.state.foundAddr == st.foundAddr && r.state.socket == st.socket
  {
    if Has(config, CfgHost) then PollResult(discovered, server, st, None)
    else if st.searchTimer != 0 then PollResult(discovered, server, st.(searchTimer := st.searchTimer - 1), None)
    else
      var st1 := st.(searchTimer := SearchInterval);
      var scan := GetServerIPv4(table, KnownAddress(server));
      if !scan.changed then PollResult(discovered, server, st1, None)
      else
        var disc := discovered + {CfgHost} - {CfgPort};
        var st2 := st1.(foundAddr := scan.ip);
        if Has(config, CfgPort) then PollResult(disc, WriteServerString(server, scan.ip), st2, None)
        else PollResult(disc, server, st2.(socket := Open(scan.ip)), Some(scan.ip))
  }

  /** What recvfrom hands read_discovery: the waiting datagram while the
      socket is open, nothing otherwise (before the first request the
      descriptor is 0, which is not a socket; after close it is invalid). */
  function Delivered(socket: Socket, datagram: Option<seq<Byte>>): (reply: Option<seq<Byte>>)
    ensures !socket.Open? ==> reply == None
  {
    if socket.Open? then datagram else None
  }

  /** The port search, the second half of poll_discovery. */
  function PortSearch(config: Params, s: PollResult, datagram: Option<seq<Byte>>, verbose: bool): (r: PollResult)
    requires Readable(Delivered(s.state.socket, datagram), verbose)
    ensures Has(config, CfgPort) || Has(s.discovered, CfgPort) ==> r == s
    ensures r.sent == s.sent && r.state.searchTimer == s.state.searchTimer && r.state.foundAddr == s.state.foundAddr
    ensures r.server.user == s.server.user && r.server.password == s.server.password
    ensures Has(config, CfgHost) ==> r.server.host == s.server.host
    ensures r.server.port == s.server.port || r.discovered == s.discovered + {CfgPort}
    // no port read: the server record stays as it was
    ensures r.discovered == s.discovered ==> r.server == s.server
    // the socket only ever closes, and it closes on every reply read, a port-0 one included
    ensures r.state.socket == s.state.socket || r.state.socket == Closed
    ensures !Has(config, CfgPort) && !Has(s.discovered, CfgPort) ==>
      r.state.socket == if IsReply(Delivered(s.state.socket, datagram)) then Closed else s.state.socket
    // the port bit is set exactly when a nonzero port was read
    ensures r.discovered == s.discovered || r.discovered == s.discovered + {CfgPort}
    ensures r.discovered != s.discovered <==>
      && !Has(config, CfgPort) && !Has(s.discovered, CfgPort)
      && ReadDiscovery(Delivered(s.state.socket, datagram), verbose) != 0
    ensures r.discovered != s.discovered ==>
      && r.server.port == ReadDiscovery(Delivered(s.state.socket, datagram), verbose)
      && (!Has(config, CfgHost) ==> r.server.host == Some(Ntoa(s.state.foundAddr)))
  {
    if Has(config, CfgPort) || Has(s.discovered, CfgPort) then s
    else
      var reply := Delivered(s.state.socket, datagram);
      var port := ReadDiscovery(reply, verbose);
      var st := if IsReply(reply) then s.state.(socket := Closed) else s.state;
      if port == 0 then s.(state := st)
      else
        var server := if Has(config, CfgHost) then s.server else WriteServerString(s.server, s.state.foundAddr);
        s.(state := st, server := server.(port := port), discovered := s.discovered + {CfgPort})
  }

  /** What a poll needs of the waiting datagram: if read_discovery takes it,
      every value copy stays inside it and the port buffer stays
      NUL-terminated. */
  predicate PollReadable(config: Params, discovered: Params, server: Server, st: State,
                         table: Option<seq<string>>, datagram: Option<seq<Byte>>, verbose: bool) {
    Readable(Delivered(HostSearch(config, discovered, server, st, table).state.socket, datagram), verbose)
  }

  /** poll_discovery. */
  function Poll(config: Params, discovered: Params, server: Server, st: State,
                table: Option<seq<string>>, datagram: Option<seq<Byte>>, verbose: bool): (r: PollResult)
    requires PollReadable(config, discovered, server, st, table, datagram, verbose)
    // a configured host or port is never overwritten; user and password never change
    ensures Has(config, CfgHost) ==> r.server.host == server.host
    ensures Has(config, CfgPort) ==> r.server.port == server.port
    ensures r.server.user == server.user && r.server.password == server.password
    // the timer counts down only while the address is searched for
    ensures r.state.searchTimer == if Has(config, CfgHost) then st.searchTimer else NextTimer(st.searchTimer)
    // the host bit is never taken back, and the bits besides host and port are untouched
    ensures Has(discovered, CfgHost) ==> Has(r.discovered, CfgHost)
    // a request goes out exactly when a search finds a new address and the port is searched for
    ensures r.sent.Some? <==>
      && !Has(config, CfgHost) && !Has(config, CfgPort) && st.searchTimer == 0
      && GetServerIPv4(table, KnownAddress(server)).changed
  {
    var s := HostSearch(config, discovered, server, st, table);
    var r := PortSearch(config, s, datagram, verbose);
    r
  }

  /** The flags besides host and port come out of a poll as they went in. */
  lemma PollKeepsOthers(config: Params, discovered: Params, server: Server, st: State,
                        table: Option<seq<string>>, datagram: Option<seq<Byte>>, verbose: bool)
    requires PollReadable(config, discovered, server, st, table, datagram, verbose)
    ensures Others(Poll(config, discovered, server, st, table, datagram, verbose).discovered) == Others(discovered)
  {
    var s := HostSearch(config, discovered, server, st, table);
    assert Others(s.discovered) == Others(discovered);
  }

  // ---------------------------------------------------------------------------
  // What stays true from poll to poll
  // ---------------------------------------------------------------------------

  /** The bookkeeping poll_discovery keeps consistent:
      a socket exists only when neither host nor port is configured, and only
      after an address was found;
      a discovered port was read from that socket and is nonzero;
      a host the discovery manages is always one inet_ntoa printed;
      once the port is discovered, that host is the address the port came from. */
  predicate Inv(config: Params, discovered: Params, server: Server, st: State) {
    && (st.socket != NoSocket ==> !Has(config, CfgHost) && !Has(config, CfgPort) && Has(discovered, CfgHost))
    && (st.socket.Open? ==> st.socket.address == st.foundAddr)
    && (!Has(config, CfgPort) && Has(discovered, CfgPort) ==> st.socket != NoSocket && server.port != 0)
    && (!Has(config, CfgHost) && server.host.Some? ==> ParseDotted(server.host.value).Some?)
    && (!Has(config, CfgHost) && !Has(config, CfgPort) && Has(discovered, CfgPort) ==>
          server.host == Some(Ntoa(st.foundAddr)))
  }

  /** The state main starts the loop in satisfies the invariant, whatever
      the options configured. */
  lemma InitialInv(config: Params, discovered: Params, server: Server)
    requires !Has(discovered, CfgHost) && !Has(discovered, CfgPort)
    requires !Has(config, CfgHost) ==> server.host == None
    ensures Inv(config, discovered, server, InitialState)
  {
  }

  lemma {:induction false} PollPreservesInv(config: Params, discovered: Params, server: Server, st: State,
                                            table: Option<seq<string>>, datagram: Option<seq<Byte>>, verbose: bool)
    requires Inv(config, discovered, server, st)
    requires PollReadable(config, discovered, server, st, table, datagram, verbose)
    ensures var r := Poll(config, discovered, server, st, table, datagram, verbose);
      Inv(config, r.discovered, r.server, r.state)
  {
    var s := HostSearch(config, discovered, server, st, table);
    assert Inv(config, s.discovered, s.server, s.state);
  }

  /** With the host configured no request is ever sent, so a port left to
      discovery is never found: the reply is read from a descriptor that was
      never opened. */
  lemma HostConfiguredPortNeverFound(config: Params, discovered: Params, server: Server, st: State,
                                     table: Option<seq<string>>, datagram: Option<seq<Byte>>, verbose: bool)
    requires Inv(config, discovered, server, st)
    requires Has(config, CfgHost) && !Has(config, CfgPort) && !Has(discovered, CfgPort)
    ensures PollReadable(config, discovered, server, st, table, datagram, verbose)
    ensures var r := Poll(config, discovered, server, st, table, datagram, verbose);
      !Has(r.discovered, CfgPort) && r.sent == None && r.server == server
  {
  }

  /** Under the invariant, the search compares the table against exactly
      the address the host string names. */
  lemma KnownAddressIsHost(config: Params, discovered: Params, server: Server, st: State)
    requires Inv(config, discovered, server, st)
    requires !Has(config, CfgHost) && server.host.Some?
    ensures Ntoa(KnownAddress(server)) == server.host.value
  {
    ParseDottedCanonical(server.host.value);
  }

  // ---------------------------------------------------------------------------
  // The search schedule
  // ---------------------------------------------------------------------------

  /** The search timer after k polls, starting from t. */
  function TimerAfter(t: UInt32, k: nat): UInt32
    decreases k
  {
    if k == 0 then t else TimerAfter(NextTimer(t), k - 1)
  }

  /** Starting from zero, the address is searched for in polls 0, 31, 62, ...:
      every 31st poll, one more than IP_SEARCH_TIMEOUT suggests, since the
      post-decrement spends a poll on the zero. */
  lemma {:induction false} SearchSchedule(k: nat)
    ensures TimerAfter(0, k) == if k % 31 == 0 then 0 else 31 - k % 31
    ensures TimerAfter(0, k) == 0 <==> k % 31 == 0
  {
    if k > 0 {
      TimerShift(0, k);
      SearchSchedule(k - 1);
      var q, m := (k - 1) / 31, (k - 1) % 31;
      assert k == 31 * q + m + 1;
      assert k % 31 == if m == 30 then 0 else m + 1;
    }
  }

  /** Unfolding the last poll instead of the first. */
  lemma {:induction false} TimerShift(t: UInt32, k: nat)
    requires k > 0
    ensures TimerAfter(t, k) == NextTimer(TimerAfter(t, k - 1))
    decreases k
  {
    if k > 1 {
      TimerShift(NextTimer(t), k - 1);
    }
  }
}

=== FILE: discovery_protocol.dfy ===
/** The Squeezebox UDP discovery exchange of sbpd/discovery.c: the 23-byte
    request send_discovery broadcasts, and read_discovery's walk over the
    tag-length-value records of the reply, which yields the server's JSON
    control port. A record is a 4-byte tag, a length byte and that many
    value bytes; char is unsigned on the Raspberry Pi, so a length byte is
    0..255. */
module DiscoveryProtocol {
  import opened Wrappers
  import opened CString
  import opened SbpdDefs

  type Byte = b: nat | b < 256

  predicate IsAscii(s: string) {
    forall i :: 0 <= i < |s| ==> s[i] as int < 256
  }

  function Ascii(s: string): (b: seq<Byte>)
    requires IsAscii(s)
    ensures |b| == |s| && forall i :: 0 <= i < |s| ==> b[i] == s[i] as int
  {
    seq(|s|, i requires 0 <= i < |s| => s[i] as int)
  }

  function Chars(b: seq<Byte>): (s: string)
    ensures |s| == |b| && forall i :: 0 <= i < |b| ==> s[i] as int == b[i]
  {
    seq(|b|, i requires 0 <= i < |b| => b[i] as char)
  }

  function Min(a: nat, b: nat): nat { if a < b then a else b }

  /** The four-byte record tags, as numbers; TagSpelling gives their letters. */
  const TagIpad: seq<Byte> := [73, 80, 65, 68]
  const TagName: seq<Byte> := [78, 65, 77, 69]
  const TagJson: seq<Byte> := [74, 83, 79, 78]
  const TagUuid: seq<Byte> := [85, 85, 73, 68]

  /** The datagram send_discovery sends: 'e', four tags each with an empty
      value, and two zero bytes. */
  const DiscoveryRequest := Ascii("eIPAD\0NAME\0JSON\0UUID\0\0\0")

  /** The first byte of a discovery request and of a reply. */
  const RequestMarker: Byte := 'e' as int
  const ReplyMarker: Byte := 'E' as int

  datatype Record = Record(tag: seq<Byte>, value: seq<Byte>)

  predicate ValidRecords(rs: seq<Record>) {
    forall k :: 0 <= k < |rs| ==> |rs[k].tag| == 4 && |rs[k].value| < 256
  }

  function EncodeRecords(rs: seq<Record>): seq<Byte>
    requires ValidRecords(rs)
  {
    if |rs| == 0 then []
    else rs[0].tag + [|rs[0].value|] + rs[0].value + EncodeRecords(rs[1..])
  }

  /** The request's bytes, as numbers. */
  const RequestBytes: seq<Byte> :=
    [101, 73, 80, 65, 68, 0, 78, 65, 77, 69, 0, 74, 83, 79, 78, 0, 85, 85, 73, 68, 0, 0, 0]

  lemma RequestIsBytes()
    ensures DiscoveryRequest == RequestBytes
  {
    assert |DiscoveryRequest| == 23;
    forall i | 0 <= i < 23 ensures DiscoveryRequest[i] == RequestBytes[i] {
    }
  }

  /** The tags spell IPAD, NAME, JSON and UUID. */
  lemma TagSpelling()
    ensures TagIpad == Ascii("IPAD") && TagName == Ascii("NAME")
    ensures TagJson == Ascii("JSON") && TagUuid == Ascii("UUID")
  {
  }

  /** A record with an empty value encodes as its tag and a zero length. */
  lemma EncodeEmptyFirst(tag: seq<Byte>, rest: seq<Record>)
    requires |tag| == 4 && ValidRecords(rest)
    ensures ValidRecords([Record(tag, [])] + rest)
    ensures EncodeRecords([Record(tag, [])] + rest) == tag + [0] + EncodeRecords(rest)
  {
    var rs := [Record(tag, [])] + rest;
    assert rs[1..] == rest;
  }

  /** Four records with empty values encode as their tags, each followed by
      a zero length. */
  lemma FourEmptyRecords(a: seq<Byte>, b: seq<Byte>, c: seq<Byte>, d: seq<Byte>)
    requires |a| == 4 && |b| == 4 && |c| == 4 && |d| == 4
    ensures ValidRecords([Record(a, []), Record(b, []), Record(c, []), Record(d, [])])
    ensures EncodeRecords([Record(a, []), Record(b, []), Record(c, []), Record(d, [])])
      == a + [0] + b + [0] + c + [0] + d + [0]
  {
    var r4: seq<Record> := [Record(d, [])];
    EncodeEmptyFirst(d, []);
    assert r4 == [Record(d, [])] + [];
    var r3 := [Record(c, [])] + r4;
    EncodeEmptyFirst(c, r4);
    var r2 := [Record(b, [])] + r3;
    EncodeEmptyFirst(b, r3);
    EncodeEmptyFirst(a, r2);
    assert [Record(a, [])] + r2 == [Record(a, []), Record(b, []), Record(c, []), Record(d, [])];
  }

  /** Four four-byte tags with their zero lengths, between a marker and two
      zero bytes, make 23 bytes in that order. */
  lemma FlattenRequest(m: Byte, a: seq<Byte>, b: seq<Byte>, c: seq<Byte>, d: seq<Byte>)
    requires |a| == 4 && |b| == 4 && |c| == 4 && |d| == 4
    ensures [m] + (a + [0] + b + [0] + c + [0] + d + [0]) + [0, 0]
      == [m, a[0], a[1], a[2], a[3], 0, b[0], b[1], b[2], b[3], 0,
          c[0], c[1], c[2], c[3], 0, d[0], d[1], d[2], d[3], 0, 0, 0]
  {
    assert a == [a[0], a[1], a[2], a[3]];
    assert b == [b[0], b[1], b[2], b[3]];
    assert c == [c[0], c[1], c[2], c[3]];
    assert d == [d[0], d[1], d[2], d[3]];
  }

  lemma RecordsAreBytes()
    ensures [RequestMarker]
      + EncodeRecords([Record(TagIpad, []), Record(TagName, []), Record(TagJson, []), Record(TagUuid, [])])
      + [0, 0] == RequestBytes
  {
    FourEmptyRecords(TagIpad, TagName, TagJson, TagUuid);
    FlattenRequest(RequestMarker, TagIpad, TagName, TagJson, TagUuid);
  }

  /** The request is 23 bytes: the marker, the IPAD, NAME, JSON and UUID
      records with empty values, and two zero bytes. */
  lemma RequestLayout()
    ensures |DiscoveryRequest| == 23
    ensures DiscoveryRequest ==
      [RequestMarker]
      + EncodeRecords([Record(TagIpad, []), Record(TagName, []), Record(TagJson, []), Record(TagUuid, [])])
      + [0, 0]
  {
    RequestIsBytes();
    RecordsAreBytes();
  }

  // ---------------------------------------------------------------------------
  // strncpy
  // ---------------------------------------------------------------------------

  /** strncpy(dst, src, n) reads src byte by byte until it has read n bytes
      or met a NUL; CopyInside says that read never runs past the end of src. */
  predicate CopyInside(src: seq<Byte>, n: nat)
    decreases n
  {
    n == 0 || (|src| > 0 && (src[0] == 0 || CopyInside(src[1..], n - 1)))
  }

  /** The read stays inside exactly when src is at least n bytes long or
      holds a NUL. */
  lemma {:induction false} CopyInsideMeans(src: seq<Byte>, n: nat)
    ensures CopyInside(src, n) <==> n <= |src| || 0 in src
    decreases n
  {
    if n > 0 && |src| > 0 && src[0] != 0 {
      CopyInsideMeans(src[1..], n - 1);
      assert src == [src[0]] + src[1..];
    }
  }

  /** A source of at least n bytes is always read inside. */
  lemma {:induction false} ReadWithin(src: seq<Byte>, n: nat)
    requires n <= |src|
    ensures CopyInside(src, n)
    decreases n
  {
    if n > 0 && src[0] != 0 {
      ReadWithin(src[1..], n - 1);
    }
  }

  /** How many bytes strncpy copies before it meets a NUL or the bound. */
  function CopyLength(src: seq<Byte>, n: nat): (k: nat)
    requires CopyInside(src, n)
    ensures k <= n && k <= |src|
    ensures forall i :: 0 <= i < k ==> src[i] != 0
    ensures k < n ==> k < |src| && src[k] == 0
    decreases n
  {
    if n == 0 || src[0] == 0 then 0
    else 1 + CopyLength(src[1..], n - 1)
  }

  function Zeros(n: nat): (z: seq<Byte>)
    ensures |z| == n && forall i :: 0 <= i < n ==> z[i] == 0
  {
    seq(n, i => 0)
  }

  /** strncpy: the first n bytes become src's bytes up to its first NUL,
      padded with NULs; the bytes past n are untouched. */
  function StrNCpy(dst: seq<Byte>, src: seq<Byte>, n: nat): (r: seq<Byte>)
    requires n <= |dst| && CopyInside(src, n)
    ensures |r| == |dst|
    ensures forall i {:trigger r[i]} :: 0 <= i < n ==> r[i] == if i < CopyLength(src, n) then src[i] else 0
    ensures r[n..] == dst[n..]
  {
    var k := CopyLength(src, n);
    src[..k] + Zeros(n - k) + dst[n..]
  }

  /** Only the first n source bytes matter. */
  lemma StrNCpyPrefix(dst: seq<Byte>, src: seq<Byte>, more: seq<Byte>, n: nat)
    requires n <= |dst| && n <= |src|
    ensures CopyInside(src, n) && CopyInside(src + more, n)
    ensures StrNCpy(dst, src + more, n) == StrNCpy(dst, src, n)
  {
    ReadWithin(src, n);
    CopyLengthPrefix(src, more, n);
    var k := CopyLength(src, n);
    assert (src + more)[..k] == src[..k];
  }

  lemma {:induction false} CopyLengthPrefix(src: seq<Byte>, more: seq<Byte>, n: nat)
    requires n <= |src|
    ensures CopyInside(src, n) && CopyInside(src + more, n)
    ensures CopyLength(src + more, n) == CopyLength(src, n)
    decreases n
  {
    ReadWithin(src, n);
    if n > 0 && src[0] != 0 {
      assert (src + more)[1..] == src[1..] + more;
      CopyLengthPrefix(src[1..], more, n - 1);
    }
  }

  // ---------------------------------------------------------------------------
  // read_discovery
  // ---------------------------------------------------------------------------

  const BufSize: nat := 1600
  const PortSize: nat := 6

  /** The port buffer before any JSON record: "9000" and two NULs. */
  const InitialPort := Ascii("9000\0\0")

  /** How many value bytes read_discovery copies for a record: a JSON value
      goes to the 6-byte port buffer; NAME and UUID values go to 256-byte
      buffers, but only when the log level reaches LOG_NOTICE. */
  function CopyBound(tag: seq<Byte>, len: nat, verbose: bool): nat {
    if tag == TagJson then Min(len, PortSize)
    else if verbose && (tag == TagName || tag == TagUuid) then Min(len, 256)
    else 0
  }

  /** The port buffer after a record's value copy: only a JSON value lands
      in it. */
  function CopyInto(port: seq<Byte>, tag: seq<Byte>, src: seq<Byte>, n: nat): (p: seq<Byte>)
    requires |port| == PortSize && (tag == TagJson ==> n <= PortSize) && CopyInside(src, n)
    ensures |p| == PortSize
  {
    if tag == TagJson then StrNCpy(port, src, n) else port
  }

  /** The record walk from position pos, with the signed loop guard
      pos + 5 < size: the port buffer after the last record, or None when a
      value copy would read past the datagram. */
  function Walk(d: seq<Byte>, pos: nat, port: seq<Byte>, verbose: bool): (r: Option<seq<Byte>>)
    requires |port| == PortSize
    ensures r.Some? ==> |r.value| == PortSize
    decreases |d| - pos
  {
    if pos + 5 < |d| then
      var len := d[pos + 4];
      var tag := d[pos..pos + 4];
      var src := d[pos + 5..];
      var n := CopyBound(tag, len, verbose);
      if !CopyInside(src, n) then None
      else if tag == TagJson then Walk(d, pos + len + 5, CopyInto(port, tag, src, n), verbose)
      else Walk(d, pos + len + 5, port, verbose)
    else Some(port)
  }

  /** What recvfrom leaves in the 1600-byte buffer. */
  function Received(datagram: seq<Byte>): (d: seq<Byte>)
    ensures |d| <= BufSize
  {
    datagram[..Min(|datagram|, BufSize)]
  }

  /** A received datagram that read_discovery treats as a reply. */
  predicate IsReply(reply: Option<seq<Byte>>) {
    reply.Some? && |Received(reply.value)| > 0 && Received(reply.value)[0] == ReplyMarker
  }

  /** The characters of a NUL-terminated buffer. */
  function CStringOf(b: seq<Byte>): (s: string)
    requires 0 in b
    ensures IsCString(s) && |s| < |b| && b[|s|] == 0
    ensures forall i :: 0 <= i < |s| ==> s[i] as int == b[i]
  {
    if b[0] == 0 then []
    else
      assert 0 in b[1..] by {
        var i :| 0 <= i < |b| && b[i] == 0;
        assert b[1..][i - 1] == 0;
      }
      [b[0] as char] + CStringOf(b[1..])
  }

  /** What read_discovery needs of a reply: every value copy stays inside
      the datagram, and the port buffer ends up NUL-terminated (a 6-byte JSON
      value leaves it without a terminator). */
  predicate Readable(reply: Option<seq<Byte>>, verbose: bool) {
    IsReply(reply) ==>
      var w := Walk(Received(reply.value), 1, InitialPort, verbose);
      w.Some? && 0 in w.value
  }

  /** read_discovery: 0 when nothing that looks like a reply arrived,
      otherwise the leading decimal number of the final port buffer. */
  function ReadDiscovery(reply: Option<seq<Byte>>, verbose: bool): (port: UInt32)
    requires Readable(reply, verbose)
    ensures !IsReply(reply) ==> port == 0
    ensures IsReply(reply) ==>
      port == StrToUL(CStringOf(Walk(Received(reply.value), 1, InitialPort, verbose).value), 10)
  {
    if !IsReply(reply) then 0
    else StrToUL(CStringOf(Walk(Received(reply.value), 1, InitialPort, verbose).value), 10)
  }

  // ---------------------------------------------------------------------------
  // The walk against the records it reads
  // ---------------------------------------------------------------------------

  /** The port buffer after one record: a JSON record copies min(len, 6)
      bytes of its value over it. */
  function Apply(port: seq<Byte>, r: Record): (p: seq<Byte>)
    requires |port| == PortSize
    ensures |p| == PortSize
  {
    if r.tag == TagJson then
      ReadWithin(r.value, Min(|r.value|, PortSize));
      StrNCpy(port, r.value, Min(|r.value|, PortSize))
    else port
  }

  /** The port buffer after a record list. */
  function Overlay(port: seq<Byte>, rs: seq<Record>): (r: seq<Byte>)
    requires |port| == PortSize
    ensures |r| == PortSize
    decreases |rs|
  {
    if |rs| == 0 then port else Overlay(Apply(port, rs[0]), rs[1..])
  }

  function EncodeReply(rs: seq<Record>): seq<Byte>
    requires ValidRecords(rs)
  {
    [ReplyMarker] + EncodeRecords(rs)
  }

  /** d holds the records rs from pos to its end: each a four-byte tag, a
      length byte and that many value bytes. */
  predicate RecordsAt(d: seq<Byte>, pos: nat, rs: seq<Record>)
    decreases |rs|
  {
    if |rs| == 0 then pos == |d|
    else
      var r := rs[0];
      var end := pos + 5 + |r.value|;
      && end <= |d|
      && d[pos..pos + 4] == r.tag && d[pos + 4] == |r.value| && d[pos + 5..end] == r.value
      && RecordsAt(d, end, rs[1..])
  }

  /** The header and value of an encoded record that starts at pos, and
      where the bytes after it start. */
  lemma RecordAt(d: seq<Byte>, pos: nat, r: Record, rest: seq<Byte>)
    requires |r.tag| == 4
    requires pos <= |d| && d[pos..] == r.tag + [|r.value|] + r.value + rest
    ensures pos + 5 + |r.value| <= |d|
    ensures d[pos..pos + 4] == r.tag && d[pos + 4] == |r.value| && d[pos + 5..pos + 5 + |r.value|] == r.value
    ensures d[pos + 5 + |r.value|..] == rest
  {
    var e := d[pos..];
    assert d[pos + 4] == e[4];
    assert d[pos..pos + 4] == e[..4];
    assert d[pos + 5..pos + 5 + |r.value|] == e[5..5 + |r.value|];
    assert d[pos + 5 + |r.value|..] == e[5 + |r.value|..];
  }

  lemma ValidTail(rs: seq<Record>)
    requires ValidRecords(rs) && |rs| > 0
    ensures ValidRecords(rs[1..])
  {
    assert forall k :: 0 <= k < |rs[1..]| ==> rs[1..][k] == rs[k + 1];
  }

  /** An encoded record list lies in the bytes that encode it. */
  lemma {:induction false} EncodedRecordsAt(d: seq<Byte>, pos: nat, rs: seq<Record>)
    requires ValidRecords(rs)
    requires pos <= |d| && d[pos..] == EncodeRecords(rs)
    ensures RecordsAt(d, pos, rs)
    decreases |rs|
  {
    if |rs| == 0 {
      assert |d[pos..]| == 0;
    } else {
      ValidTail(rs);
      RecordAt(d, pos, rs[0], EncodeRecords(rs[1..]));
      EncodedRecordsAt(d, pos + 5 + |rs[0].value|, rs[1..]);
    }
  }

  /** The walk past one record whose value copy stays inside the datagram
      goes on after the record with the port buffer next. */
  lemma WalkUnfold(d: seq<Byte>, pos: nat, port: seq<Byte>, verbose: bool, r: Record)
    requires |port| == PortSize && pos + 5 < |d|
    requires d[pos..pos + 4] == r.tag && d[pos + 4] == |r.value|
    requires CopyInside(d[pos + 5..], CopyBound(r.tag, |r.value|, verbose))
    requires Apply(port, r) == CopyInto(port, r.tag, d[pos + 5..], CopyBound(r.tag, |r.value|, verbose))
    ensures Walk(d, pos, port, verbose) == Walk(d, pos + 5 + |r.value|, Apply(port, r), verbose)
  {
  }

  /** Applying a record copies what the walk copies from bytes that start
      with the record's value. */
  lemma ApplyCopies(port: seq<Byte>, r: Record, src: seq<Byte>, verbose: bool)
    requires |port| == PortSize && |r.value| <= |src| && src[..|r.value|] == r.value
    ensures CopyInside(src, CopyBound(r.tag, |r.value|, verbose))
    ensures Apply(port, r) == CopyInto(port, r.tag, src, CopyBound(r.tag, |r.value|, verbose))
  {
    var rest := src[|r.value|..];
    assert src == r.value + rest;
    CopyLengthPrefix(r.value, rest, CopyBound(r.tag, |r.value|, verbose));
    if r.tag == TagJson {
      StrNCpyPrefix(port, r.value, rest, Min(|r.value|, PortSize));
    }
  }

  /** The copy the walk makes at a record inside the datagram is the
      record's application to the port buffer. */
  lemma CopyAtRecord(d: seq<Byte>, pos: nat, port: seq<Byte>, verbose: bool, r: Record)
    requires |port| == PortSize && pos + 5 + |r.value| <= |d|
    requires d[pos + 5..pos + 5 + |r.value|] == r.value
    ensures CopyInside(d[pos + 5..], CopyBound(r.tag, |r.value|, verbose))
    ensures Apply(port, r) == CopyInto(port, r.tag, d[pos + 5..], CopyBound(r.tag, |r.value|, verbose))
  {
    var src := d[pos + 5..];
    assert src[..|r.value|] == r.value;
    ApplyCopies(port, r, src, verbose);
  }

  /** One iteration of the walk over a record that lies inside the datagram. */
  lemma WalkStep(d: seq<Byte>, pos: nat, port: seq<Byte>, verbose: bool, r: Record)
    requires |port| == PortSize && pos + 5 < |d| && pos + 5 + |r.value| <= |d|
    requires d[pos..pos + 4] == r.tag && d[pos + 4] == |r.value| && d[pos + 5..pos + 5 + |r.value|] == r.value
    ensures Walk(d, pos, port, verbose) == Walk(d, pos + 5 + |r.value|, Apply(port, r), verbose)
  {
    CopyAtRecord(d, pos, port, verbose, r);
    WalkUnfold(d, pos, port, verbose, r);
  }

  /** A record too short to pass the loop guard ends the walk; it can only be
      a last record with an empty value, which changes nothing. */
  lemma WalkAtEnd(d: seq<Byte>, pos: nat, port: seq<Byte>, verbose: bool, rs: seq<Record>)
    requires |port| == PortSize && |rs| > 0
    requires RecordsAt(d, pos, rs) && pos + 5 >= |d|
    ensures Walk(d, pos, port, verbose) == Some(port)
    ensures Overlay(port, rs) == port
  {
    var r := rs[0];
    assert |r.value| == 0;
    assert |rs[1..]| == 0;
    if r.tag == TagJson {
      assert StrNCpy(port, r.value, 0) == port[0..];
    }
    assert Overlay(port, rs) == Overlay(Apply(port, r), rs[1..]);
  }

  /** Walking a record list applies exactly its records. */
  lemma {:induction false} WalkOfRecords(d: seq<Byte>, pos: nat, rs: seq<Record>, port: seq<Byte>, verbose: bool)
    requires RecordsAt(d, pos, rs) && |port| == PortSize
    ensures Walk(d, pos, port, verbose) == Some(Overlay(port, rs))
    decreases |rs|
  {
    if |rs| == 0 {
      assert pos == |d|;
    } else if pos + 5 < |d| {
      var r := rs[0];
      var end := pos + 5 + |r.value|;
      var next := Apply(port, r);
      assert RecordsAt(d, end, rs[1..]);
      WalkStep(d, pos, port, verbose, r);
      WalkOfRecords(d, end, rs[1..], next, verbose);
      assert Overlay(port, rs) == Overlay(next, rs[1..]);
      assert Walk(d, pos, port, verbose) == Walk(d, end, next, verbose);
    } else {
      WalkAtEnd(d, pos, port, verbose, rs);
    }
  }

  /** Walking an encoded record list applies exactly its records. */
  lemma WalkOfEncoded(d: seq<Byte>, pos: nat, rs: seq<Record>, port: seq<Byte>, verbose: bool)
    requires ValidRecords(rs) && |port| == PortSize
    requires pos <= |d| && d[pos..] == EncodeRecords(rs)
    ensures Walk(d, pos, port, verbose) == Some(Overlay(port, rs))
  {
    EncodedRecordsAt(d, pos, rs);
    WalkOfRecords(d, pos, rs, port, verbose);
  }

  /** read_discovery on an encoded reply reads the port its JSON records
      leave behind. */
  lemma ReadEncodedReply(rs: seq<Record>, verbose: bool)
    requires ValidRecords(rs) && |EncodeReply(rs)| <= BufSize
    requires 0 in Overlay(InitialPort, rs)
    ensures Readable(Some(EncodeReply(rs)), verbose)
    ensures ReadDiscovery(Some(EncodeReply(rs)), verbose) == StrToUL(CStringOf(Overlay(InitialPort, rs)), 10)
  {
    var d := EncodeReply(rs);
    assert Received(d) == d;
    assert d[1..] == EncodeRecords(rs);
    WalkOfEncoded(d, 1, rs, InitialPort, verbose);
  }

  /** Records other than JSON leave the port buffer alone. */
  lemma {:induction false} OverlayWithoutJson(port: seq<Byte>, rs: seq<Record>)
    requires |port| == PortSize
    requires forall k :: 0 <= k < |rs| ==> rs[k].tag != TagJson
    ensures Overlay(port, rs) == port
    decreases |rs|
  {
    if |rs| > 0 {
      assert forall k :: 0 <= k < |rs[1..]| ==> rs[1..][k] == rs[k + 1];
      OverlayWithoutJson(port, rs[1..]);
    }
  }

  lemma {:induction false} OverlayAppend(port: seq<Byte>, a: seq<Record>, b: seq<Record>)
    requires |port| == PortSize
    ensures Overlay(port, a + b) == Overlay(Overlay(port, a), b)
    decreases |a|
  {
    if |a| == 0 {
      assert a + b == b;
    } else {
      assert (a + b)[0] == a[0];
      assert (a + b)[1..] == a[1..] + b;
      OverlayAppend(Apply(port, a[0]), a[1..], b);
    }
  }

  lemma CStringOfDigits(b: seq<Byte>, s: string)
    requires |s| < |b| && b[|s|] == 0
    requires forall i :: 0 <= i < |s| ==> s[i] != '\0' && s[i] as int == b[i]
    ensures 0 in b && CStringOf(b) == s
    decreases |s|
  {
    assert b[|s|] in b;
    if |s| > 0 {
      assert b[0] != 0;
      assert b[1..][|s| - 1] == 0;
      CStringOfDigits(b[1..], s[1..]);
      assert s == [b[0] as char] + s[1..];
    }
  }

  /** The untouched port buffer reads as 9000. */
  lemma InitialPortReads()
    ensures 0 in InitialPort && StrToUL(CStringOf(InitialPort), 10) == 9000
  {
    CStringOfDigits(InitialPort, "9000");
    assert Decimal(9000) == "9000";
    StrToULOfDecimal(9000);
  }

  /** A reply without a JSON record yields the default port 9000. */
  lemma DefaultPort(rs: seq<Record>, verbose: bool)
    requires ValidRecords(rs) && |EncodeReply(rs)| <= BufSize
    requires forall k :: 0 <= k < |rs| ==> rs[k].tag != TagJson
    ensures Readable(Some(EncodeReply(rs)), verbose)
    ensures ReadDiscovery(Some(EncodeReply(rs)), verbose) == 9000
  {
    OverlayWithoutJson(InitialPort, rs);
    InitialPortReads();
    ReadEncodedReply(rs, verbose);
  }

  /** The digits of a port number, as the server sends them. */
  function PortDigits(p: nat): (b: seq<Byte>)
    ensures |b| == |Decimal(p)| && forall i :: 0 <= i < |b| ==> b[i] == Decimal(p)[i] as int
  {
    var s := Decimal(p);
    assert IsAscii(s) by {
      assert forall i :: 0 <= i < |s| ==> IsDigit(s[i]);
    }
    Ascii(s)
  }

  /** The number a port buffer holding p's digits over the default reads as. */
  function PortReading(p: nat): nat {
    var len := |Decimal(p)|;
    if len < 4 then p * Pow10(4 - len) else p
  }

  lemma PortDigitsLength(p: nat)
    requires p <= 99999
    ensures 1 <= |PortDigits(p)| <= 5
    ensures forall i :: 0 <= i < |PortDigits(p)| ==> PortDigits(p)[i] != 0
  {
    assert Pow10(5) == 100000 by {
      assert Pow10(1) == 10 && Pow10(2) == 100 && Pow10(3) == 1000 && Pow10(4) == 10000;
    }
    DecimalLength(p, 5, 100000);
    var s := Decimal(p);
    forall i | 0 <= i < |s| ensures PortDigits(p)[i] != 0 {
      assert IsDigit(s[i]);
    }
  }

  /** A JSON record with the digits of p, at most five of them, copies them
      over the start of "9000" and leaves the rest of the buffer. */
  lemma JsonDigitsOverlay(p: nat)
    requires p <= 99999
    ensures |PortDigits(p)| <= 5
    ensures Apply(InitialPort, Record(TagJson, PortDigits(p))) == PortDigits(p) + InitialPort[|PortDigits(p)|..]
  {
    var digits := PortDigits(p);
    PortDigitsLength(p);
    ReadWithin(digits, |digits|);
    assert CopyLength(digits, |digits|) == |digits|;
    var copied := StrNCpy(InitialPort, digits, |digits|);
    assert copied == digits + InitialPort[|digits|..];
  }

  /** The text of the port buffer after p's digits: the digits, then the
      zeros of "9000" they did not cover. */
  function PortText(p: nat): string {
    var len := |Decimal(p)|;
    Decimal(p) + ZeroDigits(if len < 4 then 4 - len else 0)
  }

  lemma PortBufferText(p: nat)
    requires p <= 99999
    ensures |PortDigits(p)| <= 5
    ensures 0 in PortDigits(p) + InitialPort[|PortDigits(p)|..]
    ensures CStringOf(PortDigits(p) + InitialPort[|PortDigits(p)|..]) == PortText(p)
  {
    var digits := PortDigits(p);
    var len := |digits|;
    PortDigitsLength(p);
    var b := digits + InitialPort[len..];
    var expected := PortText(p);
    forall i | 0 <= i < |expected| ensures expected[i] != '\0' && expected[i] as int == b[i] {
      if i < len {
        assert IsDigit(Decimal(p)[i]);
      } else {
        assert b[i] == InitialPort[i];
      }
    }
    assert b[|expected|] == 0;
    CStringOfDigits(b, expected);
  }

  lemma MulBound(a: nat, b: nat, x: nat, y: nat)
    requires a <= x && b <= y
    ensures a * b <= x * y
  {
    assert a * b <= x * b;
  }

  /** Digits followed by up to three zero digits read as the value scaled. */
  lemma PaddedValue(p: nat, tail: nat)
    requires p <= 99999 && tail <= 3
    ensures AllDigits(Decimal(p) + ZeroDigits(tail), 10)
    ensures StrToUL(Decimal(p) + ZeroDigits(tail), 10) == p * Pow10(tail)
  {
    DigitsThenZeros(Decimal(p), tail);
    DecimalValue(p);
    assert Pow10(tail) <= 1000 by {
      assert Pow10(1) == 10 && Pow10(2) == 100 && Pow10(3) == 1000;
    }
    MulBound(p, Pow10(tail), 99999, 1000);
    StrToULOfDigits(Decimal(p) + ZeroDigits(tail));
  }

  lemma PortTextValue(p: nat)
    requires p <= 99999
    ensures StrToUL(PortText(p), 10) == PortReading(p)
  {
    var len := |Decimal(p)|;
    var tail := if len < 4 then 4 - len else 0;
    PaddedValue(p, tail);
  }

  /** The buffer JsonDigitsOverlay leaves reads as PortReading(p). */
  lemma PortBufferReads(p: nat)
    requires p <= 99999
    ensures |PortDigits(p)| <= 5
    ensures 0 in PortDigits(p) + InitialPort[|PortDigits(p)|..]
    ensures StrToUL(CStringOf(PortDigits(p) + InitialPort[|PortDigits(p)|..]), 10) == PortReading(p)
  {
    PortBufferText(p);
    PortTextValue(p);
  }

  /** A reply whose only JSON record carries the digits of p reads as p when
      there are four or five digits; shorter values keep the trailing zeros of
      the default "9000", so "81" reads as 8100. */
  lemma SingleJsonPort(pre: seq<Record>, p: nat, post: seq<Record>, verbose: bool)
    requires p <= 99999
    requires forall k :: 0 <= k < |pre| ==> pre[k].tag != TagJson
    requires forall k :: 0 <= k < |post| ==> post[k].tag != TagJson
    requires ValidRecords(pre + [Record(TagJson, PortDigits(p))] + post)
    requires |EncodeReply(pre + [Record(TagJson, PortDigits(p))] + post)| <= BufSize
    ensures Readable(Some(EncodeReply(pre + [Record(TagJson, PortDigits(p))] + post)), verbose)
    ensures ReadDiscovery(Some(EncodeReply(pre + [Record(TagJson, PortDigits(p))] + post)), verbose) == PortReading(p)
  {
    var json := [Record(TagJson, PortDigits(p))];
    var rs := pre + json + post;
    OverlayAppend(InitialPort, pre + json, post);
    OverlayAppend(InitialPort, pre, json);
    OverlayWithoutJson(InitialPort, pre);
    JsonDigitsOverlay(p);
    PortBufferReads(p);
    var copied := Apply(InitialPort, json[0]);
    assert Overlay(InitialPort, json) == Overlay(copied, []);
    OverlayWithoutJson(copied, post);
    assert Overlay(InitialPort, rs) == copied;
    ReadEncodedReply(rs, verbose);
  }

  // ---------------------------------------------------------------------------
  // The loop guard as written
  // ---------------------------------------------------------------------------

  /** read_discovery's guard pos < (size - 5) as the 32-bit target evaluates
      it: size is a signed ssize_t (int), pos an unsigned int, so size - 5 is
      converted to unsigned and a negative difference wraps around. */
  predicate GuardAsWritten(pos: nat, size: nat)
    requires pos <= ULongMax && size <= BufSize
  {
    pos < (size - 5) % (ULongMax + 1)
  }

  /** A reply of one to four bytes passes the guard at position 1, so the
      loop reads the length byte at position 5, past the received data; the
      walk above uses the signed guard and stops at once. */
  lemma ShortReplyOverreads(size: nat)
    requires 1 <= size <= 4
    ensures GuardAsWritten(1, size)
    ensures 1 + 4 >= size
    ensures !(1 + 5 < size)
  {
  }

  /** The signed guard stops a reply of at most five bytes before its first
      record: the port buffer stays as it was. */
  lemma ShortReplyStops(d: seq<Byte>, port: seq<Byte>, verbose: bool)
    requires 1 <= |d| <= 5 && |port| == PortSize
    ensures Walk(d, 1, port, verbose) == Some(port)
  {
  }

  /** From five bytes on, the wrapped guard and the signed guard agree. */
  lemma GuardsAgreeFrom5(pos: nat, size: nat)
    requires pos <= ULongMax && 5 <= size <= BufSize
    ensures GuardAsWritten(pos, size) <==> pos + 5 < size
  {
  }
}

=== FILE: gpio.dfy ===
/** The GPIO input registry of squeezerotate.c (the implementation behind the
    interface sbpd/GPIO.h declares): fixed pools of 17 buttons and 8 rotary
    encoders, the interrupt routines that re-sample every registered device,
    and the quadrature transition table. Pin levels are inputs to the update
    step; installing an interrupt handler is recorded only as the edge handed
    to it. */
module Gpio {
  import opened Wrappers

  const MaxButtons: nat := 17
  const MaxEncoders: nat := 8

  /** wiringPi's interrupt edge selectors. */
  const EdgeSetup: int := 0
  const EdgeFalling: int := 1
  const EdgeRising: int := 2
  const EdgeBoth: int := 3

  /** Names a callback function; None stands for a NULL callback pointer. */
  type CallbackId = nat

  /** A 2-bit quadrature code (pin A is the high bit) and a 4-bit transition
      code (previous code in the high bits). */
  type Code2 = c: int | 0 <= c < 4
  type Code4 = c: int | 0 <= c < 16

  datatype Button = Button(pin: int, value: bool, callback: Option<CallbackId>)

  datatype Encoder = Encoder(pinA: int, pinB: int, value: int, lastEncoded: Code2, callback: Option<CallbackId>)

  /** A statically allocated array of slots; the first count are registered. */
  datatype Pool<T> = Pool(slots: seq<T>, count: nat)

  predicate ValidPool<T>(p: Pool<T>, capacity: nat) {
    |p.slots| == capacity && p.count <= capacity
  }

  /** The zero-initialised static arrays. */
  function EmptyButtons(): Pool<Button> {
    Pool(seq(MaxButtons, _ => Button(0, false, None)), 0)
  }

  function EmptyEncoders(): Pool<Encoder> {
    Pool(seq(MaxEncoders, _ => Encoder(0, 0, 0, 0, None)), 0)
  }

  // ---------------------------------------------------------------------------
  // Registration
  // ---------------------------------------------------------------------------

  /** The outcome of a setup call: the slot taken and the edge the interrupt
      handler was installed with, or the NULL result of a full pool. */
  datatype Registration = Registered(slot: nat, edge: int) | Full

  datatype Setup<T> = Setup(pool: Pool<T>, reg: Registration)

  /** The edge handed to wiringPiISR: anything but falling or rising means both. */
  function InterruptEdge(edge: int): int {
    if edge != EdgeFalling && edge != EdgeRising then EdgeBoth else edge
  }

  /** The common body of setupbutton and setupencoder, with the capacity guard
      corrected to reject a full pool. */
  function SetupSlot<T>(p: Pool<T>, capacity: nat, item: T, edge: int): (r: Setup<T>)
    requires ValidPool(p, capacity)
    ensures ValidPool(r.pool, capacity)
    ensures r.reg.Registered? <==> p.count < capacity
    ensures r.reg.Full? ==> r.pool == p
    ensures r.reg.Registered? ==>
      && r.reg.slot == p.count
      && r.pool.count == p.count + 1
      && r.pool.slots == p.slots[p.count := item]
      && r.reg.edge in {EdgeFalling, EdgeRising, EdgeBoth}
      && (edge == EdgeFalling || edge == EdgeRising ==> r.reg.edge == edge)
  {
    if p.count >= capacity then Setup(p, Full)
    else Setup(Pool(p.slots[p.count := item], p.count + 1), Registered(p.count, InterruptEdge(edge)))
  }

  /** setupbutton: the next slot gets the pin and callback with value false. */
  function SetupButton(p: Pool<Button>, pin: int, callback: Option<CallbackId>, edge: int): (r: Setup<Button>)
    requires ValidPool(p, MaxButtons)
    ensures ValidPool(r.pool, MaxButtons)
    ensures r.reg.Registered? <==> p.count < MaxButtons
    ensures r.reg.Full? ==> r.pool == p
    ensures r.reg.Registered? ==>
      && r.reg.slot == p.count
      && r.pool.count == p.count + 1
      && r.pool.slots[p.count] == Button(pin, false, callback)
      && (forall i :: 0 <= i < MaxButtons && i != p.count ==> r.pool.slots[i] == p.slots[i])
      && (edge == EdgeFalling || edge == EdgeRising ==> r.reg.edge == edge)
      && (edge != EdgeFalling && edge != EdgeRising ==> r.reg.edge == EdgeBoth)
  {
    SetupSlot(p, MaxButtons, Button(pin, false, callback), edge)
  }

  /** setupencoder: the next slot gets both pins and the callback, with value 0
      and previous code 0. */
  function SetupEncoder(p: Pool<Encoder>, pinA: int, pinB: int, callback: Option<CallbackId>, edge: int): (r: Setup<Encoder>)
    requires ValidPool(p, MaxEncoders)
    ensures ValidPool(r.pool, MaxEncoders)
    ensures r.reg.Registered? <==> p.count < MaxEncoders
    ensures r.reg.Full? ==> r.pool == p
    ensures r.reg.Registered? ==>
      && r.reg.slot == p.count
      && r.pool.count == p.count + 1
      && r.pool.slots[p.count] == Encoder(pinA, pinB, 0, 0, callback)
      && (forall i :: 0 <= i < MaxEncoders && i != p.count ==> r.pool.slots[i] == p.slots[i])
      && (edge == EdgeFalling || edge == EdgeRising ==> r.reg.edge == edge)
      && (edge != EdgeFalling && edge != EdgeRising ==> r.reg.edge == EdgeBoth)
  {
    SetupSlot(p, MaxEncoders, Encoder(pinA, pinB, 0, 0, callback), edge)
  }

  /** Registering devices one after another. */
  function SetupAll<T>(p: Pool<T>, capacity: nat, items: seq<T>, edge: int): (r: (Pool<T>, seq<Registration>))
    requires ValidPool(p, capacity)
    ensures ValidPool(r.0, capacity) && |r.1| == |items|
    decreases |items|
  {
    if |items| == 0 then (p, [])
    else
      var s := SetupSlot(p, capacity, items[0], edge);
      var rest := SetupAll(s.pool, capacity, items[1..], edge);
      (rest.0, [s.reg] + rest.1)
  }

  /** Of a run of registrations exactly those that find a free slot succeed,
      each taking the next slot in order: on an empty pool the first 17
      buttons (8 encoders) are installed and every later call fails. */
  lemma {:induction false} SetupAllFillsInOrder<T>(p: Pool<T>, capacity: nat, items: seq<T>, edge: int)
    requires ValidPool(p, capacity)
    ensures var r := SetupAll(p, capacity, items, edge);
      && (forall i :: 0 <= i < |items| ==> (r.1[i].Registered? <==> p.count + i < capacity))
      && (forall i :: 0 <= i < |items| && r.1[i].Registered? ==> r.1[i].slot == p.count + i)
      && r.0.count == if p.count + |items| < capacity then p.count + |items| else capacity
    decreases |items|
  {
    if |items| > 0 {
      var s := SetupSlot(p, capacity, items[0], edge);
      SetupAllFillsInOrder(s.pool, capacity, items[1..], edge);
      var r := SetupAll(p, capacity, items, edge);
      var rest := SetupAll(s.pool, capacity, items[1..], edge);
      assert r.1 == [s.reg] + rest.1;
      forall i | 1 <= i < |items|
        ensures r.1[i].Registered? <==> p.count + i < capacity
        ensures r.1[i].Registered? ==> r.1[i].slot == p.count + i
      {
        assert r.1[i] == rest.1[i - 1];
      }
    }
  }

  /** The slot setupbutton/setupencoder write AS WRITTEN: the guard
      `count > max` lets a call on a full pool through, and it then writes the
      slot with index max, one past the end of the array. */
  function SetupSlotAsWritten(count: nat, capacity: nat): (slot: Option<nat>)
    ensures slot.Some? <==> count <= capacity
    ensures slot.Some? ==> slot.value == count
  {
    if count > capacity then None else Some(count)
  }

  /** Away from a full pool the guard as written and the corrected guard agree:
      both register the next slot. On a full pool the corrected guard refuses
      while the guard as written hands out the index one past the array. */
  lemma SetupGuardsAgree<T>(p: Pool<T>, capacity: nat, item: T, edge: int)
    requires ValidPool(p, capacity)
    ensures p.count != capacity <==> SetupSlotAsWritten(p.count, capacity).Some? == SetupSlot(p, capacity, item, edge).reg.Registered?
    ensures SetupSlot(p, capacity, item, edge).reg.Registered? ==>
      SetupSlotAsWritten(p.count, capacity) == Some(SetupSlot(p, capacity, item, edge).reg.slot)
    ensures p.count == capacity ==> SetupSlotAsWritten(p.count, capacity) == Some(|p.slots|)
  {
  }

  /** On a full button pool setupbutton as written passes its guard and
      indexes buttons[17], past the 17 slots, where the corrected guard refuses. */
  lemma ButtonGuardOverruns(p: Pool<Button>, pin: int, callback: Option<CallbackId>, edge: int)
    requires ValidPool(p, MaxButtons) && p.count == MaxButtons
    ensures SetupSlotAsWritten(p.count, MaxButtons) == Some(|p.slots|)
    ensures SetupButton(p, pin, callback, edge).reg.Full?
  {
  }

  /** On a full encoder pool setupencoder as written passes its guard and
      indexes encoders[8], past the 8 slots, where the corrected guard refuses. */
  lemma EncoderGuardOverruns(p: Pool<Encoder>, pinA: int, pinB: int, callback: Option<CallbackId>, edge: int)
    requires ValidPool(p, MaxEncoders) && p.count == MaxEncoders
    ensures SetupSlotAsWritten(p.count, MaxEncoders) == Some(|p.slots|)
    ensures SetupEncoder(p, pinA, pinB, callback, edge).reg.Full?
  {
  }

  // ---------------------------------------------------------------------------
  // Interrupt routines
  // ---------------------------------------------------------------------------

  /** One callback invocation: the slot of the device and the change passed. */
  datatype Notification = Notification(slot: nat, change: int)

  /** The callback invocations of one interrupt, given per registered slot
      whether it has a callback and the change it would report. */
  function Notifications(callbacks: seq<bool>, changes: seq<int>): seq<Notification>
    requires |callbacks| == |changes|
    decreases |callbacks|
  {
    if |callbacks| == 0 then []
    else
      var n := |callbacks| - 1;
      var prior := Notifications(callbacks[..n], changes[..n]);
      if callbacks[n] then prior + [Notification(n, changes[n])] else prior
  }

  /** Every notification names a slot with a callback and carries its
      change, in strictly increasing slot order. */
  predicate NotifiesSoundly(callbacks: seq<bool>, changes: seq<int>, ns: seq<Notification>)
    requires |callbacks| == |changes|
  {
    && (forall k :: 0 <= k < |ns| ==>
          ns[k].slot < |callbacks| && callbacks[ns[k].slot] && ns[k].change == changes[ns[k].slot])
    && (forall k, l :: 0 <= k < l < |ns| ==> ns[k].slot < ns[l].slot)
  }

  /** Exactly the slots with a callback are notified, each once, in slot
      order, with that slot's change. */
  predicate NotifiesExactly(callbacks: seq<bool>, changes: seq<int>, ns: seq<Notification>)
    requires |callbacks| == |changes|
  {
    NotifiesSoundly(callbacks, changes, ns) && NotifiesAll(callbacks, ns)
  }

  /** Every slot with a callback is notified. */
  predicate NotifiesAll(callbacks: seq<bool>, ns: seq<Notification>) {
    forall i :: 0 <= i < |callbacks| && callbacks[i] ==> exists k :: 0 <= k < |ns| && ns[k].slot == i
  }

  lemma {:induction false} NotificationsSound(callbacks: seq<bool>, changes: seq<int>)
    requires |callbacks| == |changes|
    ensures NotifiesSoundly(callbacks, changes, Notifications(callbacks, changes))
    decreases |callbacks|
  {
    if |callbacks| > 0 {
      var n := |callbacks| - 1;
      NotificationsSound(callbacks[..n], changes[..n]);
      var prior := Notifications(callbacks[..n], changes[..n]);
      forall k | 0 <= k < |prior|
        ensures prior[k].slot < n && callbacks[prior[k].slot] && prior[k].change == changes[prior[k].slot]
      {
        assert callbacks[..n][prior[k].slot] && changes[..n][prior[k].slot] == prior[k].change;
      }
      var ns := Notifications(callbacks, changes);
      assert forall k :: 0 <= k < |prior| ==> ns[k] == prior[k];
    }
  }

  /** Every slot with a callback is notified. */
  lemma {:induction false} NotificationsComplete(callbacks: seq<bool>, changes: seq<int>)
    requires |callbacks| == |changes|
    ensures NotifiesAll(callbacks, Notifications(callbacks, changes))
    decreases |callbacks|
  {
    if |callbacks| > 0 {
      var n := |callbacks| - 1;
      var prior := Notifications(callbacks[..n], changes[..n]);
      NotificationsComplete(callbacks[..n], changes[..n]);
      var ns := Notifications(callbacks, changes);
      assert forall k :: 0 <= k < |prior| ==> ns[k] == prior[k];
      forall i | 0 <= i < |callbacks| && callbacks[i]
        ensures exists k :: 0 <= k < |ns| && ns[k].slot == i
      {
        if i < n {
          assert callbacks[..n][i];
          var k :| 0 <= k < |prior| && prior[k].slot == i;
          assert ns[k].slot == i;
        } else {
          assert ns[|prior|].slot == i;
        }
      }
    }
  }

  lemma NotificationsExact(callbacks: seq<bool>, changes: seq<int>)
    requires |callbacks| == |changes|
    ensures NotifiesExactly(callbacks, changes, Notifications(callbacks, changes))
  {
    NotificationsSound(callbacks, changes);
    NotificationsComplete(callbacks, changes);
  }

  function Level(b: bool): int { if b then 1 else 0 }

  /** The change updateButtons reports for a button whose stored value was
      `stored` and whose pin now reads `sample`. */
  function ButtonChange(stored: bool, sample: bool): (change: int)
    ensures change == Level(sample) - Level(stored)
  {
    if stored != sample then (if sample then 1 else -1) else 0
  }

  datatype ButtonInterrupt = ButtonInterrupt(pool: Pool<Button>, fired: seq<Notification>)

  /** updateButtons: every registered button is re-sampled (samples[i] is the
      level of slot i's pin), its stored value becomes the sample, and its
      callback, if any, fires exactly once, in slot order, even with change 0. */
  function UpdateButtons(p: Pool<Button>, samples: seq<bool>): (r: ButtonInterrupt)
    requires ValidPool(p, MaxButtons) && |samples| == p.count
    ensures ValidPool(r.pool, MaxButtons) && r.pool.count == p.count
    ensures forall i :: 0 <= i < p.count ==> r.pool.slots[i] == p.slots[i].(value := samples[i])
    ensures forall i :: p.count <= i < MaxButtons ==> r.pool.slots[i] == p.slots[i]
    ensures forall k :: 0 <= k < |r.fired| ==>
      var i := r.fired[k].slot;
      i < p.count && p.slots[i].callback.Some? && r.fired[k].change == Level(samples[i]) - Level(p.slots[i].value)
    ensures forall k, l :: 0 <= k < l < |r.fired| ==> r.fired[k].slot < r.fired[l].slot
    ensures forall i :: 0 <= i < p.count && p.slots[i].callback.Some? ==>
      exists k :: 0 <= k < |r.fired| && r.fired[k].slot == i
  {
    var callbacks := seq(p.count, i requires 0 <= i < p.count => p.slots[i].callback.Some?);
    var changes := seq(p.count, i requires 0 <= i < p.count => ButtonChange(p.slots[i].value, samples[i]));
    var slots := seq(MaxButtons, i requires 0 <= i < MaxButtons =>
      if i < p.count then p.slots[i].(value := samples[i]) else p.slots[i]);
    assert forall i :: 0 <= i < p.count ==> callbacks[i] == p.slots[i].callback.Some?;
    NotificationsExact(callbacks, changes);
    ButtonInterrupt(Pool(slots, p.count), Notifications(callbacks, changes))
  }

  // ---------------------------------------------------------------------------
  // Quadrature decoding
  // ---------------------------------------------------------------------------

  /** (MSB << 1) | LSB with MSB read from pin A and LSB from pin B. */
  function Encode(msb: bool, lsb: bool): Code2 {
    (if msb then 2 else 0) + (if lsb then 1 else 0)
  }

  /** (lastEncoded << 2) | encoded. */
  function Transition(last: Code2, now: Code2): Code4 {
    last * 4 + now
  }

  /** Position of a code on the quadrature cycle 11 -> 01 -> 00 -> 10 -> 11. */
  function Phase(c: Code2): int {
    if c == 3 then 0 else if c == 1 then 1 else if c == 0 then 2 else 3
  }

  /** Reference meaning of a transition: one step forward along the cycle is
      +1, one step back is -1; staying put or jumping two phases (both pins
      flipped) is 0. */
  function GrayStep(last: Code2, now: Code2): int {
    var d := (Phase(now) - Phase(last)) % 4;
    if d == 1 then 1 else if d == 3 then -1 else 0
  }

  /** The increment updateEncoders derives from a 4-bit transition code. */
  function Increment(sum: Code4): (inc: int)
    ensures inc == GrayStep(sum / 4, sum % 4)
  {
    var up := if sum == 13 || sum == 4 || sum == 2 || sum == 11 then 1 else 0;
    if sum == 14 || sum == 7 || sum == 1 || sum == 8 then -1 else up
  }

  /** The table in full: +1 for 1101, 0100, 0010, 1011; -1 for 1110, 0111,
      0001, 1000; 0 for the remaining eight. */
  lemma IncrementTable(sum: Code4)
    ensures Increment(sum) == 1 <==> sum in {13, 4, 2, 11}
    ensures Increment(sum) == -1 <==> sum in {14, 7, 1, 8}
    ensures Increment(sum) == 0 <==> sum in {0, 3, 5, 6, 9, 10, 12, 15}
  {
  }

  /** Reversing a transition negates its increment. */
  lemma IncrementAntisymmetric(a: Code2, b: Code2)
    ensures Increment(Transition(a, b)) == -Increment(Transition(b, a))
  {
    assert Transition(a, b) / 4 == a && Transition(a, b) % 4 == b;
    assert Transition(b, a) / 4 == b && Transition(b, a) % 4 == a;
  }

  /** One encoder's part of updateEncoders. */
  function StepEncoder(e: Encoder, msb: bool, lsb: bool): (r: Encoder)
    ensures r.value == e.value + GrayStep(e.lastEncoded, Encode(msb, lsb))
    ensures r.lastEncoded == Encode(msb, lsb)
    ensures r.pinA == e.pinA && r.pinB == e.pinB && r.callback == e.callback
  {
    var encoded := Encode(msb, lsb);
    var sum := Transition(e.lastEncoded, encoded);
    assert sum / 4 == e.lastEncoded && sum % 4 == encoded;
    e.(value := e.value + Increment(sum), lastEncoded := encoded)
  }

  /** The step StepEncoder takes is the table's increment. */
  lemma StepIncrement(e: Encoder, msb: bool, lsb: bool)
    ensures StepEncoder(e, msb, lsb).value - e.value == Increment(Transition(e.lastEncoded, Encode(msb, lsb)))
  {
  }

  /** The level pair read from pins A and B of one encoder. */
  datatype PinPair = PinPair(a: bool, b: bool)

  datatype EncoderInterrupt = EncoderInterrupt(pool: Pool<Encoder>, fired: seq<Notification>)

  /** The encoder slots after every registered encoder stepped on its sample. */
  function StepAll(p: Pool<Encoder>, samples: seq<PinPair>): (slots: seq<Encoder>)
    requires ValidPool(p, MaxEncoders) && |samples| == p.count
    ensures |slots| == MaxEncoders
    ensures forall i :: 0 <= i < p.count ==> slots[i] == StepEncoder(p.slots[i], samples[i].a, samples[i].b)
    ensures forall i :: p.count <= i < MaxEncoders ==> slots[i] == p.slots[i]
  {
    seq(MaxEncoders, i requires 0 <= i < MaxEncoders =>
      if i < p.count then StepEncoder(p.slots[i], samples[i].a, samples[i].b) else p.slots[i])
  }

  /** The increment each registered encoder derives from its transition,
      which is how far its value moves. */
  function EncoderChanges(p: Pool<Encoder>, samples: seq<PinPair>): (changes: seq<int>)
    requires ValidPool(p, MaxEncoders) && |samples| == p.count
    ensures |changes| == p.count
    ensures forall i :: 0 <= i < p.count ==>
      changes[i] == StepEncoder(p.slots[i], samples[i].a, samples[i].b).value - p.slots[i].value
  {
    var changes := seq(p.count, i requires 0 <= i < p.count =>
      Increment(Transition(p.slots[i].lastEncoded, Encode(samples[i].a, samples[i].b))));
    assert forall i :: 0 <= i < p.count ==>
      changes[i] == StepEncoder(p.slots[i], samples[i].a, samples[i].b).value - p.slots[i].value by {
      forall i | 0 <= i < p.count
        ensures changes[i] == StepEncoder(p.slots[i], samples[i].a, samples[i].b).value - p.slots[i].value
      {
        StepIncrement(p.slots[i], samples[i].a, samples[i].b);
      }
    }
    changes
  }

  /** updateEncoders: every registered encoder takes one step on its sampled
      pin pair; its callback, if any, receives exactly that step's increment. */
  function UpdateEncoders(p: Pool<Encoder>, samples: seq<PinPair>): (r: EncoderInterrupt)
    requires ValidPool(p, MaxEncoders) && |samples| == p.count
    ensures ValidPool(r.pool, MaxEncoders) && r.pool.count == p.count
    ensures forall i :: 0 <= i < p.count ==>
      r.pool.slots[i] == StepEncoder(p.slots[i], samples[i].a, samples[i].b)
    ensures forall i :: p.count <= i < MaxEncoders ==> r.pool.slots[i] == p.slots[i]
    ensures forall k :: 0 <= k < |r.fired| ==>
      var i := r.fired[k].slot;
      && i < p.count && p.slots[i].callback.Some?
      && r.fired[k].change == r.pool.slots[i].value - p.slots[i].value
    ensures forall k, l :: 0 <= k < l < |r.fired| ==> r.fired[k].slot < r.fired[l].slot
    ensures forall i :: 0 <= i < p.count && p.slots[i].callback.Some? ==>
      exists k :: 0 <= k < |r.fired| && r.fired[k].slot == i
  {
    var callbacks := seq(p.count, i requires 0 <= i < p.count => p.slots[i].callback.Some?);
    var changes := EncoderChanges(p, samples);
    var slots := StepAll(p, samples);
    assert forall i :: 0 <= i < p.count ==> callbacks[i] == p.slots[i].callback.Some?;
    NotificationsExact(callbacks, changes);
    EncoderInterrupt(Pool(slots, p.count), Notifications(callbacks, changes))
  }

  // ---------------------------------------------------------------------------
  // Runs of interrupts on one device
  // ---------------------------------------------------------------------------

  /** The changes a single button reports over a run of samples. */
  function ButtonChanges(stored: bool, samples: seq<bool>): (cs: seq<int>)
    ensures |cs| == |samples|
    decreases |samples|
  {
    if |samples| == 0 then []
    else [ButtonChange(stored, samples[0])] + ButtonChanges(samples[0], samples[1..])
  }

  function Sum(xs: seq<int>): int
    decreases |xs|
  {
    if |xs| == 0 then 0 else xs[0] + Sum(xs[1..])
  }

  /** Over any run of interrupts a button's reported changes add up to its
      net level change: presses and releases balance, chatter adds nothing. */
  lemma {:induction false} ButtonChangesTelescope(stored: bool, samples: seq<bool>)
    requires |samples| > 0
    ensures Sum(ButtonChanges(stored, samples)) == Level(samples[|samples| - 1]) - Level(stored)
    ensures forall k :: 0 <= k < |samples| ==> -1 <= ButtonChanges(stored, samples)[k] <= 1
    decreases |samples|
  {
    if |samples| > 1 {
      ButtonChangesTelescope(samples[0], samples[1..]);
    }
  }

  /** The encoder after a run of interrupts. */
  function RunEncoder(e: Encoder, samples: seq<PinPair>): Encoder
    decreases |samples|
  {
    if |samples| == 0 then e
    else RunEncoder(StepEncoder(e, samples[0].a, samples[0].b), samples[1..])
  }

  function CodeOf(s: PinPair): Code2 { Encode(s.a, s.b) }

  /** The run moves exactly one phase forward (dir == 1) or back (dir == 3)
      at every sample. */
  predicate SteadyTurn(last: Code2, samples: seq<PinPair>, dir: int) {
    forall k :: 0 <= k < |samples| ==> (Phase(CodeOf(samples[k])) - Phase(Before(last, samples, k))) % 4 == dir
  }

  /** The code in force just before sample k. */
  function Before(last: Code2, samples: seq<PinPair>, k: nat): Code2
    requires k <= |samples|
  {
    if k == 0 then last else CodeOf(samples[k - 1])
  }

  /** A steady turn stays steady from its second sample on. */
  lemma SteadyTurnTail(last: Code2, samples: seq<PinPair>, dir: int)
    requires |samples| > 0 && SteadyTurn(last, samples, dir)
    ensures SteadyTurn(CodeOf(samples[0]), samples[1..], dir)
  {
    var c, rest := CodeOf(samples[0]), samples[1..];
    forall k | 0 <= k < |rest|
      ensures (Phase(CodeOf(rest[k])) - Phase(Before(c, rest, k))) % 4 == dir
    {
      assert rest[k] == samples[k + 1];
      assert Before(c, rest, k) == Before(last, samples, k + 1);
    }
  }

  /** The first sample of a steady turn moves the count by one. */
  lemma SteadyFirstStep(e: Encoder, samples: seq<PinPair>, dir: int)
    requires dir == 1 || dir == 3
    requires |samples| > 0 && SteadyTurn(e.lastEncoded, samples, dir)
    ensures StepEncoder(e, samples[0].a, samples[0].b).value == e.value + (if dir == 1 then 1 else -1)
  {
    assert (Phase(CodeOf(samples[0])) - Phase(Before(e.lastEncoded, samples, 0))) % 4 == dir;
  }

  /** Turning steadily clockwise adds one per sample, counter-clockwise
      subtracts one per sample; the pins stay as they were. */
  lemma {:induction false} SteadyTurnCounts(e: Encoder, samples: seq<PinPair>, dir: int)
    requires dir == 1 || dir == 3
    requires SteadyTurn(e.lastEncoded, samples, dir)
    ensures RunEncoder(e, samples).value == e.value + (if dir == 1 then |samples| else -|samples|)
    ensures |samples| > 0 ==> RunEncoder(e, samples).lastEncoded == CodeOf(samples[|samples| - 1])
    ensures RunEncoder(e, samples).pinA == e.pinA && RunEncoder(e, samples).pinB == e.pinB
    decreases |samples|
  {
    if |samples| > 0 {
      var e' := StepEncoder(e, samples[0].a, samples[0].b);
      var rest := samples[1..];
      SteadyFirstStep(e, samples, dir);
      SteadyTurnTail(e.lastEncoded, samples, dir);
      assert e'.lastEncoded == CodeOf(samples[0]);
      SteadyTurnCounts(e', rest, dir);
      assert RunEncoder(e, samples) == RunEncoder(e', rest);
      if |rest| > 0 {
        assert rest[|rest| - 1] == samples[|samples| - 1];
      }
    }
  }

  /** One full clockwise detent cycle 11 -> 01 -> 00 -> 10 -> 11 adds 4. */
  lemma ClockwiseCycleAddsFour(e: Encoder)
    requires e.lastEncoded == 3
    ensures RunEncoder(e, [PinPair(false, true), PinPair(false, false), PinPair(true, false), PinPair(true, true)]).value == e.value + 4
  {
    var samples := [PinPair(false, true), PinPair(false, false), PinPair(true, false), PinPair(true, true)];
    assert SteadyTurn(e.lastEncoded, samples, 1);
    SteadyTurnCounts(e, samples, 1);
  }

  /** The reverse cycle 11 -> 10 -> 00 -> 01 -> 11 subtracts 4. */
  lemma CounterClockwiseCycleSubtractsFour(e: Encoder)
    requires e.lastEncoded == 3
    ensures RunEncoder(e, [PinPair(true, false), PinPair(false, false), PinPair(false, true), PinPair(true, true)]).value == e.value - 4
  {
    var samples := [PinPair(true, false), PinPair(false, false), PinPair(false, true), PinPair(true, true)];
    assert SteadyTurn(e.lastEncoded, samples, 3);
    SteadyTurnCounts(e, samples, 3);
  }
}

=== FILE: inet.dfy ===
/** The two address conversions the discovery uses: inet_ntoa, which prints
    an in_addr_t as dotted decimal, and inet_addr, which reads it back. An
    in_addr_t holds the address in network byte order; on the little-endian
    Raspberry Pi the first octet is therefore the least significant byte of
    the 32-bit value. */
module Inet {
  import opened Wrappers
  import opened CString
  import opened SbpdDefs

  /** INADDR_NONE, what inet_addr returns for a string it cannot read. */
  const InAddrNone: UInt32 := 0xFFFF_FFFF

  datatype Octets = Octets(o0: nat, o1: nat, o2: nat, o3: nat)

  predicate ValidOctets(q: Octets) {
    q.o0 < 256 && q.o1 < 256 && q.o2 < 256 && q.o3 < 256
  }

  /** The value whose bytes, least significant first, are the octets. */
  function FromOctets(q: Octets): (a: nat)
    requires ValidOctets(q)
    ensures a <= UInt32Max
  {
    q.o0 + 256 * (q.o1 + 256 * (q.o2 + 256 * q.o3))
  }

  /** The bytes of an address, least significant first: the dotted order. */
  function ToOctets(a: UInt32): (q: Octets)
    ensures ValidOctets(q)
    ensures FromOctets(q) == a
  {
    var b1 := a / 256;
    var b2 := b1 / 256;
    var b3 := b2 / 256;
    Octets(a % 256, b1 % 256, b2 % 256, b3)
  }

  /** The low byte and the rest of a value are determined by the value. */
  lemma LowByteSplit(a: nat, x: nat, b: nat, y: nat)
    requires a < 256 && b < 256 && a + 256 * x == b + 256 * y
    ensures a == b && x == y
  {
  }

  /** Distinct octets give distinct addresses. */
  lemma FromOctetsInjective(q: Octets, r: Octets)
    requires ValidOctets(q) && ValidOctets(r) && FromOctets(q) == FromOctets(r)
    ensures q == r
  {
    LowByteSplit(q.o0, q.o1 + 256 * (q.o2 + 256 * q.o3), r.o0, r.o1 + 256 * (r.o2 + 256 * r.o3));
    LowByteSplit(q.o1, q.o2 + 256 * q.o3, r.o1, r.o2 + 256 * r.o3);
    LowByteSplit(q.o2, q.o3, r.o2, r.o3);
  }

  function Fields(q: Octets): seq<string> {
    [Decimal(q.o0), Decimal(q.o1), Decimal(q.o2), Decimal(q.o3)]
  }

  /** inet_ntoa. */
  function Ntoa(a: UInt32): string {
    Join(Fields(ToOctets(a)), '.')
  }

  /** A decimal field inet_addr reads back as written: digits only, no
      leading zero, at most 255. */
  predicate CanonicalOctet(p: string) {
    && 1 <= |p| <= 3
    && AllDigits(p, 10)
    && (p[0] != '0' || |p| == 1)
    && DigitsValue(p, 10) < 256
  }

  /** inet_addr for strings of four canonical dotted-decimal fields; any other
      string gives None. */
  function ParseDotted(s: string): Option<UInt32> {
    var ts := Tokens(s, '.');
    if |ts| == 4 && Join(ts, '.') == s
       && CanonicalOctet(ts[0]) && CanonicalOctet(ts[1]) && CanonicalOctet(ts[2]) && CanonicalOctet(ts[3])
    then Some(FromOctets(Octets(DigitsValue(ts[0], 10), DigitsValue(ts[1], 10), DigitsValue(ts[2], 10), DigitsValue(ts[3], 10))))
    else None
  }

  /** inet_addr as the discovery calls it. */
  function InetAddr(s: string): UInt32 {
    match ParseDotted(s)
    case Some(a) => a
    case None => InAddrNone
  }

  lemma DecimalIsCanonicalOctet(n: nat)
    requires n < 256
    ensures CanonicalOctet(Decimal(n))
    ensures DigitsValue(Decimal(n), 10) == n
  {
    DecimalLength(n, 3, 1000);
    DecimalValue(n);
  }

  lemma {:induction false} FirstDigitBound(p: string)
    requires |p| >= 1 && AllDigits(p, 10)
    ensures DigitsValue(p, 10) >= DigitValue(p[0])
    decreases |p|
  {
    if |p| > 1 {
      FirstDigitBound(p[..|p| - 1]);
    }
  }

  /** A canonical decimal is what %d prints for its value. */
  lemma {:induction false} DecimalOfDigits(p: string)
    requires |p| >= 1 && AllDigits(p, 10) && (p[0] != '0' || |p| == 1)
    ensures Decimal(DigitsValue(p, 10)) == p
    decreases |p|
  {
    var v := DigitsValue(p, 10);
    if |p| == 1 {
      assert p[..0] == [];
      assert v == DigitsValue(p[..0], 10) * 10 + DigitValue(p[0]);
      assert [DigitChar(v)] == p;
    } else {
      var q := p[..|p| - 1];
      var c := p[|p| - 1];
      assert q[0] == p[0];
      DecimalOfDigits(q);
      FirstDigitBound(q);
      assert DigitsValue(q, 10) >= 1;
      assert v == DigitsValue(q, 10) * 10 + DigitValue(c);
      assert v / 10 == DigitsValue(q, 10) && v % 10 == DigitValue(c);
      assert DigitChar(DigitValue(c)) == c;
      assert p == q + [c];
    }
  }

  lemma FieldsProper(a: UInt32)
    ensures ProperTokens(Fields(ToOctets(a)), '.')
  {
    var fs := Fields(ToOctets(a));
    forall k | 0 <= k < 4 ensures '.' !in fs[k] {
      assert AllDigits(fs[k], 10);
    }
  }

  /** inet_addr reads back every address inet_ntoa prints. */
  lemma NtoaRoundTrip(a: UInt32)
    ensures ParseDotted(Ntoa(a)) == Some(a)
    ensures InetAddr(Ntoa(a)) == a
  {
    var q := ToOctets(a);
    FieldsProper(a);
    TokensOfJoin(Fields(q), '.');
    DecimalIsCanonicalOctet(q.o0);
    DecimalIsCanonicalOctet(q.o1);
    DecimalIsCanonicalOctet(q.o2);
    DecimalIsCanonicalOctet(q.o3);
  }

  /** Every string inet_addr reads is what inet_ntoa prints for the result. */
  lemma ParseDottedCanonical(s: string)
    requires ParseDotted(s).Some?
    ensures Ntoa(ParseDotted(s).value) == s
  {
    var ts := Tokens(s, '.');
    var q := Octets(DigitsValue(ts[0], 10), DigitsValue(ts[1], 10), DigitsValue(ts[2], 10), DigitsValue(ts[3], 10));
    var a := FromOctets(q);
    assert ToOctets(a) == q by {
      FromOctetsInjective(ToOctets(a), q);
    }
    DecimalOfDigits(ts[0]);
    DecimalOfDigits(ts[1]);
    DecimalOfDigits(ts[2]);
    DecimalOfDigits(ts[3]);
    assert Fields(q) == ts;
  }

  /** The dotted form fits the 16-byte buffer _write_server_string copies it
      into, terminating NUL included. */
  lemma NtoaFits(a: UInt32)
    ensures |Ntoa(a)| <= 15
  {
    var q := ToOctets(a);
    DecimalLength(q.o0, 3, 1000);
    DecimalLength(q.o1, 3, 1000);
    DecimalLength(q.o2, 3, 1000);
    DecimalLength(q.o3, 3, 1000);
    var fs := Fields(q);
    assert fs[1..][1..] == fs[2..] && fs[2..][1..] == fs[3..];
    assert |Join(fs[3..], '.')| == |fs[3]|;
    assert |Join(fs[2..], '.')| == |fs[2]| + 1 + |fs[3]|;
    assert |Join(fs[1..], '.')| == |fs[1]| + 1 + |fs[2]| + 1 + |fs[3]|;
  }
}

=== FILE: options.dfy ===
/** The daemon's start-up configuration in sbpd/sbpd.c: parse_opt, the argp
    callback that records the command-line options and sets up a GPIO
    control for every positional device spec; loglevel; and the step of
    main that finds the player's MAC address. */
module Options {
  import opened Wrappers
  import opened CString
  import opened SbpdDefs
  import Control

  /** The argp keys parse_opt distinguishes: option characters, a positional
      argument, and the end of the arguments. */
  const KeyArg: int := 0
  const KeyEnd: int := 0x1000001

  /** ARGP_ERR_UNKNOWN, which glibc defines as E2BIG. */
  const ArgpErrUnknown: int := 7

  /** The option characters parse_opt handles. */
  const KeyVerbose: int := 'v' as int
  const KeySilent: int := 's' as int
  const KeyDaemonize: int := 'd' as int
  const KeyMac: int := 'M' as int
  const KeyAddress: int := 'A' as int
  const KeyPort: int := 'P' as int
  const KeyUser: int := 'u' as int
  const KeyPassword: int := 'p' as int
  /** Declared in the option table, but parse_opt has no case for it. */
  const KeyKill: int := 'k' as int

  /** The static variables parse_opt writes. */
  datatype Options = Options(
    configured: Params,
    server: Server,
    mac: Option<string>,
    streamLevel: int,
    sysLevel: int,
    dev: Control.Device)

  /** The values main starts with: nothing configured, stream logging at
      LOG_NOTICE, syslog at LOG_ALERT, no GPIO controls. */
  function InitialOptions(): (o: Options)
    ensures Control.Valid(o.dev)
  {
    Options({}, NoServer, None, LogNotice, LogAlert, Control.InitialDevice())
  }

  predicate TakesArgument(key: int) {
    key == KeyMac || key == KeyAddress || key == KeyPort || key == KeyUser || key == KeyPassword
  }

  predicate Handled(key: int) {
    || key == KeyVerbose || key == KeySilent || key == KeyDaemonize
    || TakesArgument(key) || key == KeyArg || key == KeyEnd
  }

  // ---------------------------------------------------------------------------
  // Device specs
  // ---------------------------------------------------------------------------

  /** What parse_opt reads from the comma-separated tokens of a positional
      argument. */
  datatype Spec =
    | EncoderSpec(pinA: int, pinB: int, encoderCmd: Option<string>, edge: int)
    | ButtonSpec(pin: int, cmd: string, edge: int)
    | OtherKind     // a one-character kind other than e and b: ignored
    | BadKind       // a first token longer than one character: rejected

  /** A numeric field: strtol of the token, 0 when strtok found none. */
  function Field(ts: seq<string>, i: nat): (v: int)
    ensures i >= |ts| ==> v == 0
  {
    if i < |ts| then StrToL(ts[i]) else 0
  }

  /** The token lists parse_opt can read without dereferencing NULL: strlen
      is applied to the first token, and for a button to the command. */
  predicate SpecReadable(ts: seq<string>) {
    |ts| >= 1 && (ts[0] == "b" ==> |ts| >= 3)
  }

  function ParseSpec(ts: seq<string>): (s: Spec)
    requires SpecReadable(ts)
    ensures s.BadKind? <==> |ts[0]| != 1
    ensures s.EncoderSpec? <==> ts[0] == "e"
    ensures s.ButtonSpec? <==> ts[0] == "b"
    // a missing token leaves its field out: NULL for the command, 0 for a number
    ensures s.EncoderSpec? ==>
      && (s.encoderCmd.Some? <==> |ts| >= 4)
      && (s.encoderCmd.Some? ==> s.encoderCmd.value == ts[3])
      && (|ts| < 3 ==> s.pinB == 0) && (|ts| < 5 ==> s.edge == 0)
    ensures s.ButtonSpec? ==> s.cmd == ts[2] && (|ts| < 4 ==> s.edge == 0)
  {
    if |ts[0]| != 1 then BadKind
    else if ts[0][0] == 'e' then
      EncoderSpec(Field(ts, 1), Field(ts, 2), if |ts| > 3 then Some(ts[3]) else None, Field(ts, 4))
    else if ts[0][0] == 'b' then
      ButtonSpec(Field(ts, 1), ts[2], Field(ts, 3))
    else OtherKind
  }

  /** A button spec as a user writes it: b,pin,CMD,edge. */
  function ButtonArgument(pin: nat, cmd: string, edge: nat): string {
    Join(["b", Decimal(pin), cmd, Decimal(edge)], ',')
  }

  /** Every button spec written in the documented form reads back as
      written, for pins and edges that fit a long. */
  lemma ButtonSpecRoundTrip(pin: nat, cmd: string, edge: nat)
    requires pin <= LongMax && edge <= LongMax
    requires |cmd| > 0 && ',' !in cmd
    ensures SpecReadable(Tokens(ButtonArgument(pin, cmd, edge), ','))
    ensures ParseSpec(Tokens(ButtonArgument(pin, cmd, edge), ',')) == ButtonSpec(pin, cmd, edge)
  {
    var ts := ["b", Decimal(pin), cmd, Decimal(edge)];
    assert ProperTokens(ts, ',') by {
      assert AllDigits(Decimal(pin), 10) && AllDigits(Decimal(edge), 10);
    }
    TokensOfJoin(ts, ',');
    StrToLOfDecimal(pin);
    StrToLOfDecimal(edge);
  }

  /** An encoder spec as a user writes it: e,pinA,pinB,CMD,edge. */
  function EncoderArgument(pinA: nat, pinB: nat, cmd: string, edge: nat): string {
    Join(["e", Decimal(pinA), Decimal(pinB), cmd, Decimal(edge)], ',')
  }

  /** Every encoder spec written in the documented form reads back as
      written, the command included, for pins and edges that fit a long. */
  lemma EncoderSpecRoundTrip(pinA: nat, pinB: nat, cmd: string, edge: nat)
    requires pinA <= LongMax && pinB <= LongMax && edge <= LongMax
    requires |cmd| > 0 && ',' !in cmd
    ensures SpecReadable(Tokens(EncoderArgument(pinA, pinB, cmd, edge), ','))
    ensures ParseSpec(Tokens(EncoderArgument(pinA, pinB, cmd, edge), ',')) == EncoderSpec(pinA, pinB, Some(cmd), edge)
  {
    var ts := ["e", Decimal(pinA), Decimal(pinB), cmd, Decimal(edge)];
    assert ProperTokens(ts, ',') by {
      assert AllDigits(Decimal(pinA), 10) && AllDigits(Decimal(pinB), 10) && AllDigits(Decimal(edge), 10);
    }
    TokensOfJoin(ts, ',');
    StrToLOfDecimal(pinA);
    StrToLOfDecimal(pinB);
    StrToLOfDecimal(edge);
  }

  /** The short form e,pinA,pinB leaves the command out (NULL) and the edge
      at its default 0. */
  lemma ShortEncoderSpec(pinA: nat, pinB: nat)
    requires pinA <= LongMax && pinB <= LongMax
    ensures SpecReadable(Tokens(Join(["e", Decimal(pinA), Decimal(pinB)], ','), ','))
    ensures ParseSpec(Tokens(Join(["e", Decimal(pinA), Decimal(pinB)], ','), ',')) == EncoderSpec(pinA, pinB, None, 0)
  {
    var ts := ["e", Decimal(pinA), Decimal(pinB)];
    assert ProperTokens(ts, ',') by {
      assert AllDigits(Decimal(pinA), 10) && AllDigits(Decimal(pinB), 10);
    }
    TokensOfJoin(ts, ',');
    StrToLOfDecimal(pinA);
    StrToLOfDecimal(pinB);
  }

  /** strtok skips empty fields: b,17,,1 yields three tokens. */
  lemma EmptyFieldSkipped()
    ensures Tokens("b,17,,1", ',') == ["b", "17", "1"]
  {
    assert FieldLength("1", ',') == 1 by { assert "1"[1..] == ""; }
    assert Tokens("1", ',') == ["1"] by { assert "1"[..1] == "1" && "1"[1..] == ""; }
    assert Tokens(",,1", ',') == ["1"] by { assert ",,1"[1..] == ",1" && ",1"[1..] == "1"; }
    assert FieldLength("17,,1", ',') == 2 by { assert "17,,1"[1..] == "7,,1" && "7,,1"[1..] == ",,1"; }
    assert Tokens("17,,1", ',') == ["17", "1"] by { assert "17,,1"[..2] == "17" && "17,,1"[2..] == ",,1"; }
    assert FieldLength("b,17,,1", ',') == 1 by { assert "b,17,,1"[1..] == ",17,,1"; }
    assert "b,17,,1"[..1] == "b" && "b,17,,1"[1..] == ",17,,1" && ",17,,1"[1..] == "17,,1";
  }

  /** A button spec of three tokens takes its pin from the second and its
      command from the third, with the default edge 0. */
  lemma ThreeTokenButton(ts: seq<string>)
    requires |ts| == 3 && ts[0] == "b"
    ensures SpecReadable(ts)
    ensures ParseSpec(ts) == ButtonSpec(StrToL(ts[1]), ts[2], 0)
  {
  }

  /** So a spec with its command left out reads the edge as the command:
      b,17,,1 asks for command "1" on pin 17 with the default edge 0. */
  lemma EmptyFieldShifts()
    ensures SpecReadable(Tokens("b,17,,1", ','))
    ensures ParseSpec(Tokens("b,17,,1", ',')) == ButtonSpec(17, "1", 0)
  {
    EmptyFieldSkipped();
    ThreeTokenButton(["b", "17", "1"]);
    assert Decimal(17) == "17";
    StrToLOfDecimal(17);
  }

  /** and no button is set up for it. */
  lemma ShiftedCommandRejected(d: Control.Device)
    requires Control.Valid(d)
    ensures Control.SetupButtonCtrl(d, "1", 17, 0) == Control.Setup(d, -1)
  {
    assert "1" !in Control.CommandTable;
  }

  datatype Parsed = Parsed(status: int, opts: Options)

  /** A positional argument: the spec's device is set up on the controls;
      the setup's result is not looked at. */
  function ParseArgument(arg: string, o: Options): (r: Parsed)
    requires Control.Valid(o.dev) && IsCString(arg) && SpecReadable(Tokens(arg, ','))
    ensures Control.Valid(r.opts.dev)
    ensures r.opts == o.(dev := r.opts.dev)
    // only a first token of more than one character is refused; other kinds are ignored
    ensures r.status == ArgpErrUnknown <==> ParseSpec(Tokens(arg, ',')).BadKind?
    ensures r.status != ArgpErrUnknown ==> r.status == 0
    ensures ParseSpec(Tokens(arg, ',')).BadKind? || ParseSpec(Tokens(arg, ',')).OtherKind? ==> r.opts == o
    // a button or encoder spec goes through the control setup, whose status is dropped
    ensures var spec := ParseSpec(Tokens(arg, ','));
      spec.ButtonSpec? ==> IsCString(spec.cmd) && r.opts.dev == Control.SetupButtonCtrl(o.dev, spec.cmd, spec.pin, spec.edge).dev
    ensures var spec := ParseSpec(Tokens(arg, ','));
      spec.EncoderSpec? ==> r.opts.dev == Control.SetupEncoderCtrl(o.dev, spec.encoderCmd, spec.pinA, spec.pinB, spec.edge).dev
  {
    match ParseSpec(Tokens(arg, ','))
    case BadKind => Parsed(ArgpErrUnknown, o)
    case OtherKind => Parsed(0, o)
    case EncoderSpec(pinA, pinB, cmd, edge) =>
      Parsed(0, o.(dev := Control.SetupEncoderCtrl(o.dev, cmd, pinA, pinB, edge).dev))
    case ButtonSpec(pin, cmd, edge) =>
      Parsed(0, o.(dev := Control.SetupButtonCtrl(o.dev, cmd, pin, edge).dev))
  }

  /** What parse_opt needs of the argument argp passes with a key. */
  predicate ArgumentOk(key: int, arg: Option<string>) {
    && (TakesArgument(key) ==> arg.Some?)
    && (key == KeyArg ==> arg.Some? && IsCString(arg.value) && SpecReadable(Tokens(arg.value, ',')))
  }

  /** parse_opt. */
  function ParseOpt(key: int, arg: Option<string>, o: Options): (r: Parsed)
    requires Control.Valid(o.dev) && ArgumentOk(key, arg)
    ensures Control.Valid(r.opts.dev)
    ensures r.status == 0 || r.status == ArgpErrUnknown
    ensures r.status == ArgpErrUnknown <==>
      !Handled(key) || (key == KeyArg && ParseSpec(Tokens(arg.value, ',')).BadKind?)
    ensures r.status != 0 ==> r.opts == o
    // the log levels: only v and s touch the stream level; nothing touches syslog's
    ensures r.opts.sysLevel == o.sysLevel
    ensures r.opts.streamLevel ==
      if key == KeyVerbose then LogDebug else if key == KeySilent then 0 else o.streamLevel
    // each argument-taking option stores its argument and marks its parameter configured
    ensures key == KeyMac ==> r.opts == o.(mac := arg, configured := o.configured + {CfgMac})
    ensures key == KeyAddress ==> r.opts == o.(server := o.server.(host := arg), configured := o.configured + {CfgHost})
    ensures key == KeyPort ==>
      r.opts == o.(server := o.server.(port := StrToUL(arg.value, 10)), configured := o.configured + {CfgPort})
    ensures key == KeyUser ==> r.opts == o.(server := o.server.(user := arg), configured := o.configured + {CfgUser})
    ensures key == KeyPassword ==>
      r.opts == o.(server := o.server.(password := arg), configured := o.configured + {CfgPassword})
    ensures key != KeyArg ==> r.opts.dev == o.dev
    // -v and -s touch only the stream level; -d and the end of the arguments touch nothing
    ensures key == KeyVerbose || key == KeySilent ==> r.opts == o.(streamLevel := r.opts.streamLevel)
    ensures key == KeyDaemonize || key == KeyEnd ==> r == Parsed(0, o)
    // a positional argument is handed to the spec parser and its setup call
    ensures key == KeyArg ==> r == ParseArgument(arg.value, o)
  {
    if key == KeyVerbose then Parsed(0, o.(streamLevel := LogDebug))
    else if key == KeySilent then Parsed(0, o.(streamLevel := 0))
    else if key == KeyDaemonize then Parsed(0, o)
    else if key == KeyMac then Parsed(0, o.(mac := arg, configured := o.configured + {CfgMac}))
    else if key == KeyAddress then Parsed(0, o.(server := o.server.(host := arg), configured := o.configured + {CfgHost}))
    else if key == KeyPort then
      Parsed(0, o.(server := o.server.(port := StrToUL(arg.value, 10)), configured := o.configured + {CfgPort}))
    else if key == KeyUser then Parsed(0, o.(server := o.server.(user := arg), configured := o.configured + {CfgUser}))
    else if key == KeyPassword then
      Parsed(0, o.(server := o.server.(password := arg), configured := o.configured + {CfgPassword}))
    else if key == KeyArg then ParseArgument(arg.value, o)
    else if key == KeyEnd then Parsed(0, o)
    else Parsed(ArgpErrUnknown, o)
  }

  /** A button spec in the documented form, for a command without commas or
      NUL, is a positional argument parse_opt accepts, and it sets up exactly
      that button. */
  lemma ButtonArgumentSetsUp(pin: nat, cmd: string, edge: nat, o: Options)
    requires Control.Valid(o.dev)
    requires pin <= LongMax && edge <= LongMax
    requires |cmd| > 0 && ',' !in cmd && IsCString(cmd)
    ensures ArgumentOk(KeyArg, Some(ButtonArgument(pin, cmd, edge)))
    ensures ParseOpt(KeyArg, Some(ButtonArgument(pin, cmd, edge)), o) ==
      Parsed(0, o.(dev := Control.SetupButtonCtrl(o.dev, cmd, pin, edge).dev))
  {
    DecimalIsCString(pin);
    DecimalIsCString(edge);
    JoinIsCString(["b", Decimal(pin), cmd, Decimal(edge)], ',');
    ButtonSpecRoundTrip(pin, cmd, edge);
  }

  /** The kill option is declared but not handled: argp is told it is
      unknown. */
  lemma KillOptionRejected(o: Options)
    requires Control.Valid(o.dev)
    ensures ParseOpt(KeyKill, None, o) == Parsed(ArgpErrUnknown, o)
  {
  }

  // ---------------------------------------------------------------------------
  // A whole command line
  // ---------------------------------------------------------------------------

  datatype Call = Call(key: int, arg: Option<string>)

  /** argp's special keys other than ARGP_KEY_ARG and ARGP_KEY_END:
      ARGP_KEY_NO_ARGS (0x1000002) up to ARGP_KEY_FINI (0x1000007). */
  predicate SpecialKey(key: int) {
    0x1000000 < key <= 0x1000007 && key != KeyEnd
  }

  /** A call argp makes to parse_opt that the model covers. */
  predicate CallOk(c: Call) {
    ArgumentOk(c.key, c.arg) && !SpecialKey(c.key)
  }

  /** The calls argp makes with option keys, positional arguments and
      ARGP_KEY_END, in order, until one is refused (argp then reports the
      error and exits: None). argp's other special keys (ARGP_KEY_INIT,
      ARGP_KEY_NO_ARGS, ARGP_KEY_SUCCESS, ARGP_KEY_FINI and the like), for
      which argp ignores ARGP_ERR_UNKNOWN, are not among the calls. */
  function ParseAll(calls: seq<Call>, o: Options): (r: Option<Options>)
    requires Control.Valid(o.dev)
    requires forall k :: 0 <= k < |calls| ==> CallOk(calls[k])
    ensures r.Some? ==> Control.Valid(r.value.dev)
    decreases |calls|
  {
    if |calls| == 0 then Some(o)
    else
      assert CallOk(calls[0]);
      var p := ParseOpt(calls[0].key, calls[0].arg, o);
      if p.status != 0 then None else ParseAll(calls[1..], p.opts)
  }

  /** The configured flags agree with what is stored: a flag is set exactly
      when its value was given. */
  predicate Consistent(o: Options) {
    && (Has(o.configured, CfgMac) <==> o.mac.Some?)
    && (Has(o.configured, CfgHost) <==> o.server.host.Some?)
    && (Has(o.configured, CfgUser) <==> o.server.user.Some?)
    && (Has(o.configured, CfgPassword) <==> o.server.password.Some?)
  }

  lemma ParseOptConsistent(key: int, arg: Option<string>, o: Options)
    requires Control.Valid(o.dev) && ArgumentOk(key, arg) && Consistent(o)
    ensures Consistent(ParseOpt(key, arg, o).opts)
  {
  }

  /** Whatever command line argp parses, the flags main hands on agree with
      the values stored. */
  lemma {:induction false} ParseAllConsistent(calls: seq<Call>, o: Options)
    requires Control.Valid(o.dev) && Consistent(o)
    requires forall k :: 0 <= k < |calls| ==> CallOk(calls[k])
    ensures ParseAll(calls, o).Some? ==> Consistent(ParseAll(calls, o).value)
    decreases |calls|
  {
    if |calls| > 0 {
      ParseOptConsistent(calls[0].key, calls[0].arg, o);
      var p := ParseOpt(calls[0].key, calls[0].arg, o);
      assert forall k :: 0 <= k < |calls[1..]| ==> calls[1..][k] == calls[k + 1];
      ParseAllConsistent(calls[1..], p.opts);
    }
  }

  // ---------------------------------------------------------------------------
  // Log level
  // ---------------------------------------------------------------------------

  /** loglevel: the more verbose of the two destinations. */
  function LogLevel(o: Options): (level: int)
    ensures level >= o.streamLevel && level >= o.sysLevel
    ensures level == o.streamLevel || level == o.sysLevel
  {
    if o.sysLevel > o.streamLevel then o.sysLevel else o.streamLevel
  }

  /** The level read_discovery compares with LOG_NOTICE to decide whether to
      copy the server's name and UUID. */
  predicate Verbose(o: Options) {
    LogLevel(o) >= LogNotice
  }

  /** The last of -v and -s on the command line decides: without -s the log
      level reaches LOG_NOTICE, after -s it is LOG_ALERT and read_discovery
      stays quiet. */
  function LastLevelKey(calls: seq<Call>): (k: Option<int>)
    ensures k == None || k == Some(KeyVerbose) || k == Some(KeySilent)
    decreases |calls|
  {
    if |calls| == 0 then None
    else
      var k := calls[|calls| - 1].key;
      if k == KeyVerbose || k == KeySilent then Some(k) else LastLevelKey(calls[..|calls| - 1])
  }

  lemma {:induction false} LevelFollowsLastKey(calls: seq<Call>, o: Options)
    requires Control.Valid(o.dev)
    requires forall k :: 0 <= k < |calls| ==> CallOk(calls[k])
    requires ParseAll(calls, o).Some?
    ensures var level := ParseAll(calls, o).value.streamLevel;
      match LastLevelKey(calls)
      case None => level == o.streamLevel
      case Some(k) => level == if k == KeyVerbose then LogDebug else 0
    ensures ParseAll(calls, o).value.sysLevel == o.sysLevel
    decreases |calls|
  {
    if |calls| > 0 {
      var n := |calls| - 1;
      var front := calls[..n];
      assert forall k :: 0 <= k < |front| ==> front[k] == calls[k];
      assert calls == front + [calls[n]];
      ParseAllSnoc(front, calls[n], o);
      assert ParseAll(front, o).Some?;
      LevelFollowsLastKey(front, o);
      var q := ParseOpt(calls[n].key, calls[n].arg, ParseAll(front, o).value);
      assert ParseAll(calls, o) == Some(q.opts);
      assert LastLevelKey(calls) ==
        if calls[n].key == KeyVerbose || calls[n].key == KeySilent then Some(calls[n].key) else LastLevelKey(front);
    }
  }

  /** Parsing one more call continues from where the shorter line ended. */
  lemma {:induction false} ParseAllSnoc(calls: seq<Call>, c: Call, o: Options)
    requires Control.Valid(o.dev)
    requires forall k :: 0 <= k < |calls| ==> CallOk(calls[k])
    requires CallOk(c)
    ensures forall k :: 0 <= k < |calls + [c]| ==> CallOk((calls + [c])[k])
    ensures ParseAll(calls + [c], o) ==
      match ParseAll(calls, o)
      case None => None
      case Some(p) => (var q := ParseOpt(c.key, c.arg, p); if q.status != 0 then None else Some(q.opts))
    decreases |calls|
  {
    var all := calls + [c];
    assert forall k :: 0 <= k < |all| ==> CallOk(all[k]) by {
      forall k | 0 <= k < |all| ensures CallOk(all[k]) {
        if k < |calls| { assert all[k] == calls[k]; }
      }
    }
    if |calls| == 0 {
      assert all == [c];
      assert all[1..] == [];
    } else {
      assert all[0] == calls[0];
      assert all[1..] == calls[1..] + [c];
      var p := ParseOpt(calls[0].key, calls[0].arg, o);
      if p.status == 0 {
        assert forall k :: 0 <= k < |calls[1..]| ==> calls[1..][k] == calls[k + 1];
        ParseAllSnoc(calls[1..], c, p.opts);
      }
    }
  }

  /** With the default syslog level, the daemon is verbose unless -s came last. */
  lemma VerboseUnlessSilenced(calls: seq<Call>)
    requires forall k :: 0 <= k < |calls| ==> CallOk(calls[k])
    requires ParseAll(calls, InitialOptions()).Some?
    ensures Verbose(ParseAll(calls, InitialOptions()).value) <==> LastLevelKey(calls) != Some(KeySilent)
  {
    var o := InitialOptions();
    LevelFollowsLastKey(calls, o);
    var p := ParseAll(calls, o).value;
    assert p.sysLevel == LogAlert;
    if LastLevelKey(calls) == None {
      assert p.streamLevel == LogNotice;
    } else if LastLevelKey(calls) == Some(KeyVerbose) {
      assert p.streamLevel == LogDebug;
    } else {
      assert p.streamLevel == 0;
    }
  }

  // ---------------------------------------------------------------------------
  // The MAC address
  // ---------------------------------------------------------------------------

  datatype Startup = Startup(mac: string, discovered: Params)

  /** main's MAC step: a configured MAC is used as given; otherwise the
      address find_mac reports is used and marked discovered, and without
      one main returns -1 (None). */
  function StartupMac(o: Options, discovered: Params, found: Option<string>): (r: Option<Startup>)
    requires Consistent(o)
    ensures r.None? <==> !Has(o.configured, CfgMac) && found.None?
    ensures r.Some? && Has(o.configured, CfgMac) ==> r.value == Startup(o.mac.value, discovered)
    ensures r.Some? && !Has(o.configured, CfgMac) ==>
      && r.value.mac == found.value
      && Has(r.value.discovered, CfgMac)
      && Has(r.value.discovered, CfgHost) == Has(discovered, CfgHost)
      && Has(r.value.discovered, CfgPort) == Has(discovered, CfgPort)
    // only the MAC bit is added
    ensures r.Some? && !Has(o.configured, CfgMac) ==> r.value.discovered == discovered + {CfgMac}
  {
    if Has(o.configured, CfgMac) then Some(Startup(o.mac.value, discovered))
    else if found.None? then None
    else
      Some(Startup(found.value, discovered + {CfgMac}))
  }
}

=== FILE: sbpd_defs.dfy ===
/** The shared definitions of sbpd.h: the configured/discovered parameter bits,
    the server record, the poll-loop timing and the syslog priorities. */
module SbpdDefs {
  import opened Wrappers

  /** The sbpd_config_parameters_t flags (host 0x1, port 0x2, user 0x4,
      password 0x8, MAC 0x1000); a flag word is the set of flags it has. */
  datatype Flag = CfgHost | CfgPort | CfgUser | CfgPassword | CfgMac

  type Params = set<Flag>

  predicate Has(p: Params, flag: Flag) { flag in p }

  /** The flags other than host and port, which the discovery never touches. */
  function Others(p: Params): Params { p - {CfgHost, CfgPort} }

  const UInt32Max: nat := 0xFFFF_FFFF
  type UInt32 = n: nat | n <= UInt32Max

  /** struct sbpd_server: a missing host, user or password is a NULL pointer. */
  datatype Server = Server(host: Option<string>, port: UInt32, user: Option<string>, password: Option<string>)

  const NoServer := Server(None, 0, None, None)

  /** The main loop sleeps this many microseconds between polls. */
  const SleepTimeout: nat := 100000
  const Second: nat := 1000000

  /** syslog priorities. */
  const LogAlert: int := 1
  const LogNotice: int := 5
  const LogDebug: int := 7
}

=== FILE: scenarios.dfy ===
/** Runs through several parts of the daemon at once: a button from its
    command-line spec to the fragment sent, an encoder from its pin samples
    to the volume command, and the discovery from the TCP table to a
    complete server record. */
module Scenarios {
  import opened Wrappers
  import opened CString
  import opened SbpdDefs
  import Gpio
  import Control
  import Options
  import opened Inet
  import opened TcpTable
  import opened DiscoveryProtocol
  import opened Discovery

  /** The positional argument b,PIN,VOL+,3 sets up a VOL+ button on the pin;
      nothing is sent before the first interrupt, and after any interrupt
      every poll sends the volume-up fragment. */
  lemma VolumeUpButton(pin: nat, samples: seq<bool>)
    requires pin <= LongMax && |samples| == 1
    ensures Options.ArgumentOk(Options.KeyArg, Some(Options.ButtonArgument(pin, "VOL+", 3)))
    ensures var p := Options.ParseOpt(Options.KeyArg, Some(Options.ButtonArgument(pin, "VOL+", 3)), Options.InitialOptions());
      && p.status == 0
      && p.opts.dev.buttons.count == 1
      && Control.WaitingFragments(p.opts.dev.buttonCtrls) == []
      && Control.WaitingFragments(Control.ButtonInterrupt(p.opts.dev, samples).buttonCtrls) == [Control.FragmentVolumeUp]
  {
    var o := Options.InitialOptions();
    assert IsCString("VOL+") && ',' !in "VOL+";
    Options.ButtonArgumentSetsUp(pin, "VOL+", 3, o);
    var s := Control.SetupButtonCtrl(o.dev, "VOL+", pin, 3);
    assert "VOL+" in Control.CommandTable;
    assert Control.CommandTable["VOL+"] == Control.FragmentVolumeUp;
    var ctrls := s.dev.buttonCtrls;
    assert ctrls == [Control.ButtonCtrl(Some(0), false, Control.FragmentVolumeUp)];
    assert ctrls[..0] == [];
    var pressed := Control.ButtonInterrupt(s.dev, samples).buttonCtrls;
    assert pressed == [Control.ButtonCtrl(Some(0), true, Control.FragmentVolumeUp)];
    assert pressed[..0] == [];
  }

  /** A freshly set-up encoder turned steadily clockwise by n steps, with
      0 < n <= 100: the next poll sends "+n" and, once that send succeeded,
      the poll after it sends nothing. */
  lemma EncoderTurn(samples: seq<Gpio.PinPair>, sendOk: bool)
    requires 1 <= |samples| <= Control.DeltaCap
    requires Gpio.SteadyTurn(0, samples, 1)
    ensures var d := Control.SetupEncoderCtrl(Control.InitialDevice(), None, 5, 6, Gpio.EdgeBoth).dev;
      var e := Gpio.RunEncoder(d.encoders.slots[0], samples);
      var p := Control.PollEncoder(d.encoderCtrls[0], e.value, true);
      && p.sent == Some(Control.VolumeHead + "+" + Decimal(|samples|) + Control.VolumeTail)
      && Control.PollEncoder(p.ctrl, e.value, sendOk).sent == None
  {
    var d := Control.SetupEncoderCtrl(Control.InitialDevice(), None, 5, 6, Gpio.EdgeBoth).dev;
    var e0 := d.encoders.slots[0];
    assert e0 == Gpio.Encoder(5, 6, 0, 0, Some(Control.EncoderRotateCallback));
    Gpio.SteadyTurnCounts(e0, samples, 1);
    var e := Gpio.RunEncoder(e0, samples);
    assert e.value == |samples|;
    var p := Control.PollEncoder(d.encoderCtrls[0], e.value, true);
    Control.QuietAfterSuccess(d.encoderCtrls[0], e.value, sendOk);
  }

  /** The reply a server on JSON port 9010 sends. */
  function Reply9010(): seq<Byte> {
    EncodeReply([Record(TagJson, PortDigits(9010))])
  }

  lemma Reply9010Reads(verbose: bool)
    ensures Readable(Some(Reply9010()), verbose)
    ensures ReadDiscovery(Some(Reply9010()), verbose) == 9010
    ensures IsReply(Some(Reply9010()))
  {
    var r := Record(TagJson, PortDigits(9010));
    var rs := [r];
    assert Decimal(9010) == "9010";
    PortDigitsLength(9010);
    assert rs[1..] == [];
    assert |EncodeRecords(rs)| == 5 + |PortDigits(9010)|;
    assert rs == [] + [r] + [];
    SingleJsonPort([], 9010, [], verbose);
    assert Received(Reply9010()) == Reply9010();
  }

  /** Nothing configured, first poll: the search timer is due, the TCP
      table shows the server, and the discovery request goes to it. */
  lemma FirstPoll(table: seq<string>, a: UInt32, datagram: Option<seq<Byte>>, verbose: bool)
    requires GetServerIPv4(Some(table), 0) == Scan(true, a)
    requires datagram.Some? ==> !IsReply(datagram)
    ensures PollReadable({}, {}, NoServer, InitialState, Some(table), datagram, verbose)
    ensures Poll({}, {}, NoServer, InitialState, Some(table), datagram, verbose)
      == PollResult({CfgHost}, NoServer, State(SearchInterval, a, Open(a)), Some(a))
  {
    assert KnownAddress(NoServer) == 0;
    var h := HostSearch({}, {}, NoServer, InitialState, Some(table));
    assert h == PollResult({CfgHost}, NoServer, State(SearchInterval, a, Open(a)), Some(a));
  }

  /** With only the host discovered, a reply naming a nonzero port on the
      open socket completes the server record and closes the socket. */
  lemma ReplyOnOpenSocket(h: PollResult, reply: seq<Byte>, port: UInt32, verbose: bool)
    requires h.discovered == {CfgHost} && h.state.socket.Open?
    requires IsReply(Some(reply)) && Readable(Some(reply), verbose)
    requires ReadDiscovery(Some(reply), verbose) == port != 0
    ensures Readable(Delivered(h.state.socket, Some(reply)), verbose)
    ensures PortSearch({}, h, Some(reply), verbose)
      == h.(state := h.state.(socket := Closed),
            server := h.server.(host := Some(Ntoa(h.state.foundAddr)), port := port),
            discovered := {CfgHost, CfgPort})
  {
    assert {CfgHost} + {CfgPort} == {CfgHost, CfgPort};
  }

  /** A later poll while the search timer runs down: a reply that names a
      nonzero port arrives on the open socket, completes the server record
      and closes the socket. */
  lemma SecondPoll(t: UInt32, a: UInt32, reply: seq<Byte>, port: UInt32, verbose: bool)
    requires t > 0
    requires IsReply(Some(reply)) && Readable(Some(reply), verbose)
    requires ReadDiscovery(Some(reply), verbose) == port != 0
    ensures PollReadable({}, {CfgHost}, NoServer, State(t, a, Open(a)), None, Some(reply), verbose)
    ensures Poll({}, {CfgHost}, NoServer, State(t, a, Open(a)), None, Some(reply), verbose)
      == PollResult({CfgHost, CfgPort}, Server(Some(Ntoa(a)), port, None, None), State(t - 1, a, Closed), None)
  {
    var h := HostSearch({}, {CfgHost}, NoServer, State(t, a, Open(a)), None);
    assert h == PollResult({CfgHost}, NoServer, State(t - 1, a, Open(a)), None);
    ReplyOnOpenSocket(h, reply, port, verbose);
  }

  /** Nothing configured: the first poll finds the server's address in the
      TCP table and sends the discovery request there; the next poll reads
      the reply and completes the server record with the address and the
      port, and closes the socket. */
  lemma FullDiscovery(table: seq<string>, a: UInt32, verbose: bool)
    requires GetServerIPv4(Some(table), 0) == Scan(true, a)
    ensures PollReadable({}, {}, NoServer, InitialState, Some(table), None, verbose)
    ensures var r1 := Poll({}, {}, NoServer, InitialState, Some(table), None, verbose);
      && r1.sent == Some(a)
      && PollReadable({}, r1.discovered, r1.server, r1.state, None, Some(Reply9010()), verbose)
      && var r2 := Poll({}, r1.discovered, r1.server, r1.state, None, Some(Reply9010()), verbose);
        && r2.discovered == {CfgHost, CfgPort}
        && r2.server == Server(Some(Ntoa(a)), 9010, None, None)
        && r2.state.socket == Closed
  {
    FirstPoll(table, a, None, verbose);
    Reply9010Reads(verbose);
    SecondPoll(SearchInterval, a, Reply9010(), 9010, verbose);
  }
}

=== FILE: tcp_table.dfy ===
/** get_serverIPv4: finding the Squeezebox server among the connections of
    the Linux TCP table. The table is given as its lines; None stands for a
    table that could not be opened. */
module TcpTable {
  import opened Wrappers
  import opened CString
  import opened SbpdDefs

  /** The remote port of a connection to the server's control port 3483, as
      the table prints it. */
  const ServerPort := "0D9B"

  /** What the scan makes of one row. */
  datatype RowVerdict =
    | Stop             // no third field, or no ':' halves: the scan gives up
    | Skip             // some other connection
    | ServerRow(ip: UInt32)

  /** One row: the third space-separated field is the remote address, split
      at ':' into the hexadecimal IP and port; the port is upper-cased and
      its first four characters compared with 0D9B. */
  function ClassifyRow(line: string): (v: RowVerdict)
    ensures v.Stop? <==> |Tokens(line, ' ')| < 3 || |Tokens(Tokens(line, ' ')[2], ':')| < 2
    // past the field checks, a row is the server's exactly when its port starts with 0D9B
    ensures !v.Stop? && IsCString(line) ==>
      var parts := Tokens(Tokens(line, ' ')[2], ':');
      && (v.ServerRow? <==> |parts[1]| >= 4 && Upper(parts[1])[..4] == ServerPort)
      && (v.ServerRow? ==> v.ip == StrToUL(parts[0], 16))
  {
    var fields := Tokens(line, ' ');
    if |fields| < 3 then Stop
    else
      var parts := Tokens(fields[2], ':');
      if |parts| < 2 then Stop
      else
        PortWordMatches(parts[1]);
        if Word(Upper(parts[1])) == ServerPort then ServerRow(StrToUL(parts[0], 16))
        else Skip
  }

  /** For a C string, the STRTOU32 comparison of the upper-cased port is a
      comparison of its first four characters. */
  lemma PortWordMatches(port: string)
    ensures IsCString(port) ==> (Word(Upper(port)) == ServerPort <==> |port| >= 4 && Upper(port)[..4] == ServerPort)
  {
    if IsCString(port) {
      assert IsCString(Upper(port));
      WordMatches(Upper(port), ServerPort);
    }
  }

  datatype Scan = Scan(changed: bool, ip: UInt32)

  /** The rows after the header: the first row that is not Skip decides. */
  function ScanRows(rows: seq<string>, ip: UInt32): (r: Scan)
    ensures r.changed <==> r.ip != ip
    decreases |rows|
  {
    if |rows| == 0 then Scan(false, ip)
    else
      match ClassifyRow(rows[0])
      case Stop => Scan(false, ip)
      case Skip => ScanRows(rows[1..], ip)
      case ServerRow(found) => if found != ip then Scan(true, found) else Scan(false, ip)
  }

  /** get_serverIPv4: the header line is skipped; an unreadable or empty table
      gives false with the address unchanged. */
  function GetServerIPv4(table: Option<seq<string>>, ip: UInt32): (r: Scan)
    ensures r.changed <==> r.ip != ip
    ensures table.None? || table.value == [] ==> r == Scan(false, ip)
    // otherwise the header line is skipped and the rows after it decide
    ensures table.Some? && |table.value| > 0 ==> r == ScanRows(table.value[1..], ip)
  {
    match table
    case None => Scan(false, ip)
    case Some(lines) => if |lines| == 0 then Scan(false, ip) else ScanRows(lines[1..], ip)
  }

  /** A table whose first row after the header is a server row for a new
      address reports that address as changed, whatever the header and the
      rows after it say. */
  lemma ServerRowFound(header: string, row: string, rest: seq<string>, a: UInt32, ip: UInt32)
    requires ClassifyRow(row) == ServerRow(a) && a != ip
    ensures GetServerIPv4(Some([header, row] + rest), ip) == Scan(true, a)
  {
    assert ([header, row] + rest)[1..] == [row] + rest;
    assert ([row] + rest)[0] == row;
  }

  /** The row at index k is the first one the scan does not skip. */
  predicate FirstDecisive(rows: seq<string>, k: nat)
    requires k < |rows|
  {
    !ClassifyRow(rows[k]).Skip? && forall j :: 0 <= j < k ==> ClassifyRow(rows[j]).Skip?
  }

  /** The first decisive row alone decides the scan: a server row reports its
      address (changed when it differs), a malformed row stops the scan with
      the address unchanged, whatever the rows after it hold. */
  lemma {:induction false} FirstDecisiveDecides(rows: seq<string>, ip: UInt32, k: nat)
    requires k < |rows| && FirstDecisive(rows, k)
    ensures ClassifyRow(rows[k]).Stop? ==> ScanRows(rows, ip) == Scan(false, ip)
    ensures ClassifyRow(rows[k]).ServerRow? ==>
      ScanRows(rows, ip) == (var found := ClassifyRow(rows[k]).ip; Scan(found != ip, found))
    decreases k
  {
    if k > 0 {
      assert ClassifyRow(rows[0]).Skip?;
      assert forall j :: 0 <= j < k - 1 ==> rows[1..][j] == rows[j + 1];
      FirstDecisiveDecides(rows[1..], ip, k - 1);
    }
  }

  /** With no decisive row the scan finds nothing. */
  lemma {:induction false} AllSkippedFindsNothing(rows: seq<string>, ip: UInt32)
    requires forall j :: 0 <= j < |rows| ==> ClassifyRow(rows[j]).Skip?
    ensures ScanRows(rows, ip) == Scan(false, ip)
    decreases |rows|
  {
    if |rows| > 0 {
      assert forall j :: 0 <= j < |rows| - 1 ==> rows[1..][j] == rows[j + 1];
      AllSkippedFindsNothing(rows[1..], ip);
    }
  }

  /** A changed address always comes from the first decisive row, which is a
      server row. */
  lemma {:induction false} ChangeHasWitness(rows: seq<string>, ip: UInt32)
    requires ScanRows(rows, ip).changed
    ensures exists k :: 0 <= k < |rows| && FirstDecisive(rows, k) && ClassifyRow(rows[k]) == ServerRow(ScanRows(rows, ip).ip)
    decreases |rows|
  {
    if !ClassifyRow(rows[0]).Skip? {
      assert FirstDecisive(rows, 0);
    } else {
      ChangeHasWitness(rows[1..], ip);
      var k :| 0 <= k < |rows[1..]| && FirstDecisive(rows[1..], k) && ClassifyRow(rows[1..][k]) == ServerRow(ScanRows(rows[1..], ip).ip);
      assert forall j :: 0 <= j < k ==> rows[1..][j] == rows[j + 1];
      assert FirstDecisive(rows, k + 1);
    }
  }
}

=== FILE: wrappers.dfy ===
/** The optional value used wherever the C code passes a pointer that may be NULL. */
module Wrappers {

  datatype Option<+T> = None | Some(value: T)

}
